=== FILE: README.md ===
# EcoBazaarX in Dafny

EcoBazaarX is an eco-themed marketplace. Customers browse products with carbon
scores, fill a Smart Cart, check out and plant trees for delivered orders.
Sellers manage their catalogue. Admins approve sellers, admins and products.
This project models the core of its React front end and of its Spring back end
as pure Dafny functions over immutable data, and proves what those pieces
promise.

**Back end.** There are four modules, one per class:

- `CartService`: adding a product to a user's cart, listing the cart, removing
  a line, and the cart detail rows.
- `OrderRepository`: the order queries, including the seller and product
  aggregates that join order items.
- `AdminService`: the admin overview, the recent-activity feed, user, seller
  and product moderation with their notifications, categories, and the
  per-user and per-seller statistics.
- `DataInitializer`: seeding of the catalogue at start-up.

**Front end.** There is one module per page or component:

- `Navbar`: session detection and the cart badge.
- `AppRoutes`: the route table and the layout chrome.
- `ProtectedRoute`: the route guard.
- `Login`: form validation, the stored session and the role redirect.
- `Checkout`: loading, the totals, form validation, payment selection and
  order placement.
- `CartPage`: the Smart Cart page.
- `Products`: normalisation, the category bar and filtering.
- `ProductCard`: the product tile and its add-to-cart button.
- `Wishlist`: the wishlist page.
- `SellerDashboard`: the seller's dashboard.
- `AdminDashboard`: the admin's dashboard.
- `GreenerAlternative`: the greener-alternative panel.
- `Orders`: the orders page with its tree-planting window.
- `Profile`: the profile page.

**Shared modules.**

- `Wrappers`: `Option` and `Result`.
- `Js`: JavaScript values. It models `null` and `undefined`, truthiness, `??`,
  `||` and `?.`, `Number(...)`, `===`, `String.prototype.trim`, and the `+`
  used by `reduce`, which turns into string concatenation on a text operand.
- `Browser`: `localStorage` and `sessionStorage` as string maps, with
  `JSON.parse` and `JSON.stringify` passed in as a codec.
- `Domain`: the JPA entities. A Java `null` is `None`. The module also holds
  `String.trim`, 32-bit `Integer` addition and SQL `SUM`, which gives `NULL`
  over no non-null values.
- `Sequences`: filtering, mapping, counting, a stable descending sort and
  `limit`.

**What counts as an input.** HTTP replies, repository contents, the clock, the
carbon calculator, the locale formatter and the date parser are parameters.
A request that throws is a `Failure`. A back-end service that throws returns a
`Failure` and no new store, because the calls are transactional.

## Model

Paths are relative to the repository root.

| member | source | states |
|---|---|---|
| CartService.FindLine | ecobazaarbackend/src/main/java/com/ecobazaar/backend/service/CartService.java:37 | the line found belongs to that user and product; `None` only when no line does |
| CartService.AddToCart | ecobazaarbackend/src/main/java/com/ecobazaar/backend/service/CartService.java:30-49 | an unknown user fails with "User not found" before the product is looked up; an unknown product fails with "Product not found"; otherwise the returned line is the user's line for that product and is in the new store |
| CartService.AddToExistingLine | ecobazaarbackend/src/main/java/com/ecobazaar/backend/service/CartService.java:37-41 | when the user already has a line for the product, that line keeps its id and its quantity grows by the amount with 32-bit wrap-around; every other line and the id counter stay unchanged |
| CartService.AddNewLine | ecobazaarbackend/src/main/java/com/ecobazaar/backend/service/CartService.java:42-48 | without such a line, a new line with the next id and exactly the requested quantity is appended |
| CartService.AddToCartPreservesValid | ecobazaarbackend/src/main/java/com/ecobazaar/backend/service/CartService.java:30-49 | adding keeps line ids unique and below the counter, and keeps at most one line per user and product |
| CartService.UserLines | ecobazaarbackend/src/main/java/com/ecobazaar/backend/service/CartService.java:68 | the in-order filter of the store on the user: an ordered subsequence holding each of the user's lines exactly as often as it is stored, and no other line |
| CartService.GetCartItems | ecobazaarbackend/src/main/java/com/ecobazaar/backend/service/CartService.java:51-53 | the user's stored lines, each once as stored and in store order, and no other line |
| CartService.RemoveCartItem | ecobazaarbackend/src/main/java/com/ecobazaar/backend/service/CartService.java:59-65 | succeeds exactly when a line has the id, failing otherwise with "Cart item not found with id: N"; on success no line has the id, every other line remains and nothing is added |
| CartService.WithoutId | ecobazaarbackend/src/main/java/com/ecobazaar/backend/service/CartService.java:61 | deleting by id leaves no line with that id and keeps every other line, adding none |
| CartService.RemoveFromCart | ecobazaarbackend/src/main/java/com/ecobazaar/backend/service/CartService.java:55-57 | fails exactly on an unknown id; otherwise the line is gone and every other line remains |
| CartService.WithoutUniqueId | ecobazaarbackend/src/main/java/com/ecobazaar/backend/service/CartService.java:61 | with unique ids, deleting by a line's id removes exactly that position |
| CartService.WithoutAbsentId | ecobazaarbackend/src/main/java/com/ecobazaar/backend/service/CartService.java:60-61 | deleting an id no line has changes nothing |
| CartService.RemoveExistingLine | ecobazaarbackend/src/main/java/com/ecobazaar/backend/service/CartService.java:59-65 | in a valid store, removing line k's id gives the store without position k, which is still valid |
| CartService.DropKeepsValid | ecobazaarbackend/src/main/java/com/ecobazaar/backend/service/CartService.java:61 | dropping one line keeps the store valid |
| CartService.LineProblem | ecobazaarbackend/src/main/java/com/ecobazaar/backend/service/CartService.java:72-78 | a line has no problem exactly when its product reference is non-null and the product exists |
| CartService.DetailOf | ecobazaarbackend/src/main/java/com/ecobazaar/backend/service/CartService.java:80-89 | the row carries the line's id and quantity, and the product's price, or 0.0 for a null price |
| CartService.Details | ecobazaarbackend/src/main/java/com/ecobazaar/backend/service/CartService.java:71-93 | succeeds exactly when every line resolves, giving one row per line in order; otherwise fails with the message of the first line that does not resolve |
| CartService.GetUserCartDetails | ecobazaarbackend/src/main/java/com/ecobazaar/backend/service/CartService.java:67-94 | the same, over the user's lines |
| Domain.Int32Add | ecobazaarbackend/src/main/java/com/ecobazaar/backend/service/CartService.java:39 | the `Integer` sum: a 32-bit value congruent to the true sum, and equal to it when that fits |
| Domain.JavaText | ecobazaarbackend/src/main/java/com/ecobazaar/backend/service/AdminService.java:244-245 | string concatenation renders a null `String` as "null" |
| Domain.JavaTrim | ecobazaarbackend/src/main/java/com/ecobazaar/backend/service/AdminService.java:408 | `trim()` is a slice of its input that drops only characters at or below U+0020, from both ends, and keeps none at either end |
| Domain.JavaTrimUnique | ecobazaarbackend/src/main/java/com/ecobazaar/backend/service/AdminService.java:408 | any such slice is the `trim()` of the text, so the characterisation fixes the result |
| Domain.JavaTrimTrimmed | ecobazaarbackend/src/main/java/com/ecobazaar/backend/service/AdminService.java:408 | `trim()` leaves an already trimmed string unchanged |
| Domain.SqlSum | ecobazaarbackend/src/main/java/com/ecobazaar/backend/repository/OrderRepository.java:32-33 | `SUM` is `NULL` exactly when every summed value is `NULL` |
| Domain.SqlSumOrZero | ecobazaarbackend/src/main/java/com/ecobazaar/backend/service/AdminService.java:52-53 | `SUM` with `NULL` read as zero is the total of the non-null values |
| OrderRepository.FindByUserId | ecobazaarbackend/src/main/java/com/ecobazaar/backend/repository/OrderRepository.java:14 | an order-preserving subsequence holding exactly the user's orders |
| OrderRepository.FindByStatus | ecobazaarbackend/src/main/java/com/ecobazaar/backend/repository/OrderRepository.java:15 | an order-preserving subsequence holding exactly the orders with that status |
| OrderRepository.FindAllOrderByCreatedAtDesc | ecobazaarbackend/src/main/java/com/ecobazaar/backend/repository/OrderRepository.java:41-42 | a permutation of all orders, newest first |
| OrderRepository.FindByUserOrderByCreatedAtDesc | ecobazaarbackend/src/main/java/com/ecobazaar/backend/repository/OrderRepository.java:16 | a permutation of the user's orders, newest first |
| OrderRepository.CountOrdersByUserId | ecobazaarbackend/src/main/java/com/ecobazaar/backend/repository/OrderRepository.java:35-36 | the number of the user's orders |
| OrderRepository.SumTotalRevenue | ecobazaarbackend/src/main/java/com/ecobazaar/backend/repository/OrderRepository.java:32-33 | `NULL` exactly when no order has a total; otherwise the sum of the totals that are present |
| OrderRepository.SumTotalSpentByUserId | ecobazaarbackend/src/main/java/com/ecobazaar/backend/repository/OrderRepository.java:38-39 | `NULL` exactly when none of the user's orders has a total |
| OrderRepository.RevenueIgnoresStatus | ecobazaarbackend/src/main/java/com/ecobazaar/backend/repository/OrderRepository.java:32-33 | revenue depends only on the totals: cancelled or pending orders count like delivered ones |
| OrderRepository.OtherUsersOrdersIgnored | ecobazaarbackend/src/main/java/com/ecobazaar/backend/repository/OrderRepository.java:35-39 | another user's order changes neither the count nor the sum of a user |
| OrderRepository.FindBySellerId | ecobazaarbackend/src/main/java/com/ecobazaar/backend/repository/OrderRepository.java:19-20 | every row is a stored order; see RowsCoverMatchingOrders |
| OrderRepository.SellerRows | ecobazaarbackend/src/main/java/com/ecobazaar/backend/repository/OrderRepository.java:19 | each joined row is a stored order |
| OrderRepository.SellerItemCount | ecobazaarbackend/src/main/java/com/ecobazaar/backend/repository/OrderRepository.java:19-23 | the number of an order's items sold by the seller never exceeds its items |
| OrderRepository.RowsCoverMatchingOrders | ecobazaarbackend/src/main/java/com/ecobazaar/backend/repository/OrderRepository.java:19-20 | the join returns exactly the orders with at least one of the seller's items |
| OrderRepository.CountBySellerId | ecobazaarbackend/src/main/java/com/ecobazaar/backend/repository/OrderRepository.java:22-23 | the number of joined rows |
| OrderRepository.CountBySellerIdCountsItems | ecobazaarbackend/src/main/java/com/ecobazaar/backend/repository/OrderRepository.java:22-23 | the count is the number of matching order items, not of orders |
| OrderRepository.SingleOrderCountedPerItem | ecobazaarbackend/src/main/java/com/ecobazaar/backend/repository/OrderRepository.java:22-23 | one order with k of the seller's items counts k times |
| OrderRepository.CountBySellerIdAndStatus | ecobazaarbackend/src/main/java/com/ecobazaar/backend/repository/OrderRepository.java:25-26 | never more than the count without the status filter |
| OrderRepository.SumTotalAmountBySellerId | ecobazaarbackend/src/main/java/com/ecobazaar/backend/repository/OrderRepository.java:28-29 | `NULL` exactly when none of the seller's orders has a total |
| OrderRepository.SellerSumWeightsByItems | ecobazaarbackend/src/main/java/com/ecobazaar/backend/repository/OrderRepository.java:28-29 | the seller's sum adds each order's full total once per matching item, not the seller's share |
| OrderRepository.SellerRowsWeighted | ecobazaarbackend/src/main/java/com/ecobazaar/backend/repository/OrderRepository.java:19-29 | the totals of the joined rows equal that weighted sum |
| OrderRepository.CountByProductId | ecobazaarbackend/src/main/java/com/ecobazaar/backend/repository/OrderRepository.java:45-46 | at most the number of order items |
| OrderRepository.LineAmount | ecobazaarbackend/src/main/java/com/ecobazaar/backend/repository/OrderRepository.java:48 | `oi.price * oi.quantity` is `NULL` exactly when either is |
| OrderRepository.ProductItems | ecobazaarbackend/src/main/java/com/ecobazaar/backend/repository/OrderRepository.java:45-49 | the items of the product, as many as the count query returns |
| OrderRepository.SumTotalAmountByProductId | ecobazaarbackend/src/main/java/com/ecobazaar/backend/repository/OrderRepository.java:48-49 | the sum of price times quantity over the product's items, skipping `NULL`; `NULL` exactly when every item lacks a price or a quantity |
| AdminService.GetAdminOverview | ecobazaarbackend/src/main/java/com/ecobazaar/backend/service/AdminService.java:39-58 | the counts of users, products and orders; sellers and customers by role; active sellers; pending applications = sellers − active sellers; carbon impact and revenue as sums with `NULL` read as zero |
| AdminService.RoleCount | ecobazaarbackend/src/main/java/com/ecobazaar/backend/service/AdminService.java:41-42 | `countByRole` never exceeds the number of users |
| AdminService.ActiveRoleCount | ecobazaarbackend/src/main/java/com/ecobazaar/backend/service/AdminService.java:43 | `countByRoleAndIsActiveTrue` never exceeds `countByRole` for the same role |
| AdminService.PendingAreInactive | ecobazaarbackend/src/main/java/com/ecobazaar/backend/service/AdminService.java:49 | role count minus active count is the number of holders that are not active, null status included |
| AdminService.OverviewPendingSellers | ecobazaarbackend/src/main/java/com/ecobazaar/backend/service/AdminService.java:49 | pending applications are the sellers that are not active, and never negative |
| AdminService.TopSellers | ecobazaarbackend/src/main/java/com/ecobazaar/backend/service/AdminService.java:63-64 | min(5, number of sellers) sellers, newest first, drawn from the sellers without repetition; no seller left out is newer than one kept |
| AdminService.TopProducts | ecobazaarbackend/src/main/java/com/ecobazaar/backend/service/AdminService.java:77-78 | min(5, number of products) products, newest first, drawn from the products without repetition; no product left out is newer than one kept |
| AdminService.TopOrders | ecobazaarbackend/src/main/java/com/ecobazaar/backend/service/AdminService.java:91-92 | min(3, number of orders) orders, newest first, drawn from the orders without repetition; no order left out is newer than one kept |
| AdminService.SellerActivity | ecobazaarbackend/src/main/java/com/ecobazaar/backend/service/AdminService.java:65-74 | a USER entry with the seller's time and id; APPROVED exactly when the seller is active, else PENDING |
| AdminService.ProductActivity | ecobazaarbackend/src/main/java/com/ecobazaar/backend/service/AdminService.java:79-88 | a PRODUCT entry with the product's time and id; APPROVED exactly when the product is active, else PENDING |
| AdminService.OrderActivity | ecobazaarbackend/src/main/java/com/ecobazaar/backend/service/AdminService.java:93-101 | an ORDER entry with the order's time, id and status |
| AdminService.SellerActivities | ecobazaarbackend/src/main/java/com/ecobazaar/backend/service/AdminService.java:65-75 | one entry per seller, or a null-pointer failure when a seller's `isActive` is null |
| AdminService.ProductActivities | ecobazaarbackend/src/main/java/com/ecobazaar/backend/service/AdminService.java:79-89 | one entry per product, or a null-pointer failure when a product's `isActive` or seller is null |
| AdminService.MergeFeed | ecobazaarbackend/src/main/java/com/ecobazaar/backend/service/AdminService.java:104-107 | min(10, entries) entries, newest first, drawn from the merged list without repetition; no entry left out is newer than one kept |
| AdminService.GetRecentActivity | ecobazaarbackend/src/main/java/com/ecobazaar/backend/service/AdminService.java:60-108 | fails exactly when a listed seller or product has a null field the feed reads; otherwise min(10, total of the three lists) entries, newest first |
| AdminService.RecentActivityEntries | ecobazaarbackend/src/main/java/com/ecobazaar/backend/service/AdminService.java:60-108 | every feed entry is the entry of one of the five newest sellers, the five newest products or the three newest orders |
| AdminService.FeedKeepsNewest | ecobazaarbackend/src/main/java/com/ecobazaar/backend/service/AdminService.java:60-108 | a seller registration, product addition or order placement from the three lists that the feed leaves out is no newer than any entry it shows |
| AdminService.EntryDrawnFrom | ecobazaarbackend/src/main/java/com/ecobazaar/backend/service/AdminService.java:65-102 | every entry of the merged list comes from one of its three sources |
| AdminService.FindUser | ecobazaarbackend/src/main/java/com/ecobazaar/backend/service/AdminService.java:158 | `findById`: the user with that id, or `None` when there is none |
| AdminService.SetUserActive | ecobazaarbackend/src/main/java/com/ecobazaar/backend/service/AdminService.java:161-162 | only the user with that id changes, and only in `isActive` |
| AdminService.ModerateUser | ecobazaarbackend/src/main/java/com/ecobazaar/backend/service/AdminService.java:157-177 | an unknown id changes nothing; a known one sets the flag and appends one notification |
| AdminService.ApproveAdmin | ecobazaarbackend/src/main/java/com/ecobazaar/backend/service/AdminService.java:157-166 | activates the user and sends "Admin Access Approved"; an unknown id is a no-op |
| AdminService.RejectUser | ecobazaarbackend/src/main/java/com/ecobazaar/backend/service/AdminService.java:168-177 | deactivates the user and sends "Account Status Update"; an unknown id is a no-op |
| AdminService.ApproveSeller | ecobazaarbackend/src/main/java/com/ecobazaar/backend/service/AdminService.java:227-236 | activates the seller and sends "Seller Approved" |
| AdminService.RejectSeller | ecobazaarbackend/src/main/java/com/ecobazaar/backend/service/AdminService.java:238-247 | deactivates the seller and sends "Reason: " + notes, with null notes rendered "null" |
| AdminService.BlockSeller | ecobazaarbackend/src/main/java/com/ecobazaar/backend/service/AdminService.java:249-258 | deactivates the seller and sends "Account Blocked" with the reason |
| AdminService.UpdateUserStatus | ecobazaarbackend/src/main/java/com/ecobazaar/backend/service/AdminService.java:179-192 | an unknown id is a no-op; a null flag fails on unboxing; otherwise the flag is set and exactly one ACCOUNT_STATUS notice goes to that user: "Account Activated" / "Your account has been activated." or "Account Deactivated" / "Your account has been deactivated. Contact support." |
| AdminService.UpdateUserRole | ecobazaarbackend/src/main/java/com/ecobazaar/backend/service/AdminService.java:194-203 | only that user's role changes, and "Your account role is now ROLE" is sent |
| AdminService.GetPendingAdmins | ecobazaarbackend/src/main/java/com/ecobazaar/backend/service/AdminService.java:150-155 | exactly the inactive admins, in order; a null-pointer failure when any admin's flag is null |
| AdminService.ApprovedAdminLeavesPending | ecobazaarbackend/src/main/java/com/ecobazaar/backend/service/AdminService.java:150-166 | after approval the user is not among the pending admins |
| AdminService.RejectedAdminIsPending | ecobazaarbackend/src/main/java/com/ecobazaar/backend/service/AdminService.java:150-177 | after rejection an admin is listed as pending again |
| AdminService.FindProduct | ecobazaarbackend/src/main/java/com/ecobazaar/backend/service/AdminService.java:303 | the product with that id, or `None` when there is none |
| AdminService.SellerRef | ecobazaarbackend/src/main/java/com/ecobazaar/backend/service/AdminService.java:308 | a product's notification goes to its seller, or to no one when the seller is null |
| AdminService.SetProductActive | ecobazaarbackend/src/main/java/com/ecobazaar/backend/service/AdminService.java:306 | only the product with that id changes, and only in `isActive` |
| AdminService.ApproveProduct | ecobazaarbackend/src/main/java/com/ecobazaar/backend/service/AdminService.java:302-311 | activates the product and tells its seller "Your product 'NAME' is live."; an unknown id is a no-op |
| AdminService.RejectProduct | ecobazaarbackend/src/main/java/com/ecobazaar/backend/service/AdminService.java:313-322 | deactivates the product and tells its seller the reason |
| AdminService.UpdateProductStatus | ecobazaarbackend/src/main/java/com/ecobazaar/backend/service/AdminService.java:289-300 | a null flag fails; otherwise the flag is set and "Product Approved" or "Product Suspended" is sent |
| AdminService.UpdateProductEcoData | ecobazaarbackend/src/main/java/com/ecobazaar/backend/service/AdminService.java:324-334 | only that product's carbon score and eco flag change; the log gains exactly one "Product Updated" notice to the product's seller naming the product, earlier notices untouched |
| AdminService.RemoveProduct | ecobazaarbackend/src/main/java/com/ecobazaar/backend/service/AdminService.java:279-287 | the product is gone, every other product remains in order; the log gains exactly one "Product Removed" notice to the seller naming the product and the reason (null shown as "null"), earlier notices untouched |
| AdminService.ApproveProductIdempotent | ecobazaarbackend/src/main/java/com/ecobazaar/backend/service/AdminService.java:302-311 | approving twice leaves the products as approving once |
| AdminService.SellerDisplayName | ecobazaarbackend/src/main/java/com/ecobazaar/backend/service/AdminService.java:406-408 | the seller name is the Java `trim()` of first name, a space and last name, each null read as empty |
| AdminService.SellerNameLastOnly | ecobazaarbackend/src/main/java/com/ecobazaar/backend/service/AdminService.java:406-408 | a seller with only a (trimmed) last name is shown by that last name alone |
| AdminService.SellerNameJoinsNames | ecobazaarbackend/src/main/java/com/ecobazaar/backend/service/AdminService.java:406-408 | with both names present and trimmed, the name is "first last" |
| AdminService.SellerNameFirstOnly | ecobazaarbackend/src/main/java/com/ecobazaar/backend/service/AdminService.java:406-408 | with no last name, the trailing space is trimmed away |
| AdminService.SellerNameEmpty | ecobazaarbackend/src/main/java/com/ecobazaar/backend/service/AdminService.java:406-408 | with neither name, the name is empty rather than null |
| AdminService.ConvertToProductDto | ecobazaarbackend/src/main/java/com/ecobazaar/backend/service/AdminService.java:392-423 | name, description, price, weight, shipping distance, carbon score, stock, image, eco points, carbon reduction, flags and creation date are copied; category id and name are set only with a category; with a seller, its id and the trimmed display name are set |
| AdminService.GetAllProductsWithSellerInfo | ecobazaarbackend/src/main/java/com/ecobazaar/backend/service/AdminService.java:261-264 | one DTO per product, in order |
| AdminService.GetProductsBySeller | ecobazaarbackend/src/main/java/com/ecobazaar/backend/service/AdminService.java:266-269 | exactly the seller's products, as many as the seller owns |
| AdminService.SellerProductsListed | ecobazaarbackend/src/main/java/com/ecobazaar/backend/service/AdminService.java:266-269 | mapping the seller's filtered products keeps every owned product and no other |
| AdminService.GetPendingProducts | ecobazaarbackend/src/main/java/com/ecobazaar/backend/service/AdminService.java:271-277 | exactly the products not known to be active, with a null flag counted as pending |
| AdminService.ApprovedProductLeavesPending | ecobazaarbackend/src/main/java/com/ecobazaar/backend/service/AdminService.java:271-311 | an approved product is no longer pending |
| AdminService.RejectedProductIsPending | ecobazaarbackend/src/main/java/com/ecobazaar/backend/service/AdminService.java:271-322 | a rejected product is pending |
| AdminService.CountByCategoryId | ecobazaarbackend/src/main/java/com/ecobazaar/backend/service/AdminService.java:351 | zero exactly when no product is in the category |
| AdminService.GetAllCategoriesWithCount | ecobazaarbackend/src/main/java/com/ecobazaar/backend/service/AdminService.java:348-360 | one row per category, with its id, name, flag and product count |
| AdminService.CreateCategory | ecobazaarbackend/src/main/java/com/ecobazaar/backend/service/AdminService.java:362-368 | appends an active category with the next id, keeping ids unique |
| AdminService.FindCategory | ecobazaarbackend/src/main/java/com/ecobazaar/backend/service/AdminService.java:371 | the category with that id, or `None` when there is none |
| AdminService.UpdateCategory | ecobazaarbackend/src/main/java/com/ecobazaar/backend/service/AdminService.java:370-380 | `None` and no change for an unknown id; otherwise only that category is replaced by the new fields |
| AdminService.DeleteCategory | ecobazaarbackend/src/main/java/com/ecobazaar/backend/service/AdminService.java:382-389 | fails with "Cannot delete category with products." exactly when a product uses it; otherwise every other category remains |
| AdminService.CreateThenDeleteCategory | ecobazaarbackend/src/main/java/com/ecobazaar/backend/service/AdminService.java:362-389 | deleting a newly created, unused category restores the category list |
| AdminService.UserStats | ecobazaarbackend/src/main/java/com/ecobazaar/backend/service/AdminService.java:116-118 | the user's order count and spend, with `NULL` read as zero |
| AdminService.GetAllUsersWithStats | ecobazaarbackend/src/main/java/com/ecobazaar/backend/service/AdminService.java:111-128 | one row per user, in order |
| AdminService.GetUsersByRole | ecobazaarbackend/src/main/java/com/ecobazaar/backend/service/AdminService.java:130-147 | exactly the holders of the role, as many as hold it |
| AdminService.RoleHoldersListed | ecobazaarbackend/src/main/java/com/ecobazaar/backend/service/AdminService.java:130-147 | filtering by role, then adding stats, lists every holder and no one else |
| AdminService.RoleCountIsCount | ecobazaarbackend/src/main/java/com/ecobazaar/backend/service/AdminService.java:41-42 | `countByRole` agrees with the length of `findByRole` |
| AdminService.SellerStats | ecobazaarbackend/src/main/java/com/ecobazaar/backend/service/AdminService.java:210-222 | total products is the size of the seller's product list and active products the count of those active, never more; orders and revenue come from the seller join, so revenue is item-weighted; the rating is fixed at 4.5 |
| AdminService.CountActiveOwned | ecobazaarbackend/src/main/java/com/ecobazaar/backend/service/AdminService.java:211-212 | a seller's active products are at most their products |
| AdminService.GetAllSellersWithStats | ecobazaarbackend/src/main/java/com/ecobazaar/backend/service/AdminService.java:206-225 | exactly one stats row per seller |
| AdminService.ConvertToOrderItemDetailDto | ecobazaarbackend/src/main/java/com/ecobazaar/backend/service/AdminService.java:446-466 | a missing quantity or price reads as zero; the line total is the amount the product revenue query sums; with a product, its name, image and category name (when it has a category) are copied and the seller name is "first last" with null parts as "null"; without one, all four stay null |
| AdminService.ConvertToCustomerOrderDto | ecobazaarbackend/src/main/java/com/ecobazaar/backend/service/AdminService.java:425-444 | the order's id, customer id, "first last" name and email, date, total price, total carbon score, status and shipping address, with one detail per item in order |
| AdminService.GetAllCustomerOrders | ecobazaarbackend/src/main/java/com/ecobazaar/backend/service/AdminService.java:337-340 | a rearrangement of the orders' DTOs (each exactly as often as its order), newest first |
| AdminService.ReorderedDtos | ecobazaarbackend/src/main/java/com/ecobazaar/backend/service/AdminService.java:337-340 | the DTOs of any reordering of the orders are a reordering of the orders' DTOs |
| AdminService.GetCustomerOrdersByUserId | ecobazaarbackend/src/main/java/com/ecobazaar/backend/service/AdminService.java:342-345 | exactly the user's orders, as many as the count query gives |
| DataInitializer.SeedCategories | ecobazaarbackend/src/main/java/com/ecobazaar/backend/config/DataInitializer.java:48-55 | the six categories, in order, active, with consecutive ids |
| DataInitializer.InitializeCategories | ecobazaarbackend/src/main/java/com/ecobazaar/backend/config/DataInitializer.java:46-59 | seeds only an empty table; afterwards the table is never empty |
| DataInitializer.FindByUsername | ecobazaarbackend/src/main/java/com/ecobazaar/backend/config/DataInitializer.java:70 | the user with that name, or `None` when there is none |
| DataInitializer.FoundWhenPresent | ecobazaarbackend/src/main/java/com/ecobazaar/backend/config/DataInitializer.java:70 | a stored user is found by their name |
| DataInitializer.InitializeSeller | ecobazaarbackend/src/main/java/com/ecobazaar/backend/config/DataInitializer.java:69-85 | an existing "testseller" is reused unchanged, whatever their role; otherwise one active seller with zero eco points is created |
| DataInitializer.CategoryFor | ecobazaarbackend/src/main/java/com/ecobazaar/backend/config/DataInitializer.java:90-109 | the category at the first position with the name, or the first category when none has it |
| DataInitializer.FirstNamed | ecobazaarbackend/src/main/java/com/ecobazaar/backend/config/DataInitializer.java:91-92 | `None` exactly when no category has the name; otherwise the category at the first position with it |
| DataInitializer.CreateProduct | ecobazaarbackend/src/main/java/com/ecobazaar/backend/config/DataInitializer.java:149-172 | the seed's name and price, 50 in stock, active and eco-friendly, with the calculator's carbon score |
| DataInitializer.InitializeProducts | ecobazaarbackend/src/main/java/com/ecobazaar/backend/config/DataInitializer.java:87-147 | seeds the six products only when the product table is empty; users and categories are untouched |
| DataInitializer.Run | ecobazaarbackend/src/main/java/com/ecobazaar/backend/config/DataInitializer.java:35-44 | afterwards there are categories, products and a "testseller"; existing categories, products and users are kept |
| DataInitializer.RunIdempotent | ecobazaarbackend/src/main/java/com/ecobazaar/backend/config/DataInitializer.java:35-44 | a second start-up changes nothing |
| DataInitializer.FreshStartSeedsCatalogue | ecobazaarbackend/src/main/java/com/ecobazaar/backend/config/DataInitializer.java:35-172 | from an empty database: six categories, one seller, six products |
| DataInitializer.FreshProductsInNamedCategories | ecobazaarbackend/src/main/java/com/ecobazaar/backend/config/DataInitializer.java:89-142 | on a fresh start each product lands in the category named for it, never in the fallback |
| Navbar.CheckAuth | frontend/src/components/layout/Navbar.jsx:28-53 | signed in exactly when both keys are present and the user record parses; only a corrupt record clears the keys |
| Navbar.CheckAuthIdempotent | frontend/src/components/layout/Navbar.jsx:28-53 | a second check sees the same state and changes nothing |
| Navbar.Mount | frontend/src/components/layout/Navbar.jsx:55-67 | on the first visit of the tab the token and user are forgotten and the visit is recorded; later visits run the check |
| Navbar.FirstVisitForgetsCredentials | frontend/src/components/layout/Navbar.jsx:55-67 | after a first visit the navbar is signed out, a re-check agrees, and remounting changes nothing |
| Navbar.LoadCartCount | frontend/src/components/layout/Navbar.jsx:82-90 | with numeric quantities, the count is their sum with missing ones as 0; an unparsable or non-array cart counts 0 |
| Navbar.AbsentCartCountsZero | frontend/src/components/layout/Navbar.jsx:84 | with no stored cart the count is 0 |
| Navbar.BadgeVisible | frontend/src/components/layout/Navbar.jsx:141 | the badge shows exactly for a positive count; NaN hides it; a text sum is not a number comparison |
| Navbar.VisibleLinks | frontend/src/components/layout/Navbar.jsx:117-167 | Home and About always; Marketplace, Orders, Smart Cart and Profile exactly when signed in; Sign In exactly when not |
| Navbar.BadgeShown | frontend/src/components/layout/Navbar.jsx:130-146 | the badge appears only inside the Smart Cart link, which needs a session |
| AppRoutes.CheckAuth | frontend/src/App.jsx:54-71 | loading ends whatever happens; signed in with the role exactly when both calls succeed and the first is truthy |
| AppRoutes.ProductParam | frontend/src/App.jsx:123 | `/product/:id` matches one non-empty segment |
| AppRoutes.Route | frontend/src/App.jsx:102-203 | each dashboard renders only for its role and otherwise redirects to /auth; only /cart, /products and /profile are guarded |
| AppRoutes.UnmatchedGoesHome | frontend/src/App.jsx:203 | an undeclared path redirects to / |
| AppRoutes.RedirectsSettle | frontend/src/App.jsx:136-203 | one redirect always lands on a page |
| AppRoutes.MismatchLikeSignedOut | frontend/src/App.jsx:137-200 | a signed-in user with an unknown role is treated like a visitor on the role routes |
| AppRoutes.ShowsChrome | frontend/src/App.jsx:24-47 | the navbar and footer are hidden exactly on paths containing a dashboard prefix and on /auth |
| AppRoutes.ChromelessPages | frontend/src/App.jsx:28-37 | the dashboards and the sign-in page render without chrome |
| AppRoutes.StorefrontHasChrome | frontend/src/App.jsx:39-46 | the storefront pages render with chrome |
| ProtectedRoute.ResolveStoredUserId | frontend/src/components/ProtectedRoute.jsx:6-19 | the parsed user's truthy `userId`, else the `userId` key, also when the record does not parse |
| ProtectedRoute.StoredIdTruthy | frontend/src/components/ProtectedRoute.jsx:6-22 | the stored id is truthy exactly when the record has a truthy id or a `userId` key is set |
| ProtectedRoute.Guard | frontend/src/components/ProtectedRoute.jsx:21-49 | the children render exactly when the API or a stored id says signed in; otherwise the restricted panel |
| ProtectedRoute.GuardIgnoresRole | frontend/src/components/ProtectedRoute.jsx:21-24 | the guard does not look at the role |
| Login.ValidateLogin | frontend/src/components/auth/Login.jsx:18-21 | valid exactly when both fields are filled; each empty field gets its message |
| Login.UserRecord | frontend/src/components/auth/Login.jsx:44-51 | the stored record has exactly six keys, carrying the reply's id and role |
| Login.RoleTarget | frontend/src/components/auth/Login.jsx:59-68 | customers go to /products; others go to /ROLE/dashboard in lower case |
| Login.OnSubmit | frontend/src/components/auth/Login.jsx:33-75 | success stores the token and record and redirects by role; failure shows the server's message or the default and stores nothing |
| Login.RejectionShowsMessage | frontend/src/components/auth/Login.jsx:71 | a rejected sign-in always shows a non-empty error |
| Login.SignInIsSeenByNavbarAndGuard | frontend/src/components/auth/Login.jsx:43-51 | what sign-in stores is read back by the navbar as signed in, and admits the guard when the id is truthy |
| Login.AdminRedirectMatchesRouteTable | frontend/src/components/auth/Login.jsx:66 | an admin's redirect renders the admin dashboard |
| Login.SellerRedirectMatchesRouteTable | frontend/src/components/auth/Login.jsx:66 | a seller's redirect renders the seller dashboard |
| Login.CustomerRedirectMatchesRouteTable | frontend/src/components/auth/Login.jsx:61-63 | a customer's redirect renders the guarded marketplace |
| Checkout.LocalCart | frontend/src/pages/Checkout.jsx:73-74 | no stored cart reads as []; otherwise the parse of it |
| Checkout.LoadCheckoutData | frontend/src/pages/Checkout.jsx:63-91 | a non-empty server cart is used for a signed-in user; otherwise the local cart; an unparsable local cart gives the load error |
| Checkout.NoCartAnywhereIsEmpty | frontend/src/pages/Checkout.jsx:63-91 | with no cart on either side the page shows an empty cart and no error |
| Checkout.SubtotalIsLineTotal | frontend/src/pages/Checkout.jsx:99 | with priced lines the subtotal is the sum of price times quantity |
| Checkout.UnpricedLinePoisons | frontend/src/pages/Checkout.jsx:99 | one line without a numeric price makes the subtotal NaN |
| Checkout.Shipping | frontend/src/pages/Checkout.jsx:100 | free exactly above 2000, 99 otherwise, NaN included |
| Checkout.Total | frontend/src/pages/Checkout.jsx:101 | subtotal plus shipping; NaN stays NaN |
| Checkout.DisplayedTotal | frontend/src/pages/Checkout.jsx:277 | the shown total subtracts the eco-points discount |
| Checkout.ThresholdIsStrict | frontend/src/pages/Checkout.jsx:100 | exactly 2000 still pays shipping |
| Checkout.InitialShippingInfo | frontend/src/pages/Checkout.jsx:31-41 | every form field is present; country is India; a text name or email of the user is copied, a falsy one becomes empty |
| Checkout.HandleInputChange | frontend/src/pages/Checkout.jsx:93-97 | only the shipping section updates, and only the named field |
| Checkout.ValidateForm | frontend/src/pages/Checkout.jsx:107-110 | valid exactly when the eight required fields are non-blank after trimming |
| Checkout.CountryNotRequired | frontend/src/pages/Checkout.jsx:108 | the country never affects validity |
| Checkout.BlankFieldFails | frontend/src/pages/Checkout.jsx:109 | a required field of spaces fails |
| Checkout.ClickPaymentMethod | frontend/src/pages/Checkout.jsx:161-168 | clicking UPI keeps the selection; anything else selects it |
| Checkout.UpiNeverSelected | frontend/src/pages/Checkout.jsx:161-168 | no sequence of clicks selects UPI |
| Checkout.ToOrderLine | frontend/src/pages/Checkout.jsx:133-136 | the product id, or the id when that is missing; the quantity, or 1 when falsy |
| Checkout.ToOrderLines | frontend/src/pages/Checkout.jsx:133-136 | one order line per cart item, in order |
| Checkout.PlaceOrder | frontend/src/pages/Checkout.jsx:112-158 | checks form, user and cart in that order; an order is sent exactly when they pass and UPI is not selected, always cash on delivery with one line per item; a failed call shows its message (or "Order failed"); a non-nullish reply after both calls succeed completes with its id; a nullish reply shows the TypeError although the order was placed |
| Checkout.SentOrderCompletesOrShowsError | frontend/src/pages/Checkout.jsx:147-157 | a sent order ends complete with no error or incomplete with an error, never both or neither |
| Checkout.SentQuantitiesTruthy | frontend/src/pages/Checkout.jsx:135 | every sent quantity is truthy |
| Checkout.ReachableSelectionSends | frontend/src/pages/Checkout.jsx:125-148 | the UPI branch of order placement cannot be reached through the payment buttons |
| CartPage.ResolvedUserId | frontend/src/pages/Cart.jsx:13-24 | always truthy; user 3 when nothing is stored |
| CartPage.SameIdAsGuard | frontend/src/pages/Cart.jsx:13-24 | the page reads the guard's id with 3 as fallback, so user 3 is used only where the guard refuses |
| CartPage.FetchCart | frontend/src/pages/Cart.jsx:31-49 | the details endpoint, else the plain cart endpoint; when both fail the items stay and the error shows |
| CartPage.WeightedValue | frontend/src/pages/Cart.jsx:72 | one item's term is its field times quantity, missing values as 0 |
| CartPage.WeightedSumIsFieldTotal | frontend/src/pages/Cart.jsx:72-80 | the subtotal, carbon and eco-point sums are the per-quantity totals |
| CartPage.Summarize | frontend/src/pages/Cart.jsx:72-80 | the three sums, with the total shown equal to the subtotal |
| CartPage.RemoveItem | frontend/src/pages/Cart.jsx:51-70 | success drops exactly the items with that cart id and keeps every other item, as often as before and in order; failure keeps the items and shows the error |
| CartPage.RemoveTwiceIsRemoveOnce | frontend/src/pages/Cart.jsx:64 | removing the same id twice is removing it once |
| Products.ResolveCategoryName | frontend/src/pages/Products.jsx:9-14 | always truthy; text as-is, an object's truthy name, else "Sustainable Picks" |
| Products.ResolvedTextIsStable | frontend/src/pages/Products.jsx:9-14 | resolving a resolved text name changes nothing |
| Products.NormalizeProduct | frontend/src/pages/Products.jsx:16-37 | the product's own fields are kept, with the normalised fields written over them |
| Products.PriceFallbacks | frontend/src/pages/Products.jsx:17-27 | the price falls back to productPrice, then 0; the original price falls back to the price; rating and reviews are numbers |
| Products.EcoFlag | frontend/src/pages/Products.jsx:18-30 | a numeric carbon score decides eco-friendliness (≤ 3); otherwise the product's own flag, or false |
| Products.StockFallbacks | frontend/src/pages/Products.jsx:31 | stock falls back through stock and availableQuantity to 0, and an explicit 0 is kept |
| Products.CategoryAndShippingPresent | frontend/src/pages/Products.jsx:19-34 | the category name and shipping are always truthy, and the bar's label is the resolved name |
| Products.Payload | frontend/src/pages/Products.jsx:51-55 | an array reply, else its `content` array, else [] |
| Products.NormalizeAll | frontend/src/pages/Products.jsx:56 | one normalised product per entry, in order |
| Products.LoadProducts | frontend/src/pages/Products.jsx:46-63 | success shows every entry normalised; failure keeps the old list and shows the error |
| Products.Dynamic | frontend/src/pages/Products.jsx:69-80 | the new labels, each truthy, not a base category, without repeats, covering every such label |
| Products.DynamicFirstSeenOrder | frontend/src/pages/Products.jsx:74-80 | the new labels appear in the order products first show them |
| Products.NewLabelFirstSeenLast | frontend/src/pages/Products.jsx:76-78 | a label added last had not been seen before |
| Products.Labels | frontend/src/pages/Products.jsx:75 | one label per product |
| Products.Categories | frontend/src/pages/Products.jsx:69-83 | starts with All and the four defaults, has no repeats, and includes every truthy product label |
| Products.CategoriesFacts | frontend/src/pages/Products.jsx:82 | appending the new labels keeps the bar free of repeats |
| Products.FilteredProducts | frontend/src/pages/Products.jsx:85-96 | a product shows exactly when its category matches ignoring case and its name or description contains the trimmed, lower-cased query |
| Products.AllWithBlankSearchShowsEverything | frontend/src/pages/Products.jsx:86-93 | All with a blank query shows every product |
| Products.CategoryCaseInsensitive | frontend/src/pages/Products.jsx:92 | the active category is compared ignoring case |
| ProductCard.NoOriginalPriceNoStrike | frontend/src/components/common/ProductCard.jsx:20-21 | without an original price nothing is struck through |
| ProductCard.DisplayDefaults | frontend/src/components/common/ProductCard.jsx:22-23 | 0 stock and 24 reviews fill in only missing fields |
| ProductCard.ButtonLabel | frontend/src/components/common/ProductCard.jsx:137-145 | Sold Out, Added, Adding, then the view's wording, each exactly in its case |
| ProductCard.EnabledIffOffersToAdd | frontend/src/components/common/ProductCard.jsx:135-145 | the button is enabled exactly when it offers to add |
| ProductCard.TextZeroStockNotSoldOut | frontend/src/components/common/ProductCard.jsx:128-137 | stock given as the text "0" is not sold out |
| ProductCard.ReturnPath | frontend/src/components/common/ProductCard.jsx:31 | the sign-in return path is /product/ID |
| ProductCard.HandleAddToCart | frontend/src/components/common/ProductCard.jsx:26-64 | visitors go to sign-in; no user id asks for sign-in; otherwise one unit is requested, the cart is announced on success, and the adding flag is cleared |
| ProductCard.AddRequestOnlyWithUserId | frontend/src/components/common/ProductCard.jsx:30-44 | a request goes out exactly for a signed-in user with an id; the cart is announced only after it succeeds |
| ProductCard.SuccessfulAddLocksButton | frontend/src/components/common/ProductCard.jsx:44-140 | after a successful add the button is disabled and shows Added |
| Wishlist.Transform | frontend/src/pages/Wishlist.jsx:64-81 | id fallbacks, price and the 15% original-price markup, score 95 or 70, eco flag and carbon defaults, and reviews kept only when truthy |
| Wishlist.MissingFlagScoresLowYetEcoFriendly | frontend/src/pages/Wishlist.jsx:73-78 | a missing flag is shown eco-friendly but scored 70 |
| Wishlist.OriginalPriceMarkup | frontend/src/pages/Wishlist.jsx:69-70 | the original price exceeds the price exactly when the price is positive |
| Wishlist.TransformAll | frontend/src/pages/Wishlist.jsx:64-65 | one item per entry, in order |
| Wishlist.LoadWishlist | frontend/src/pages/Wishlist.jsx:83-100 | a mappable reply is shown, with a falsy reply as empty; any failure shows the sample items and the banner |
| Wishlist.FalsyReplyIsEmpty | frontend/src/pages/Wishlist.jsx:89 | no wishlist is an empty list, not an error |
| Wishlist.RemoveFromWishlist | frontend/src/pages/Wishlist.jsx:102-109 | success drops exactly that wishlist id and keeps every other entry, as often as before and in order; failure changes nothing |
| Wishlist.RemoveTwiceIsRemoveOnce | frontend/src/pages/Wishlist.jsx:105 | removing twice is removing once |
| SellerDashboard.CategoryName | frontend/src/components/dashboard/SellerDashboard.jsx:557-567 | ids 1 to 6, as numbers or text, name their category; anything else is Other |
| SellerDashboard.NumberAndTextIdsAgree | frontend/src/components/dashboard/SellerDashboard.jsx:557-567 | a numeric id and its text name the same category |
| SellerDashboard.FilteredProducts | frontend/src/components/dashboard/SellerDashboard.jsx:159-161 | exactly the products whose name contains the term, ignoring case, in order |
| SellerDashboard.EmptySearchShowsNamed | frontend/src/components/dashboard/SellerDashboard.jsx:159-161 | an empty search shows every product with a name and hides those without |
| SellerDashboard.SearchIgnoresTermCase | frontend/src/components/dashboard/SellerDashboard.jsx:160 | the term's case does not matter |
| SellerDashboard.StockBadgeCases | frontend/src/components/dashboard/SellerDashboard.jsx:322 | low stock below 10; a null stock is low (null < 10); a missing one is not |
| SellerDashboard.FetchDashboard | frontend/src/components/dashboard/SellerDashboard.jsx:55-78 | products from the reply or []; reported stats, or stats computed from the products when the stats call fails; a failed product call changes nothing |
| SellerDashboard.FallbackCarbonIsTotal | frontend/src/components/dashboard/SellerDashboard.jsx:66-71 | the fallback carbon figure is the sum of the products' scores |
| SellerDashboard.HandleInputChange | frontend/src/components/dashboard/SellerDashboard.jsx:85-94 | a file, checkbox or text input sets only its own field |
| SellerDashboard.InputChangesCommute | frontend/src/components/dashboard/SellerDashboard.jsx:85-94 | changes to different fields commute |
| SellerDashboard.InputChangeKeepsFields | frontend/src/components/dashboard/SellerDashboard.jsx:85-94 | the form keeps its fields |
| SellerDashboard.EditForm | frontend/src/components/dashboard/SellerDashboard.jsx:132-144 | the edit form has the default form's fields, copied from the product |
| SellerDashboard.EditFormFallbacks | frontend/src/components/dashboard/SellerDashboard.jsx:138-143 | a falsy weight or distance takes the default; the image URL comes from `image` only |
| SellerDashboard.HandleEdit | frontend/src/components/dashboard/SellerDashboard.jsx:130-146 | opens the modal on that product's form |
| SellerDashboard.SubmitRequest | frontend/src/components/dashboard/SellerDashboard.jsx:99-103 | an update of the edited product's id when editing, else an add, with the form |
| SellerDashboard.HandleSubmit | frontend/src/components/dashboard/SellerDashboard.jsx:96-112 | success closes the modal, resets the form and reloads; failure keeps everything and alerts |
| SellerDashboard.EditThenSubmitUpdates | frontend/src/components/dashboard/SellerDashboard.jsx:96-146 | editing then saving updates that product |
| SellerDashboard.SavedThenNextSubmitAdds | frontend/src/components/dashboard/SellerDashboard.jsx:104-106 | after a save the next submit adds a new product |
| AdminDashboard.Open | frontend/src/components/dashboard/AdminDashboard.jsx:93-101 | shows and fetches exactly for a user whose role is ADMIN |
| AdminDashboard.RoleIsCaseSensitive | frontend/src/components/dashboard/AdminDashboard.jsx:95 | "admin" in lower case is sent to sign-in |
| Js.ArrayOrEmpty | frontend/src/components/dashboard/AdminDashboard.jsx:78-80 | an array reply is used as-is; anything else is [] (the same guard as Cart.jsx line 36) |
| AdminDashboard.FetchAdminData | frontend/src/components/dashboard/AdminDashboard.jsx:68-91 | all three calls must succeed to change the lists; the user and revenue figures are the fixed 1250 and 89000 |
| AdminDashboard.ProductFigureMatchesList | frontend/src/components/dashboard/AdminDashboard.jsx:60-85 | the product figure always equals the length of the product list |
| AdminDashboard.HandleReject | frontend/src/components/dashboard/AdminDashboard.jsx:121-130 | a request only after confirmation; users go to reject-user and anything else to reject-product |
| AdminDashboard.HandleRemoveProduct | frontend/src/components/dashboard/AdminDashboard.jsx:132-143 | after confirmation, a removal with reason "Removed by Admin" |
| AdminDashboard.HandleApprove | frontend/src/components/dashboard/AdminDashboard.jsx:103-119 | approve-admin for admins, approve-product for products |
| AdminDashboard.RejectButtonsReachTheirEndpoints | frontend/src/components/dashboard/AdminDashboard.jsx:121-125 | the product rows' button (`'product'`) reaches reject-product and the admin rows' button (`'user'`) reaches reject-user |
| AdminDashboard.AfterRequest | frontend/src/components/dashboard/AdminDashboard.jsx:103-143 | success reloads; failure alerts |
| AdminDashboard.CurrencyAmount | frontend/src/components/dashboard/AdminDashboard.jsx:45-49 | a missing value is 0; a non-finite one has no amount |
| AdminDashboard.FormatCurrency | frontend/src/components/dashboard/AdminDashboard.jsx:45-51 | always starts with ₹; ₹0 for a non-finite value |
| AdminDashboard.CurrencyEdges | frontend/src/components/dashboard/AdminDashboard.jsx:45-51 | null and undefined format as 0; text `Number` reads as NaN formats as ₹0 |
| Js.ParseExponent | frontend/src/components/dashboard/AdminDashboard.jsx:46 | `Number` reads digits, `e` and exponent digits as the integer scaled by that power of ten |
| Js.ScalePow | frontend/src/components/dashboard/AdminDashboard.jsx:46 | scaling by a non-negative exponent is multiplication by 10 to that power |
| Js.ParseRadixLiteral | frontend/src/components/dashboard/AdminDashboard.jsx:46 | `0x`, `0o` and `0b` texts read their digits in base 16, 8 and 2 |
| Js.ExponentLiteral | frontend/src/components/dashboard/AdminDashboard.jsx:46 | "1e3" reads as 1000 |
| Js.HexLiteral | frontend/src/components/dashboard/AdminDashboard.jsx:46 | "0x10" reads as 16 |
| Js.OctalLiteral | frontend/src/components/dashboard/AdminDashboard.jsx:46 | "0o7" reads as 7 |
| Js.BinaryLiteral | frontend/src/components/dashboard/AdminDashboard.jsx:46 | "0b1" reads as 1 |
| Js.SignedHexIsNaN | frontend/src/components/dashboard/AdminDashboard.jsx:46 | a sign before a radix prefix makes the text NaN |
| AdminDashboard.Badges | frontend/src/components/dashboard/AdminDashboard.jsx:485-489 | the pending-products and admin-requests tabs show a badge exactly when their list is non-empty |
| AdminDashboard.NonArrayRepliesShowNoBadges | frontend/src/components/dashboard/AdminDashboard.jsx:78-79 | non-array replies show no badges |
| GreenerAlternative.LoadAlternative | frontend/src/components/cart/GreenerAlternative.jsx:20-36 | a truthy reply is the alternative; anything else sets the error flag |
| GreenerAlternative.VisibleIffSuggested | frontend/src/components/cart/GreenerAlternative.jsx:83-85 | the panel shows exactly after a truthy reply |
| GreenerAlternative.ReductionPercent | frontend/src/components/cart/GreenerAlternative.jsx:87-92 | the reduction as a percentage of a positive current carbon, else 0 |
| GreenerAlternative.BadgePercentInRange | frontend/src/components/cart/GreenerAlternative.jsx:130-133 | when the less-CO₂ badge shows, its percentage is positive, and at most 100 for a non-negative alternative |
| GreenerAlternative.ColourFor | frontend/src/components/cart/GreenerAlternative.jsx:172-176 | cheaper is green, dearer orange, otherwise neutral |
| GreenerAlternative.ColourSwaps | frontend/src/components/cart/GreenerAlternative.jsx:94-96 | swapping the two prices swaps green and orange |
| GreenerAlternative.ReplacementItem | frontend/src/components/cart/GreenerAlternative.jsx:43-53 | the alternative's id, the current quantity or 1, score 95 or 80, emission or 0 |
| GreenerAlternative.HandleReplace | frontend/src/components/cart/GreenerAlternative.jsx:38-69 | nothing without an alternative and a callback; remove first when there is an id; the cart is announced only after both requests succeed |
| GreenerAlternative.AddOnlyAfterRemoval | frontend/src/components/cart/GreenerAlternative.jsx:55-59 | the add follows a successful removal |
| Orders.LoadOrders | frontend/src/pages/Orders.jsx:37-53 | signed out gives no orders; success gives the reply or []; failure keeps the orders and shows the error |
| Orders.SignedOutIgnoresReply | frontend/src/pages/Orders.jsx:40-44 | without a user id nothing is requested |
| Orders.ErrorOutlivesRecovery | frontend/src/pages/Orders.jsx:37-53 | a later successful load does not clear the error |
| Orders.StatusColor | frontend/src/pages/Orders.jsx:55-70 | five statuses have their colour; anything else is gray |
| Orders.StatusColorsDistinct | frontend/src/pages/Orders.jsx:55-70 | the five colours are distinct |
| Orders.CanPlantTree | frontend/src/pages/Orders.jsx:99-105 | delivered, and at most 24 hours since delivery (or creation) |
| Orders.WindowOnlyCloses | frontend/src/pages/Orders.jsx:99-105 | an order eligible at some time was eligible at every earlier time |
| Orders.WindowEndsAfterOneDay | frontend/src/pages/Orders.jsx:99-105 | a delivered order is still eligible exactly 24 hours after delivery and not one millisecond later |
| Orders.CreationDateStandsIn | frontend/src/pages/Orders.jsx:101 | without a delivery date the creation date is used |
| Orders.FindSubmission | frontend/src/pages/Orders.jsx:108 | the first submission for the order, by nested or flat id |
| Orders.TreePlantingStatus | frontend/src/pages/Orders.jsx:107-124 | a submission decides first: PENDING, APPROVED and REJECTED give their own status, anything else unknown, with points only while pending or approved; otherwise available, expired or not delivered; each status has its colour |
| Orders.FirstSubmissionDecides | frontend/src/pages/Orders.jsx:108-120 | the first submission for the order decides the row and later ones are not read; approved shows its points, rejected none |
| Orders.SubmissionDecidesFirst | frontend/src/pages/Orders.jsx:109-120 | with a submission the clock does not matter |
| Orders.PageRowsComeFromEligibility | frontend/src/pages/Orders.jsx:121-123 | without submissions, the status comes from eligibility and carries no points |
| Orders.ConfirmAndPlantExclusive | frontend/src/pages/Orders.jsx:269-290 | an order offering Confirm Delivery is not delivered for planting |
| Profile.FetchProfile | frontend/src/pages/Profile.jsx:16-39 | without an id, the session or sign-in message; otherwise the profile, or the error message |
| Profile.JoinShowsEveryPart | frontend/src/pages/Profile.jsx:50 | the joined address contains every part |
| Profile.Texts | frontend/src/pages/Profile.jsx:50 | the parts' texts, when every part has one |
| Profile.FormatAddress | frontend/src/pages/Profile.jsx:47-52 | Not Set without a profile; the truthy parts joined; else the address or Not Set |
| Profile.EveryAddressPartShown | frontend/src/pages/Profile.jsx:49-50 | every truthy part appears in the address |
| Profile.FormatName | frontend/src/pages/Profile.jsx:54-60 | N/A without a profile; with a first or last name, exactly the trim of first, space, last (a missing one empty); else the name or User |
| Profile.TrimIdempotent | frontend/src/pages/Profile.jsx:57 | trimming twice is trimming once |
| Profile.FullNameShown | frontend/src/pages/Profile.jsx:57 | both names give "first last" |
| Profile.LastNameAloneShown | frontend/src/pages/Profile.jsx:57 | a last name alone loses the leading space |
| Profile.FirstNameAloneShown | frontend/src/pages/Profile.jsx:57 | a first name alone loses the trailing space |
| Profile.PaddedNamesTrimmed | frontend/src/pages/Profile.jsx:57 | spaces around the two names are dropped and the one between them kept |
| Js.TrimUnique | frontend/src/pages/Profile.jsx:57 | any slice that drops only white space from both ends and keeps none there is `trim()`'s result |
| Profile.LeadingSpaceTrimmed | frontend/src/pages/Profile.jsx:57 | the space before a last name with no first name is trimmed away |
| Profile.Render | frontend/src/pages/Profile.jsx:62-147 | loading, then the error, then not found, then the details with 0 for falsy figures |
| Profile.MissingIdShowsSignInMessage | frontend/src/pages/Profile.jsx:19-24 | a missing id shows one of the two messages, chosen by the token |
| Profile.ErrorBeforeNotFound | frontend/src/pages/Profile.jsx:29-85 | a failed fetch shows its error rather than not found |

## Left out

- Infinity and non-integer number-to-text conversion are not modelled. Numbers are finite reals or NaN, and only integers are rendered as text; other text results are `None`. `Number(text)` reads decimal literals with exponents and `0x`/`0o`/`0b` literals exactly, but the text "Infinity" reads as NaN, an exponent too large for a double stays finite, and no value is rounded to double precision.
- Unicode case mapping beyond ASCII is not modelled, nor is object identity: `===` between two arrays or objects is always false, even for a value compared with itself.
- `resolveCategoryName` reads inherited keys such as `constructor` on plain objects. The model reads own keys only.
- Products.NormalizeProduct: category labels are compared structurally, and spreading a non-object gives `{}`, although a string or array would also spread its indices as keys. Idempotence of normalisation is not stated.
- Wishlist.Transform: the random review count (`Math.random`) is left unconstrained (`None`).
- Repository behaviour is assumed rather than modelled: `save` writes in place, `deleteById` of a missing id is a no-op, and each identity counter grows by one.
- The notification service is modelled as an append-only log of (recipient, title, message, kind).
- The carbon calculator is a function parameter. `productRepository.sumTotalCarbonScore` is modelled as SQL `SUM` over the products' carbon scores.
- `findByUserIdAndStatusIn` and `findByUserIdAndCreatedAtBetweenAndStatusIn` (OrderRepository.java:53-54) are derived queries that no core code calls, so they are not modelled.
- `productService.deleteProduct` (AdminService.java:285) is not part of this model. Removal is modelled as deleting the row.
- Timers, polling, the 1.5-second feedback reset, toasts and `alert` boxes are left out, and so are `toLocaleString` and `toFixed` (the locale formatter is a parameter). Browser events and concurrency are left out too.
- Dates are plain integers. A null `createdAt` is not modelled, and neither is a null quantity in a cart line.
- An order item's product and seller are held by value rather than by reference.
- The login password is not kept. A token or role that is not a string is not modelled.
- Routes match exactly. Trailing slashes and case-insensitive matching are not modelled.
- Checkout assumes the cart is an array and its elements are not null. Other values throw during render.
- Products.Filterable and SellerDashboard.Searchable: a name or description that is present but not text (and, on the product page, a category label that is not text; on the seller dashboard, a null product) makes `toLowerCase` throw during render. The two filters require every product to pass these predicates rather than modelling that throw.
- SellerDashboard.CategoryName: the lookup is an object literal, so an id such as "toString" or "constructor" finds an inherited member there; the model reads only the six own keys and gives "Other".
- AdminService.ConvertToProductDto: `updatedAt` is not copied, because Domain.Product has no update timestamp.
- Domain.Order: an order's user, status and item list are never null in the model. AdminService.java dereferences the user and status without a check (lines 96-97 and 428-429), so a null there would throw, and the null-item-list guard at line 437 never fires.
- Checkout.InitialShippingInfo: a truthy first name, last name or email that is not text is read as empty, where the page keeps the raw value; `.trim()` in validateForm would then throw, which is not modelled either.
- Checkout.UserText: a truthy value that is not text is read as empty, for the reason above.
- Checkout.PlaceOrder: the message of the `TypeError` thrown for a nullish reply follows V8's wording; other engines word it differently.
- Orders: the message strings of the tree-planting status are not modelled; the status, the points, the colour and the choice between them are.
- SellerDashboard deletion behind `window.confirm`, the tab switching and the details toggle of GreenerAlternative are left out.
- Profile sign-out and every dashboard logout call `authAPI.logout`, which is not part of this model.
- The Navbar avatar initial is not modelled.
- The Navbar comment at Navbar.jsx:47-52 speaks of clearing partial session data, but the code clears nothing in that branch. The model follows the code: Navbar.CheckAuth leaves storage unchanged there.
- OrderRepository.FindBySellerId: its ensures states only that rows are stored orders. Which orders appear, and how many times, is stated in OrderRepository.RowsCoverMatchingOrders and OrderRepository.SellerRowsWeighted.
- OrderRepository.SellerRows and OrderRepository.SellerItemCount: their ensures state bounds only. The exact rows and counts are stated in the lemmas named above and in OrderRepository.CountBySellerIdCountsItems.
- AdminService.RoleCount and AdminService.ActiveRoleCount: their ensures state bounds only. The exact counts are tied to the lists in AdminService.RoleCountIsCount and AdminService.PendingAreInactive.
- OrderRepository.CountBySellerIdAndStatus: only the bound against the unfiltered count is stated, not the exact count.
- DataInitializer.RunIdempotent: it holds for any clock value and carbon calculator, but the seeded rows' timestamps are not compared.

=== FILE: admin_dashboard.dfy ===
/** The admin dashboard (frontend/src/components/dashboard/AdminDashboard.jsx):
    who may open it, how its three lists and the headline figures are
    loaded, the moderation requests its buttons send, the currency format
    and the navigation badges.

    The admin endpoints and `authAPI.getCurrentUser` are not part of this
    model: the stored user and the replies are inputs (`Failure` for a
    request that throws). `toLocaleString` is a parameter. The charts show
    fixed sample data and are not modelled. */
module AdminDashboard {
  import opened Wrappers
  import opened Js

  // ----------------------------------------------------------------- guard

  /** What opening the page does. */
  datatype Entry = RedirectToAuth | ShowAndFetch(currentUser: JsValue)

  /** The opening effect: without a current user, or for a user whose role
      is not exactly the text "ADMIN", go to the sign-in page and fetch
      nothing; otherwise keep the user and load the lists. */
  function Open(user: JsValue): (e: Entry)
    ensures e.ShowAndFetch? <==> Truthy(user) && Prop(user, "role") == Str("ADMIN")
    ensures e.ShowAndFetch? ==> e.currentUser == user
  {
    if !Truthy(user) || !StrictEquals(Prop(user, "role"), Str("ADMIN")) then RedirectToAuth
    else ShowAndFetch(user)
  }

  /** The role check is exact: a role in another case is turned away. */
  lemma RoleIsCaseSensitive(user: JsValue)
    requires user.Obj? && Prop(user, "role") == Str("admin")
    ensures Open(user) == RedirectToAuth
  {
  }

  // ------------------------------------------------------------------ load

  /** The headline figures. */
  datatype Stats = Stats(users: int, products: nat, revenue: int)

  /** The page's lists, figures and loading flag. */
  datatype AdminData = AdminData(
    pendingAdmins: seq<JsValue>,
    pendingProducts: seq<JsValue>,
    allProducts: seq<JsValue>,
    stats: Stats,
    loading: bool)

  const Initial: AdminData := AdminData([], [], [], Stats(0, 0, 0), true)

  /** `fetchAdminData`: the three requests run together; if any throws,
      nothing but the loading flag changes. Otherwise each list is its
      reply when that is an array and empty when not, and the figures are
      1250 users, the marketplace list's length and 89000 revenue. */
  function FetchAdminData(before: AdminData, admins: Result<JsValue>, pending: Result<JsValue>,
                          marketplace: Result<JsValue>): (after: AdminData)
    ensures !after.loading
    ensures admins.Failure? || pending.Failure? || marketplace.Failure? ==> after == before.(loading := false)
    ensures admins.Success? && pending.Success? && marketplace.Success? ==>
      after.pendingAdmins == ArrayOrEmpty(admins.value)
      && after.pendingProducts == ArrayOrEmpty(pending.value)
      && after.allProducts == ArrayOrEmpty(marketplace.value)
      && after.stats == Stats(1250, if marketplace.value.Arr? then |marketplace.value.items| else 0, 89000)
  {
    if admins.Success? && pending.Success? && marketplace.Success? then
      var all := ArrayOrEmpty(marketplace.value);
      AdminData(ArrayOrEmpty(admins.value), ArrayOrEmpty(pending.value), all,
                Stats(1250, if marketplace.value.Arr? then |marketplace.value.items| else 0, 89000), false)
    else before.(loading := false)
  }

  /** The product figure counts the marketplace list shown. */
  predicate CountMatches(d: AdminData) {
    d.stats.products == |d.allProducts|
  }

  /** The product figure and the marketplace list agree at first and after
      every load, whichever replies arrive. */
  lemma ProductFigureMatchesList(before: AdminData, admins: Result<JsValue>, pending: Result<JsValue>,
                                 marketplace: Result<JsValue>)
    requires CountMatches(before)
    ensures CountMatches(Initial)
    ensures CountMatches(FetchAdminData(before, admins, pending, marketplace))
  {
  }

  // ----------------------------------------------------------- moderation

  /** A request a moderation button sends. */
  datatype Request =
    | Approve(endpoint: string, id: JsValue)
    | Reject(endpoint: string, id: JsValue)
    | RemoveFromMarketplace(id: JsValue, reason: string)

  /** `handleReject`: after a declined confirmation nothing is sent; a
      confirmed rejection of type "user" uses `reject-user`, of any other
      type `reject-product`. */
  function HandleReject(kind: JsValue, id: JsValue, confirmed: bool): (r: Option<Request>)
    ensures r.Some? <==> confirmed
    ensures r.Some? ==> r.value.Reject? && r.value.id == id
    ensures r.Some? ==> (r.value.endpoint == "reject-user" <==> kind == Str("user"))
    ensures r.Some? ==> r.value.endpoint in {"reject-user", "reject-product"}
  {
    if !confirmed then None
    else Some(Reject(if StrictEquals(kind, Str("user")) then "reject-user" else "reject-product", id))
  }

  /** `handleRemoveProduct`: a confirmed removal sends the product id with
      the reason "Removed by Admin"; a declined one sends nothing. */
  function HandleRemoveProduct(productId: JsValue, confirmed: bool): (r: Option<Request>)
    ensures r.Some? <==> confirmed
    ensures r.Some? ==> r.value == RemoveFromMarketplace(productId, "Removed by Admin")
  {
    if confirmed then Some(RemoveFromMarketplace(productId, "Removed by Admin")) else None
  }

  /** `handleApproveAdmin` and `handleApproveProduct` send without asking. */
  function HandleApprove(isAdmin: bool, id: JsValue): (r: Request)
    ensures r.Approve? && r.id == id
    ensures r.endpoint == "approve-admin" <==> isAdmin
  {
    Approve(if isAdmin then "approve-admin" else "approve-product", id)
  }

  /** The product rows' reject button reaches the product endpoint and the
      admin rows' button the user endpoint. */
  lemma RejectButtonsReachTheirEndpoints(id: JsValue)
    ensures HandleReject(Str("product"), id, true) == Some(Reject("reject-product", id))
    ensures HandleReject(Str("user"), id, true) == Some(Reject("reject-user", id))
  {
  }

  /** What each moderation reply does to the page: a success reloads, a
      failure shows the alert and keeps the data. */
  datatype Outcome = Reload | Alert(message: string)

  function AfterRequest(r: Request, reply: Result<JsValue>): (o: Outcome)
    ensures reply.Success? <==> o == Reload
    ensures reply.Failure? && r.Reject? ==> o == Alert("Failed to reject item")
  {
    if reply.Success? then Reload
    else match r
      case Approve(endpoint, _) =>
        Alert(if endpoint == "approve-admin" then "Failed to approve admin" else "Failed to approve product")
      case Reject(_, _) => Alert("Failed to reject item")
      case RemoveFromMarketplace(_, _) => Alert("Failed to remove product")
  }

  // -------------------------------------------------------------- currency

  /** The amount `formatCurrency` shows: `Number(value ?? 0)`, with a value
      that does not read as a finite number shown as 0. */
  function CurrencyAmount(value: JsValue): (amount: Option<real>)
    ensures Nullish(value) ==> amount == Some(0.0)
    ensures amount.Some? <==> ToNumber(Coalesce(value, N(0.0))).Finite?
    ensures amount.Some? ==> amount.value == ToNumber(Coalesce(value, N(0.0))).r
  {
    var n := ToNumber(Coalesce(value, N(0.0)));
    if n.Finite? then Some(n.r) else None
  }

  /** `formatCurrency(value)`, with `toLocaleString` as `locale`: the rupee
      sign before the localised amount, and "₹0" when it is not finite. */
  function FormatCurrency(value: JsValue, locale: real -> string): (text: string)
    ensures |text| >= 1 && text[0] == '₹'
    ensures CurrencyAmount(value).None? ==> text == "₹0"
    ensures CurrencyAmount(value).Some? ==> text == "₹" + locale(CurrencyAmount(value).value)
  {
    match CurrencyAmount(value)
    case Some(r) => "₹" + locale(r)
    case None => "₹0"
  }

  /** A missing price shows as zero rupees, and a price text that is not a
      number shows "₹0" rather than "₹NaN". The text "Infinity", which reads
      as NaN here, is not finite on the page either, so it too shows "₹0". */
  lemma CurrencyEdges(locale: real -> string, s: string)
    requires ParseNumeric(s).NaN?
    ensures FormatCurrency(Null, locale) == "₹" + locale(0.0)
    ensures FormatCurrency(Undefined, locale) == "₹" + locale(0.0)
    ensures FormatCurrency(Str(s), locale) == "₹0"
  {
    assert ToNumber(Str(s)) == NaN;
    assert CurrencyAmount(Str(s)).None?;
  }

  // ---------------------------------------------------------------- badges

  /** `badge > 0`: the pending-product and pending-admin tabs show their
      counts only when there is something pending. */
  function Badges(d: AdminData): (shown: (bool, bool))
    ensures shown.0 <==> |d.pendingProducts| > 0
    ensures shown.1 <==> |d.pendingAdmins| > 0
  {
    (|d.pendingProducts| > 0, |d.pendingAdmins| > 0)
  }

  /** Replies that are not arrays leave the tabs without badges. */
  lemma NonArrayRepliesShowNoBadges(before: AdminData, admins: JsValue, pending: JsValue, marketplace: JsValue)
    requires !admins.Arr? && !pending.Arr?
    ensures Badges(FetchAdminData(before, Success(admins), Success(pending), Success(marketplace))) == (false, false)
  {
  }
}

=== FILE: admin_service.dfy ===
/** The administration service (ecobazaarbackend/.../service/AdminService.java):
    dashboard aggregates, the merged recent-activity feed, user, seller and
    product moderation, category management and the DTO conversions.

    Repositories are sequences in repository order; every user, product and
    category is found by id. The notification service is an append-only log.
    Unboxing a null `Boolean` throws; the class is `@Transactional`, so such a
    call fails as a whole and leaves every store as it was. */
module AdminService {
  import opened Wrappers
  import opened Domain
  import opened Sequences
  import Js
  import OrderRepository

  const NullPointer: string := "java.lang.NullPointerException"

  // ============================================================ overview

  /** `userRepository.countByRole(role)` */
  function RoleCount(users: seq<User>, role: Role): (n: nat)
    ensures n <= |users|
    decreases |users|
  {
    if |users| == 0 then 0
    else RoleCount(users[..|users| - 1], role) + (if users[|users| - 1].role == role then 1 else 0)
  }

  /** `userRepository.countByRoleAndIsActiveTrue(role)` */
  function ActiveRoleCount(users: seq<User>, role: Role): (n: nat)
    ensures n <= RoleCount(users, role)
    decreases |users|
  {
    if |users| == 0 then 0
    else
      var u := users[|users| - 1];
      ActiveRoleCount(users[..|users| - 1], role) + (if u.role == role && u.isActive == Some(true) then 1 else 0)
  }

  /** Reference definition: users of the role whose `isActive` is false or null. */
  function InactiveRoleCount(users: seq<User>, role: Role): nat
    decreases |users|
  {
    if |users| == 0 then 0
    else
      var u := users[|users| - 1];
      InactiveRoleCount(users[..|users| - 1], role) + (if u.role == role && u.isActive != Some(true) then 1 else 0)
  }

  /** The carbon-score column of the product table. */
  function CarbonScores(products: seq<Product>): (c: seq<Option<real>>)
    ensures |c| == |products|
    ensures forall k :: 0 <= k < |products| ==> c[k] == products[k].carbonScore
    decreases |products|
  {
    if |products| == 0 then [] else CarbonScores(products[..|products| - 1]) + [products[|products| - 1].carbonScore]
  }

  datatype AdminOverview = AdminOverview(
    totalUsers: nat,
    totalSellers: nat,
    totalCustomers: nat,
    activeSellers: nat,
    totalProducts: nat,
    totalCarbonImpact: real,
    pendingApplications: int,
    totalOrders: nat,
    totalRevenue: real)

  /** `getAdminOverview`. The carbon total is `SUM(p.carbonScore)` over the
      products (the product repository's query is not part of this model). */
  function GetAdminOverview(users: seq<User>, products: seq<Product>, orders: seq<Order>): (o: AdminOverview)
    ensures o.totalUsers == |users| && o.totalProducts == |products| && o.totalOrders == |orders|
    ensures o.totalSellers == RoleCount(users, Seller) && o.totalCustomers == RoleCount(users, Customer)
    ensures o.activeSellers == ActiveRoleCount(users, Seller)
    ensures o.pendingApplications == o.totalSellers - o.activeSellers
    ensures o.totalCarbonImpact == PresentTotal(CarbonScores(products))
    ensures o.totalRevenue == PresentTotal(OrderRepository.Totals(orders))
  {
    var sellers := RoleCount(users, Seller);
    var active := ActiveRoleCount(users, Seller);
    SqlSumOrZero(CarbonScores(products));
    AdminOverview(
      |users|, sellers, RoleCount(users, Customer), active, |products|,
      SqlSum(CarbonScores(products)).GetOr(0.0),
      sellers - active,
      |orders|, OrderRepository.SumTotalRevenue(orders).GetOr(0.0))
  }

  /** Sellers minus active sellers counts exactly the sellers whose
      `isActive` is false or null. */
  lemma {:induction false} PendingAreInactive(users: seq<User>, role: Role)
    ensures RoleCount(users, role) - ActiveRoleCount(users, role) == InactiveRoleCount(users, role)
    decreases |users|
  {
    if |users| > 0 {
      PendingAreInactive(users[..|users| - 1], role);
    }
  }

  /** The overview's pending applications are the sellers not yet active, never negative. */
  lemma OverviewPendingSellers(users: seq<User>, products: seq<Product>, orders: seq<Order>)
    ensures GetAdminOverview(users, products, orders).pendingApplications == InactiveRoleCount(users, Seller)
    ensures GetAdminOverview(users, products, orders).pendingApplications >= 0
  {
    PendingAreInactive(users, Seller);
  }

  // ===================================================== recent activity

  datatype Activity = Activity(
    kind: string,
    description: string,
    status: string,
    timestamp: int,
    entityId: string,
    entityType: string)

  function Timestamp(a: Activity): int {
    a.timestamp
  }

  function UserCreatedAt(u: User): int {
    u.createdAt
  }

  function ProductCreatedAt(p: Product): int {
    p.createdAt
  }

  function IsSeller(u: User): bool {
    u.role == Seller
  }

  /** `findByRoleOrderByCreatedAtDesc(SELLER)` limited to 5: the five
      newest sellers (all of them when there are fewer), newest first. */
  function TopSellers(users: seq<User>): (r: seq<User>)
    ensures |r| == if RoleCount(users, Seller) < 5 then RoleCount(users, Seller) else 5
    ensures forall k :: 0 <= k < |r| ==> r[k] in users && r[k].role == Seller
    ensures SortedDesc(r, UserCreatedAt)
    ensures multiset(r) <= multiset(Filter(users, IsSeller))
    ensures KeepsLargest(r, Filter(users, IsSeller), UserCreatedAt)
  {
    SellersCounted(users);
    Newest(Filter(users, IsSeller), 5, UserCreatedAt)
  }

  /** The sellers listed for the feed are as many as `countByRole(SELLER)`,
      and every seller the feed keeps is a stored seller. */
  lemma SellersCounted(users: seq<User>)
    ensures |Filter(users, IsSeller)| == RoleCount(users, Seller)
    ensures var r := Newest(Filter(users, IsSeller), 5, UserCreatedAt);
      forall k :: 0 <= k < |r| ==> r[k] in users && r[k].role == Seller
  {
    var sellers := Filter(users, IsSeller);
    var r := Newest(sellers, 5, UserCreatedAt);
    forall k | 0 <= k < |r|
      ensures r[k] in users && r[k].role == Seller
    {
      var j :| 0 <= j < |sellers| && sellers[j] == r[k];
    }
    FilterLength(users, IsSeller);
    RoleCountIsCount(users, Seller);
    CountSameKeep(users, IsSeller, HoldsRole(Seller));
  }

  /** `findAllOrderByCreatedAtDesc()` of the products, limited to 5: the
      five newest products, newest first. */
  function TopProducts(products: seq<Product>): (r: seq<Product>)
    ensures |r| == if |products| < 5 then |products| else 5
    ensures forall k :: 0 <= k < |r| ==> r[k] in products
    ensures SortedDesc(r, ProductCreatedAt)
    ensures multiset(r) <= multiset(products)
    ensures KeepsLargest(r, products, ProductCreatedAt)
  {
    var r := Newest(products, 5, ProductCreatedAt);
    r
  }

  /** The three newest orders, newest first. */
  function TopOrders(orders: seq<Order>): (r: seq<Order>)
    ensures |r| == if |orders| < 3 then |orders| else 3
    ensures forall k :: 0 <= k < |r| ==> r[k] in orders
    ensures SortedDesc(r, OrderRepository.CreatedAt)
    ensures multiset(r) <= multiset(orders)
    ensures KeepsLargest(r, orders, OrderRepository.CreatedAt)
  {
    var r := Newest(orders, 3, OrderRepository.CreatedAt);
    r
  }

  /** The entry for a seller registration. */
  function SellerActivity(u: User): (a: Activity)
    requires u.isActive.Some?
    ensures a.entityType == "USER" && a.timestamp == u.createdAt && a.entityId == Js.IntToString(u.id)
    ensures a.status == "APPROVED" <==> u.isActive.value
    ensures a.status != "APPROVED" ==> a.status == "PENDING"
  {
    Activity("USER_REGISTRATION",
             "New seller \"" + JavaText(u.firstName) + " " + JavaText(u.lastName) + "\" registered",
             if u.isActive.value then "APPROVED" else "PENDING",
             u.createdAt, Js.IntToString(u.id), "USER")
  }

  /** The entry for a product; reading the seller's first name needs a seller. */
  function ProductActivity(p: Product): (a: Activity)
    requires p.isActive.Some? && p.seller.Some?
    ensures a.entityType == "PRODUCT" && a.timestamp == p.createdAt && a.entityId == Js.IntToString(p.id)
    ensures a.status == "APPROVED" <==> p.isActive.value
    ensures a.status != "APPROVED" ==> a.status == "PENDING"
  {
    Activity("PRODUCT_ADDED",
             "Product \"" + JavaText(p.name) + "\" added by " + JavaText(p.seller.value.firstName),
             if p.isActive.value then "APPROVED" else "PENDING",
             p.createdAt, Js.IntToString(p.id), "PRODUCT")
  }

  /** The entry for an order: it carries the order's own status. */
  function OrderActivity(o: Order): (a: Activity)
    ensures a.entityType == "ORDER" && a.timestamp == o.createdAt && a.entityId == Js.IntToString(o.id)
    ensures a.status == o.status
  {
    Activity("ORDER_PLACED",
             "Order placed by " + JavaText(o.user.firstName) + " " + JavaText(o.user.lastName),
             o.status, o.createdAt, Js.IntToString(o.id), "ORDER")
  }

  /** No seller's `isActive` is null. */
  predicate StatusesKnown(sellers: seq<User>) {
    forall k :: 0 <= k < |sellers| ==> sellers[k].isActive.Some?
  }

  /** No product's `isActive` or seller is null. */
  predicate ProductsComplete(products: seq<Product>) {
    forall k :: 0 <= k < |products| ==> products[k].isActive.Some? && products[k].seller.Some?
  }

  /** The merge: the ten newest entries of `all` (all of them when there
      are fewer), newest first. */
  function MergeFeed(all: seq<Activity>): (r: seq<Activity>)
    ensures |r| == if |all| < 10 then |all| else 10
    ensures forall i, j :: 0 <= i < j < |r| ==> r[i].timestamp >= r[j].timestamp
    ensures forall k :: 0 <= k < |r| ==> r[k] in all
    ensures multiset(r) <= multiset(all)
    ensures KeepsLargest(r, all, Timestamp)
  {
    var r := Newest(all, 10, Timestamp);
    assert SortedDesc(r, Timestamp);
    r
  }

  /** The seller entries, failing on a null `isActive`. */
  function SellerActivities(sellers: seq<User>): (r: Result<seq<Activity>>)
    ensures r.Success? <==> StatusesKnown(sellers)
    ensures r.Success? ==> (|r.value| == |sellers|
      && forall k :: 0 <= k < |sellers| ==> r.value[k] == SellerActivity(sellers[k]))
    ensures r.Failure? ==> r.error == NullPointer
    decreases |sellers|
  {
    if |sellers| == 0 then Success([])
    else if sellers[0].isActive.None? then Failure(NullPointer)
    else
      match SellerActivities(sellers[1..])
      case Failure(e) =>
        assert !StatusesKnown(sellers[1..]);
        Failure(e)
      case Success(rest) =>
        assert forall k :: 1 <= k < |sellers| ==> sellers[k] == sellers[1..][k - 1];
        Success([SellerActivity(sellers[0])] + rest)
  }

  /** The product entries, failing on a null `isActive` or seller. */
  function ProductActivities(products: seq<Product>): (r: Result<seq<Activity>>)
    ensures r.Success? <==> ProductsComplete(products)
    ensures r.Success? ==> (|r.value| == |products|
      && forall k :: 0 <= k < |products| ==> r.value[k] == ProductActivity(products[k]))
    ensures r.Failure? ==> r.error == NullPointer
    decreases |products|
  {
    if |products| == 0 then Success([])
    else if products[0].isActive.None? || products[0].seller.None? then Failure(NullPointer)
    else
      match ProductActivities(products[1..])
      case Failure(e) =>
        assert !ProductsComplete(products[1..]);
        Failure(e)
      case Success(rest) =>
        assert forall k :: 1 <= k < |products| ==> products[k] == products[1..][k - 1];
        Success([ProductActivity(products[0])] + rest)
  }

  /** The seller, product and order entries, before the merge. */
  function FeedSources(ss: seq<User>, ps: seq<Product>, os: seq<Order>): (all: seq<Activity>)
    requires StatusesKnown(ss) && ProductsComplete(ps)
    ensures |all| == |ss| + |ps| + |os|
    ensures SellersAt(all, ss, 0) && ProductsAt(all, ps, |ss|) && OrdersAt(all, os, |ss| + |ps|)
  {
    var a, b, c := SellerActivities(ss).value, ProductActivities(ps).value, Map(os, OrderActivity);
    SellersPlaced(a, b, c, ss);
    ProductsPlaced(a, b, c, ps);
    OrdersPlaced(a, b, c, os);
    a + b + c
  }

  lemma SellersPlaced(a: seq<Activity>, b: seq<Activity>, c: seq<Activity>, ss: seq<User>)
    requires StatusesKnown(ss) && |a| == |ss| && forall i :: 0 <= i < |ss| ==> a[i] == SellerActivity(ss[i])
    ensures SellersAt(a + b + c, ss, 0)
  {
    forall i | 0 <= i < |ss|
      ensures (a + b + c)[i] == SellerActivity(ss[i])
    {
      assert (a + b + c)[i] == a[i];
    }
  }

  lemma ProductsPlaced(a: seq<Activity>, b: seq<Activity>, c: seq<Activity>, ps: seq<Product>)
    requires ProductsComplete(ps) && |b| == |ps| && forall i :: 0 <= i < |ps| ==> b[i] == ProductActivity(ps[i])
    ensures ProductsAt(a + b + c, ps, |a|)
  {
    forall i | 0 <= i < |ps|
      ensures (a + b + c)[|a| + i] == ProductActivity(ps[i])
    {
      assert (a + b + c)[|a| + i] == b[i];
    }
  }

  lemma OrdersPlaced(a: seq<Activity>, b: seq<Activity>, c: seq<Activity>, os: seq<Order>)
    requires |c| == |os| && forall i :: 0 <= i < |os| ==> c[i] == OrderActivity(os[i])
    ensures OrdersAt(a + b + c, os, |a| + |b|)
  {
    forall i | 0 <= i < |os|
      ensures (a + b + c)[|a| + |b| + i] == OrderActivity(os[i])
    {
      assert (a + b + c)[|a| + |b| + i] == c[i];
    }
  }

  /** `getRecentActivity`: the five newest sellers, five newest products and
      three newest orders, merged newest first and cut to ten. */
  function GetRecentActivity(users: seq<User>, products: seq<Product>, orders: seq<Order>)
    : (r: Result<seq<Activity>>)
    ensures r.Success? <==> StatusesKnown(TopSellers(users)) && ProductsComplete(TopProducts(products))
    ensures r.Failure? ==> r.error == NullPointer
    ensures r.Success? ==> |r.value| == (var n := |TopSellers(users)| + |TopProducts(products)| + |TopOrders(orders)|;
                                  if n < 10 then n else 10)
    ensures r.Success? ==> forall i, j :: 0 <= i < j < |r.value| ==> r.value[i].timestamp >= r.value[j].timestamp
  {
    var ss, ps, os := TopSellers(users), TopProducts(products), TopOrders(orders);
    var sa := SellerActivities(ss);
    var pa := ProductActivities(ps);
    if sa.Failure? || pa.Failure? then Failure(NullPointer)
    else Success(MergeFeed(FeedSources(ss, ps, os)))
  }

  /** `x` is the registration of a seller in `ss`, the addition of a product
      in `ps` or the placement of an order in `os`. */
  predicate FeedOrigin(x: Activity, ss: seq<User>, ps: seq<Product>, os: seq<Order>) {
    (exists u :: u in ss && u.isActive.Some? && x == SellerActivity(u))
    || (exists p :: p in ps && p.isActive.Some? && p.seller.Some? && x == ProductActivity(p))
    || (exists o :: o in os && x == OrderActivity(o))
  }

  /** Every entry of the feed is the registration of one of the five newest
      sellers, the addition of one of the five newest products or the
      placement of one of the three newest orders; a seller or product entry
      is "APPROVED" exactly when that seller or product is active. */
  lemma RecentActivityEntries(users: seq<User>, products: seq<Product>, orders: seq<Order>)
    requires GetRecentActivity(users, products, orders).Success?
    ensures var r := GetRecentActivity(users, products, orders).value;
      forall k :: 0 <= k < |r| ==> FeedOrigin(r[k], TopSellers(users), TopProducts(products), TopOrders(orders))
  {
    var ss := TopSellers(users);
    var ps := TopProducts(products);
    var os := TopOrders(orders);
    var r := GetRecentActivity(users, products, orders).value;
    assert r == MergeFeed(FeedSources(ss, ps, os));
    forall k | 0 <= k < |r|
      ensures FeedOrigin(r[k], ss, ps, os)
    {
      EntryDrawnFrom(ss, ps, os, r[k]);
    }
  }

  /** The feed keeps the newest events: a seller registration, product
      addition or order placement from the three lists that the feed leaves
      out is no newer than any entry it shows. */
  lemma FeedKeepsNewest(users: seq<User>, products: seq<Product>, orders: seq<Order>)
    requires GetRecentActivity(users, products, orders).Success?
    ensures var r := GetRecentActivity(users, products, orders).value;
      forall u, k :: u in TopSellers(users) && SellerActivity.requires(u) && SellerActivity(u) !in r && 0 <= k < |r| ==>
        u.createdAt <= r[k].timestamp
    ensures var r := GetRecentActivity(users, products, orders).value;
      forall p, k :: p in TopProducts(products) && ProductActivity.requires(p) && ProductActivity(p) !in r && 0 <= k < |r| ==>
        p.createdAt <= r[k].timestamp
    ensures var r := GetRecentActivity(users, products, orders).value;
      forall o, k :: o in TopOrders(orders) && OrderActivity(o) !in r && 0 <= k < |r| ==>
        o.createdAt <= r[k].timestamp
  {
    SellersLeftOutNoNewer(users, products, orders);
    ProductsLeftOutNoNewer(users, products, orders);
    OrdersLeftOutNoNewer(users, products, orders);
  }

  lemma SellersLeftOutNoNewer(users: seq<User>, products: seq<Product>, orders: seq<Order>)
    requires GetRecentActivity(users, products, orders).Success?
    ensures var r := GetRecentActivity(users, products, orders).value;
      forall u, k :: u in TopSellers(users) && SellerActivity.requires(u) && SellerActivity(u) !in r && 0 <= k < |r| ==>
        u.createdAt <= r[k].timestamp
  {
    var ss, ps, os := TopSellers(users), TopProducts(products), TopOrders(orders);
    assert GetRecentActivity(users, products, orders).value == MergeFeed(FeedSources(ss, ps, os));
    SellersLeftOut(ss, ps, os);
  }

  lemma ProductsLeftOutNoNewer(users: seq<User>, products: seq<Product>, orders: seq<Order>)
    requires GetRecentActivity(users, products, orders).Success?
    ensures var r := GetRecentActivity(users, products, orders).value;
      forall p, k :: p in TopProducts(products) && ProductActivity.requires(p) && ProductActivity(p) !in r && 0 <= k < |r| ==>
        p.createdAt <= r[k].timestamp
  {
    var ss, ps, os := TopSellers(users), TopProducts(products), TopOrders(orders);
    assert GetRecentActivity(users, products, orders).value == MergeFeed(FeedSources(ss, ps, os));
    ProductsLeftOut(ss, ps, os);
  }

  lemma OrdersLeftOutNoNewer(users: seq<User>, products: seq<Product>, orders: seq<Order>)
    requires GetRecentActivity(users, products, orders).Success?
    ensures var r := GetRecentActivity(users, products, orders).value;
      forall o, k :: o in TopOrders(orders) && OrderActivity(o) !in r && 0 <= k < |r| ==>
        o.createdAt <= r[k].timestamp
  {
    var ss, ps, os := TopSellers(users), TopProducts(products), TopOrders(orders);
    assert GetRecentActivity(users, products, orders).value == MergeFeed(FeedSources(ss, ps, os));
    OrdersLeftOut(ss, ps, os);
  }

  lemma SellersLeftOut(ss: seq<User>, ps: seq<Product>, os: seq<Order>)
    requires StatusesKnown(ss) && ProductsComplete(ps)
    ensures var r := MergeFeed(FeedSources(ss, ps, os));
      forall u, k :: u in ss && SellerActivity(u) !in r && 0 <= k < |r| ==> u.createdAt <= r[k].timestamp
  {
    var all := FeedSources(ss, ps, os);
    MergeFeedLeavesOlder(all);
    SellersLeftOutOf(all, MergeFeed(all), ss, 0);
  }

  lemma ProductsLeftOut(ss: seq<User>, ps: seq<Product>, os: seq<Order>)
    requires StatusesKnown(ss) && ProductsComplete(ps)
    ensures var r := MergeFeed(FeedSources(ss, ps, os));
      forall p, k :: p in ps && ProductActivity(p) !in r && 0 <= k < |r| ==> p.createdAt <= r[k].timestamp
  {
    var all := FeedSources(ss, ps, os);
    MergeFeedLeavesOlder(all);
    ProductsLeftOutOf(all, MergeFeed(all), ps, |ss|);
  }

  lemma OrdersLeftOut(ss: seq<User>, ps: seq<Product>, os: seq<Order>)
    requires StatusesKnown(ss) && ProductsComplete(ps)
    ensures var r := MergeFeed(FeedSources(ss, ps, os));
      forall o, k :: o in os && OrderActivity(o) !in r && 0 <= k < |r| ==> o.createdAt <= r[k].timestamp
  {
    var all := FeedSources(ss, ps, os);
    MergeFeedLeavesOlder(all);
    OrdersLeftOutOf(all, MergeFeed(all), os, |ss| + |ps|);
  }

  /** The sellers' entries sit at `off` in `all`. */
  predicate SellersAt(all: seq<Activity>, ss: seq<User>, off: nat) {
    StatusesKnown(ss) && off + |ss| <= |all| && forall i :: 0 <= i < |ss| ==> all[off + i] == SellerActivity(ss[i])
  }

  /** The products' entries sit at `off` in `all`. */
  predicate ProductsAt(all: seq<Activity>, ps: seq<Product>, off: nat) {
    ProductsComplete(ps) && off + |ps| <= |all| && forall i :: 0 <= i < |ps| ==> all[off + i] == ProductActivity(ps[i])
  }

  /** The orders' entries sit at `off` in `all`. */
  predicate OrdersAt(all: seq<Activity>, os: seq<Order>, off: nat) {
    off + |os| <= |all| && forall i :: 0 <= i < |os| ==> all[off + i] == OrderActivity(os[i])
  }

  /** The sellers' entries sit at `off` in `all`; those `r` leaves out are no newer than `r`'s. */
  lemma SellersLeftOutOf(all: seq<Activity>, r: seq<Activity>, ss: seq<User>, off: nat)
    requires SellersAt(all, ss, off)
    requires NoNewerLeftOut(r, all)
    ensures forall u, k :: u in ss && SellerActivity(u) !in r && 0 <= k < |r| ==> u.createdAt <= r[k].timestamp
  {
    forall u, k | u in ss && SellerActivity(u) !in r && 0 <= k < |r|
      ensures u.createdAt <= r[k].timestamp
    {
      var i :| 0 <= i < |ss| && ss[i] == u;
      assert all[off + i] !in r;
    }
  }

  /** The products' entries sit at `off` in `all`; those `r` leaves out are no newer than `r`'s. */
  lemma ProductsLeftOutOf(all: seq<Activity>, r: seq<Activity>, ps: seq<Product>, off: nat)
    requires ProductsAt(all, ps, off)
    requires NoNewerLeftOut(r, all)
    ensures forall p, k :: p in ps && ProductActivity(p) !in r && 0 <= k < |r| ==> p.createdAt <= r[k].timestamp
  {
    forall p, k | p in ps && ProductActivity(p) !in r && 0 <= k < |r|
      ensures p.createdAt <= r[k].timestamp
    {
      var i :| 0 <= i < |ps| && ps[i] == p;
      assert all[off + i] !in r;
    }
  }

  /** The orders' entries sit at `off` in `all`; those `r` leaves out are no newer than `r`'s. */
  lemma OrdersLeftOutOf(all: seq<Activity>, r: seq<Activity>, os: seq<Order>, off: nat)
    requires OrdersAt(all, os, off)
    requires NoNewerLeftOut(r, all)
    ensures forall o, k :: o in os && OrderActivity(o) !in r && 0 <= k < |r| ==> o.createdAt <= r[k].timestamp
  {
    forall o, k | o in os && OrderActivity(o) !in r && 0 <= k < |r|
      ensures o.createdAt <= r[k].timestamp
    {
      var i :| 0 <= i < |os| && os[i] == o;
      assert all[off + i] !in r;
    }
  }

  /** Every entry of `all` that `r` leaves out is no newer than any entry of `r`. */
  predicate NoNewerLeftOut(r: seq<Activity>, all: seq<Activity>) {
    forall j, k :: 0 <= j < |all| && all[j] !in r && 0 <= k < |r| ==> all[j].timestamp <= r[k].timestamp
  }

  lemma MergeFeedLeavesOlder(all: seq<Activity>)
    ensures NoNewerLeftOut(MergeFeed(all), all)
  {
    var r := MergeFeed(all);
    forall j, k | 0 <= j < |all| && all[j] !in r && 0 <= k < |r|
      ensures all[j].timestamp <= r[k].timestamp
    {
      LeftOutNoNewer(r, all, j, k);
    }
  }

  /** An entry of `all` missing from a list that keeps the largest
      timestamps is no newer than any entry in it. */
  lemma LeftOutNoNewer(r: seq<Activity>, all: seq<Activity>, i: nat, k: nat)
    requires KeepsLargest(r, all, Timestamp) && i < |all| && all[i] !in r && k < |r|
    ensures all[i].timestamp <= r[k].timestamp
  {
    assert multiset(r)[all[i]] == 0 < multiset(all)[all[i]];
    assert Timestamp(all[i]) <= Timestamp(r[k]);
  }

  /** An entry of the unmerged feed comes from one seller, product or order. */
  lemma EntryDrawnFrom(ss: seq<User>, ps: seq<Product>, os: seq<Order>, x: Activity)
    requires StatusesKnown(ss) && ProductsComplete(ps)
    requires x in FeedSources(ss, ps, os)
    ensures FeedOrigin(x, ss, ps, os)
  {
    var all := FeedSources(ss, ps, os);
    var i :| 0 <= i < |all| && all[i] == x;
    if i < |ss| {
      assert x == SellerActivity(ss[i]) && ss[i] in ss;
    } else if i < |ss| + |ps| {
      assert x == ProductActivity(ps[i - |ss|]) && ps[i - |ss|] in ps;
    } else {
      assert x == OrderActivity(os[i - |ss| - |ps|]) && os[i - |ss| - |ps|] in os;
    }
  }

  // =========================================================== moderation

  /** `userRepository.findById(id)` */
  function FindUser(users: seq<User>, id: int): (o: Option<User>)
    ensures o.Some? ==> o.value in users && o.value.id == id
    ensures o.None? ==> forall k :: 0 <= k < |users| ==> users[k].id != id
  {
    FindFirst(users, (u: User) => u.id == id)
  }

  /** The users with the given id have `isActive` set; nobody else changes. */
  function SetUserActive(users: seq<User>, id: int, active: Option<bool>): (r: seq<User>)
    ensures |r| == |users|
    ensures forall k :: 0 <= k < |users| ==>
      r[k] == (if users[k].id == id then users[k].(isActive := active) else users[k])
  {
    UpdateWhere(users, (u: User) => u.id == id, (u: User) => u.(isActive := active))
  }

  /** A moderation step: when the user exists, set its `isActive` and notify it. */
  function ModerateUser(users: seq<User>, log: seq<Notification>, id: int, active: bool,
                        title: string, message: string, kind: string): (r: (seq<User>, seq<Notification>))
    ensures FindUser(users, id).None? ==> r == (users, log)
    ensures FindUser(users, id).Some? ==>
      r == (SetUserActive(users, id, Some(active)), log + [Notification(Some(id), title, message, kind)])
  {
    if FindUser(users, id).None? then (users, log)
    else (SetUserActive(users, id, Some(active)), log + [Notification(Some(id), title, message, kind)])
  }

  /** `approveAdmin`: activates the user, whatever its role. */
  function ApproveAdmin(users: seq<User>, log: seq<Notification>, userId: int): (r: (seq<User>, seq<Notification>))
    ensures FindUser(users, userId).None? ==> r == (users, log)
    ensures FindUser(users, userId).Some? ==>
      r.0 == SetUserActive(users, userId, Some(true))
      && r.1 == log + [Notification(Some(userId), "Admin Access Approved",
                                    "Your request for Admin access has been approved.", "ACCESS_APPROVED")]
  {
    ModerateUser(users, log, userId, true, "Admin Access Approved",
                 "Your request for Admin access has been approved.", "ACCESS_APPROVED")
  }

  /** `rejectUser` */
  function RejectUser(users: seq<User>, log: seq<Notification>, userId: int): (r: (seq<User>, seq<Notification>))
    ensures FindUser(users, userId).None? ==> r == (users, log)
    ensures FindUser(users, userId).Some? ==>
      r.0 == SetUserActive(users, userId, Some(false))
      && r.1 == log + [Notification(Some(userId), "Account Status Update",
                                    "Your account request was rejected or access revoked.", "ACCOUNT_REJECTED")]
  {
    ModerateUser(users, log, userId, false, "Account Status Update",
                 "Your account request was rejected or access revoked.", "ACCOUNT_REJECTED")
  }

  /** `approveSeller`; the admin notes are not used. */
  function ApproveSeller(users: seq<User>, log: seq<Notification>, sellerId: int, adminNotes: Option<string>)
    : (r: (seq<User>, seq<Notification>))
    ensures FindUser(users, sellerId).None? ==> r == (users, log)
    ensures FindUser(users, sellerId).Some? ==>
      r.0 == SetUserActive(users, sellerId, Some(true))
      && r.1 == log + [Notification(Some(sellerId), "Seller Approved", "Your seller account is approved!", "SELLER_APPROVAL")]
  {
    ModerateUser(users, log, sellerId, true, "Seller Approved", "Your seller account is approved!", "SELLER_APPROVAL")
  }

  /** `rejectSeller`: the notes become the reason ("null" when absent). */
  function RejectSeller(users: seq<User>, log: seq<Notification>, sellerId: int, adminNotes: Option<string>)
    : (r: (seq<User>, seq<Notification>))
    ensures FindUser(users, sellerId).None? ==> r == (users, log)
    ensures FindUser(users, sellerId).Some? ==>
      r.0 == SetUserActive(users, sellerId, Some(false))
      && r.1 == log + [Notification(Some(sellerId), "Seller Application Rejected",
                                    "Reason: " + JavaText(adminNotes), "SELLER_REJECTION")]
  {
    ModerateUser(users, log, sellerId, false, "Seller Application Rejected",
                 "Reason: " + JavaText(adminNotes), "SELLER_REJECTION")
  }

  /** `blockSeller` */
  function BlockSeller(users: seq<User>, log: seq<Notification>, sellerId: int, reason: Option<string>)
    : (r: (seq<User>, seq<Notification>))
    ensures FindUser(users, sellerId).None? ==> r == (users, log)
    ensures FindUser(users, sellerId).Some? ==>
      r.0 == SetUserActive(users, sellerId, Some(false))
      && r.1 == log + [Notification(Some(sellerId), "Account Blocked", "Reason: " + JavaText(reason), "ACCOUNT_BLOCKED")]
  {
    ModerateUser(users, log, sellerId, false, "Account Blocked", "Reason: " + JavaText(reason), "ACCOUNT_BLOCKED")
  }

  /** `updateUserStatus`: a null status is stored and then unboxed for the
      message, which throws and rolls the change back. */
  function UpdateUserStatus(users: seq<User>, log: seq<Notification>, userId: int, isActive: Option<bool>)
    : (r: Result<(seq<User>, seq<Notification>)>)
    ensures FindUser(users, userId).None? ==> r == Success((users, log))
    ensures FindUser(users, userId).Some? && isActive.None? ==> r == Failure(NullPointer)
    ensures FindUser(users, userId).Some? && isActive.Some? ==>
      r.Success? && r.value.0 == SetUserActive(users, userId, isActive)
      && r.value.1 == log + [Notification(Some(userId),
                                          if isActive.value then "Account Activated" else "Account Deactivated",
                                          if isActive.value then "Your account has been activated."
                                          else "Your account has been deactivated. Contact support.",
                                          "ACCOUNT_STATUS")]
  {
    if FindUser(users, userId).None? then Success((users, log))
    else if isActive.None? then Failure(NullPointer)
    else
      var title := if isActive.value then "Account Activated" else "Account Deactivated";
      var message := if isActive.value then "Your account has been activated."
                     else "Your account has been deactivated. Contact support.";
      Success((SetUserActive(users, userId, isActive), log + [Notification(Some(userId), title, message, "ACCOUNT_STATUS")]))
  }

  function RoleName(role: Role): string {
    match role
    case Admin => "ADMIN"
    case Seller => "SELLER"
    case Customer => "CUSTOMER"
  }

  /** `updateUserRole` */
  function UpdateUserRole(users: seq<User>, log: seq<Notification>, userId: int, role: Role)
    : (r: (seq<User>, seq<Notification>))
    ensures FindUser(users, userId).None? ==> r == (users, log)
    ensures FindUser(users, userId).Some? ==>
      |r.0| == |users|
      && (forall k :: 0 <= k < |users| ==>
            r.0[k] == (if users[k].id == userId then users[k].(role := role) else users[k]))
      && r.1 == log + [Notification(Some(userId), "Role Updated", "Your account role is now " + RoleName(role), "ROLE_UPDATE")]
  {
    if FindUser(users, userId).None? then (users, log)
    else
      (UpdateWhere(users, (u: User) => u.id == userId, (u: User) => u.(role := role)),
       log + [Notification(Some(userId), "Role Updated", "Your account role is now " + RoleName(role), "ROLE_UPDATE")])
  }

  /** An admin whose `isActive` is false. */
  function IsPendingAdmin(u: User): bool {
    u.role == Admin && u.isActive == Some(false)
  }

  /** Every admin has a non-null `isActive`. */
  predicate AdminStatusesKnown(users: seq<User>) {
    forall k :: 0 <= k < |users| && users[k].role == Admin ==> users[k].isActive.Some?
  }

  /** `getPendingAdmins`: the admins whose `isActive` is false, in
      repository order; a null `isActive` on any admin throws while filtering. */
  function GetPendingAdmins(users: seq<User>): (r: Result<seq<User>>)
    ensures r.Success? <==> AdminStatusesKnown(users)
    ensures r.Failure? ==> r.error == NullPointer
    ensures r.Success? ==> SubsequenceOf(r.value, users)
    ensures r.Success? ==> forall k :: 0 <= k < |r.value| ==> r.value[k].role == Admin && r.value[k].isActive == Some(false)
    ensures r.Success? ==> forall k :: 0 <= k < |users| && users[k].role == Admin && users[k].isActive == Some(false)
                             ==> users[k] in r.value
  {
    if AdminStatusesKnown(users) then Success(Filter(users, IsPendingAdmin)) else Failure(NullPointer)
  }

  /** After `approveAdmin`, that user is no longer among the pending admins. */
  lemma ApprovedAdminLeavesPending(users: seq<User>, log: seq<Notification>, userId: int)
    requires AdminStatusesKnown(users)
    ensures var users' := ApproveAdmin(users, log, userId).0;
      GetPendingAdmins(users').Success?
      && forall k :: 0 <= k < |GetPendingAdmins(users').value| ==> GetPendingAdmins(users').value[k].id != userId
  {
    var users' := ApproveAdmin(users, log, userId).0;
    assert forall k :: 0 <= k < |users'| ==> users'[k].role == users[k].role;
    assert forall k :: 0 <= k < |users'| && users'[k].id == userId && FindUser(users, userId).Some? ==>
      users'[k].isActive == Some(true);
  }

  /** After `rejectUser` on an existing admin, that admin is pending. */
  lemma RejectedAdminIsPending(users: seq<User>, log: seq<Notification>, k: nat)
    requires AdminStatusesKnown(users)
    requires k < |users| && users[k].role == Admin
    ensures var users' := RejectUser(users, log, users[k].id).0;
      GetPendingAdmins(users').Success? && users'[k] in GetPendingAdmins(users').value
      && users'[k].id == users[k].id
  {
    var id := users[k].id;
    assert FindUser(users, id).Some?;
    var users' := RejectUser(users, log, id).0;
    assert forall j :: 0 <= j < |users'| ==> users'[j].role == users[j].role;
    assert users'[k].isActive == Some(false);
  }

  // ------------------------------------------------------------ products

  /** `productRepository.findById(id)` */
  function FindProduct(products: seq<Product>, id: int): (o: Option<Product>)
    ensures o.Some? ==> o.value in products && o.value.id == id
    ensures o.None? ==> forall k :: 0 <= k < |products| ==> products[k].id != id
  {
    FindFirst(products, (p: Product) => p.id == id)
  }

  /** The id of the product's seller, the notification's recipient. */
  function SellerRef(p: Product): (o: Option<int>)
    ensures o.Some? <==> p.seller.Some?
    ensures o.Some? ==> o.value == p.seller.value.id
  {
    if p.seller.Some? then Some(p.seller.value.id) else None
  }

  /** The products with the given id have `isActive` set; nothing else changes. */
  function SetProductActive(products: seq<Product>, id: int, active: Option<bool>): (r: seq<Product>)
    ensures |r| == |products|
    ensures forall k :: 0 <= k < |products| ==>
      r[k] == (if products[k].id == id then products[k].(isActive := active) else products[k])
  {
    UpdateWhere(products, (p: Product) => p.id == id, (p: Product) => p.(isActive := active))
  }

  /** `approveProduct` */
  function ApproveProduct(products: seq<Product>, log: seq<Notification>, productId: int, adminNotes: Option<string>)
    : (r: (seq<Product>, seq<Notification>))
    ensures FindProduct(products, productId).None? ==> r == (products, log)
    ensures FindProduct(products, productId).Some? ==> var p := FindProduct(products, productId).value;
      r.0 == SetProductActive(products, productId, Some(true))
      && r.1 == log + [Notification(SellerRef(p), "Product Approved",
                                    "Your product '" + JavaText(p.name) + "' is live.", "PRODUCT_APPROVAL")]
  {
    match FindProduct(products, productId)
    case None => (products, log)
    case Some(p) =>
      (SetProductActive(products, productId, Some(true)),
       log + [Notification(SellerRef(p), "Product Approved", "Your product '" + JavaText(p.name) + "' is live.", "PRODUCT_APPROVAL")])
  }

  /** `rejectProduct` */
  function RejectProduct(products: seq<Product>, log: seq<Notification>, productId: int, reason: Option<string>)
    : (r: (seq<Product>, seq<Notification>))
    ensures FindProduct(products, productId).None? ==> r == (products, log)
    ensures FindProduct(products, productId).Some? ==> var p := FindProduct(products, productId).value;
      r.0 == SetProductActive(products, productId, Some(false))
      && r.1 == log + [Notification(SellerRef(p), "Product Rejected", "Reason: " + JavaText(reason), "PRODUCT_REJECTION")]
  {
    match FindProduct(products, productId)
    case None => (products, log)
    case Some(p) =>
      (SetProductActive(products, productId, Some(false)),
       log + [Notification(SellerRef(p), "Product Rejected", "Reason: " + JavaText(reason), "PRODUCT_REJECTION")])
  }

  /** `updateProductStatus`: like `updateUserStatus`, a null status throws and rolls back. */
  function UpdateProductStatus(products: seq<Product>, log: seq<Notification>, productId: int, isActive: Option<bool>)
    : (r: Result<(seq<Product>, seq<Notification>)>)
    ensures FindProduct(products, productId).None? ==> r == Success((products, log))
    ensures FindProduct(products, productId).Some? && isActive.None? ==> r == Failure(NullPointer)
    ensures FindProduct(products, productId).Some? && isActive.Some? ==> var p := FindProduct(products, productId).value;
      r == Success((SetProductActive(products, productId, isActive),
                    log + [Notification(SellerRef(p), "Product " + (if isActive.value then "Approved" else "Suspended"),
                                        "Product: " + JavaText(p.name), "PRODUCT_STATUS")]))
  {
    match FindProduct(products, productId)
    case None => Success((products, log))
    case Some(p) =>
      if isActive.None? then Failure(NullPointer)
      else
        var status := if isActive.value then "Approved" else "Suspended";
        Success((SetProductActive(products, productId, isActive),
                 log + [Notification(SellerRef(p), "Product " + status, "Product: " + JavaText(p.name), "PRODUCT_STATUS")]))
  }

  /** `updateProductEcoData`: sets the carbon score and eco flag as given (nulls included). */
  function UpdateProductEcoData(products: seq<Product>, log: seq<Notification>, productId: int,
                                carbonScore: Option<real>, isEcoFriendly: Option<bool>, adminNotes: Option<string>)
    : (r: (seq<Product>, seq<Notification>))
    ensures FindProduct(products, productId).None? ==> r == (products, log)
    ensures FindProduct(products, productId).Some? ==> var p := FindProduct(products, productId).value;
      r.1 == log + [Notification(SellerRef(p), "Product Updated",
                                 "Admin updated eco-data for '" + JavaText(p.name) + "'", "PRODUCT_UPDATE")]
    ensures FindProduct(products, productId).Some? ==>
      |r.0| == |products|
      && forall k :: 0 <= k < |products| ==>
           r.0[k] == (if products[k].id == productId
                      then products[k].(carbonScore := carbonScore, isEcoFriendly := isEcoFriendly)
                      else products[k])
  {
    match FindProduct(products, productId)
    case None => (products, log)
    case Some(p) =>
      (UpdateWhere(products, (q: Product) => q.id == productId,
                   (q: Product) => q.(carbonScore := carbonScore, isEcoFriendly := isEcoFriendly)),
       log + [Notification(SellerRef(p), "Product Updated", "Admin updated eco-data for '" + JavaText(p.name) + "'", "PRODUCT_UPDATE")])
  }

  /** `removeProduct`: notify the seller, then delete the product (the
      product service's delete is taken to remove exactly that product). */
  function RemoveProduct(products: seq<Product>, log: seq<Notification>, productId: int, reason: Option<string>)
    : (r: (seq<Product>, seq<Notification>))
    ensures FindProduct(products, productId).None? ==> r == (products, log)
    ensures FindProduct(products, productId).Some? ==>
      (forall k :: 0 <= k < |r.0| ==> r.0[k].id != productId)
      && (forall k :: 0 <= k < |products| && products[k].id != productId ==> products[k] in r.0)
      && SubsequenceOf(r.0, products)
    ensures FindProduct(products, productId).Some? ==> var p := FindProduct(products, productId).value;
      r.1 == log + [Notification(SellerRef(p), "Product Removed",
                                 "Your product '" + JavaText(p.name) + "' was removed. Reason: " + JavaText(reason),
                                 "PRODUCT_REMOVAL")]
  {
    match FindProduct(products, productId)
    case None => (products, log)
    case Some(p) =>
      (Filter(products, (q: Product) => q.id != productId),
       log + [Notification(SellerRef(p), "Product Removed",
                           "Your product '" + JavaText(p.name) + "' was removed. Reason: " + JavaText(reason),
                           "PRODUCT_REMOVAL")])
  }

  /** Approving a product twice leaves the catalogue as approving it once. */
  lemma ApproveProductIdempotent(products: seq<Product>, log: seq<Notification>, productId: int, notes: Option<string>)
    ensures var once := ApproveProduct(products, log, productId, notes).0;
      ApproveProduct(once, log, productId, notes).0 == once
  {
    var once := ApproveProduct(products, log, productId, notes).0;
    if FindProduct(products, productId).Some? {
      assert FindProduct(once, productId).Some? by {
        var p := FindProduct(products, productId).value;
        var k :| 0 <= k < |products| && products[k] == p;
        assert once[k].id == productId;
      }
      var twice := ApproveProduct(once, log, productId, notes).0;
      assert forall k :: 0 <= k < |once| ==> twice[k] == once[k];
    }
  }

  /** `getPendingProducts` keeps the products whose `isActive` is not TRUE. */
  function IsPendingProduct(p: Product): bool {
    p.isActive != Some(true)
  }

  // --------------------------------------------------------- product DTOs

  /** The fields of `ProductDto` the admin views read. */
  datatype ProductDto = ProductDto(
    id: int,
    name: Option<string>,
    description: Option<string>,
    price: Option<real>,
    categoryId: Option<int>,
    categoryName: Option<string>,
    sellerId: Option<int>,
    sellerName: Option<string>,
    weightKg: Option<real>,
    shippingDistanceKm: Option<real>,
    carbonScore: Option<real>,
    stockQuantity: Option<int>,
    imageUrl: Option<string>,
    ecoPoints: Option<int>,
    carbonReduction: Option<real>,
    isEcoFriendly: Option<bool>,
    isActive: Option<bool>,
    createdAt: int)

  /** The seller's display name: first and last name (a missing one read as
      empty) joined by a space and trimmed. */
  function SellerDisplayName(seller: User): (n: string)
    ensures Trimmed(n)
    ensures Sequences.StripOf(n, seller.firstName.GetOr("") + " " + seller.lastName.GetOr(""), JavaSpace)
  {
    JavaTrim(seller.firstName.GetOr("") + " " + seller.lastName.GetOr(""))
  }

  /** `convertToProductDto` */
  function ConvertToProductDto(p: Product): (d: ProductDto)
    ensures d.id == p.id && d.name == p.name && d.price == p.price && d.isActive == p.isActive
    ensures d.carbonScore == p.carbonScore && d.isEcoFriendly == p.isEcoFriendly
    ensures d.categoryId.Some? <==> p.category.Some?
    ensures p.category.Some? ==> d.categoryId == Some(p.category.value.id) && d.categoryName == Some(p.category.value.name)
    ensures p.category.None? ==> d.categoryName.None?
    ensures d.sellerId == SellerRef(p)
    ensures d.sellerName.Some? <==> p.seller.Some?
    ensures p.seller.Some? ==> d.sellerName == Some(SellerDisplayName(p.seller.value))
    ensures d.sellerName.Some? ==> Trimmed(d.sellerName.value)
    ensures d.stockQuantity == p.stockQuantity && d.createdAt == p.createdAt
    ensures d.description == p.description && d.imageUrl == p.imageUrl
    ensures d.weightKg == p.weightKg && d.shippingDistanceKm == p.shippingDistanceKm
    ensures d.ecoPoints == p.ecoPoints && d.carbonReduction == p.carbonReduction
  {
    ProductDto(
      p.id, p.name, p.description, p.price,
      if p.category.Some? then Some(p.category.value.id) else None,
      if p.category.Some? then Some(p.category.value.name) else None,
      SellerRef(p),
      if p.seller.Some? then Some(SellerDisplayName(p.seller.value)) else None,
      p.weightKg, p.shippingDistanceKm, p.carbonScore, p.stockQuantity,
      p.imageUrl, p.ecoPoints, p.carbonReduction, p.isEcoFriendly, p.isActive, p.createdAt)
  }

  /** A seller with trimmed, non-empty first and last names is shown as "first last". */
  lemma SellerNameJoinsNames(seller: User)
    requires seller.firstName.Some? && seller.lastName.Some?
    requires |seller.firstName.value| > 0 && |seller.lastName.value| > 0
    requires Trimmed(seller.firstName.value) && Trimmed(seller.lastName.value)
    ensures SellerDisplayName(seller) == seller.firstName.value + " " + seller.lastName.value
  {
    var f, l := seller.firstName.value, seller.lastName.value;
    var s := f + " " + l;
    assert s[0] == f[0] && s[|s| - 1] == l[|l| - 1];
    JavaTrimTrimmed(s);
  }

  /** A seller with only a first name is shown by that name alone (no trailing space). */
  lemma SellerNameFirstOnly(seller: User)
    requires seller.firstName.Some? && seller.lastName.None?
    requires Trimmed(seller.firstName.value)
    ensures SellerDisplayName(seller) == seller.firstName.value
  {
    var f := seller.firstName.value;
    var s := f + " " + "";
    assert s == f + " ";
    assert TrimLeading(s) == s[|s| - |TrimLeading(s)|..];
    if |f| == 0 {
      assert s == " ";
      assert TrimLeading(s) == TrimLeading(s[1..]);
    } else {
      assert s[0] == f[0];
      assert TrimTrailing(s) == TrimTrailing(f);
      JavaTrimTrimmed(f);
    }
  }

  /** A seller with only a last name is shown by that name alone (no leading space). */
  lemma SellerNameLastOnly(seller: User)
    requires seller.firstName.None? && seller.lastName.Some?
    requires Trimmed(seller.lastName.value)
    ensures SellerDisplayName(seller) == seller.lastName.value
  {
    var l := seller.lastName.value;
    var s := "" + " " + l;
    assert s[1..] == l;
    assert Sequences.StrippedAt(l, s, 1, JavaSpace);
    JavaTrimUnique(s, l);
  }

  /** A seller with neither name is shown as the empty string. */
  lemma SellerNameEmpty(seller: User)
    requires seller.firstName.None? && seller.lastName.None?
    ensures SellerDisplayName(seller) == ""
  {
    assert "" + " " + "" == " ";
    assert TrimLeading(" ") == TrimLeading(" "[1..]);
  }

  /** `getAllProductsWithSellerInfo` */
  function GetAllProductsWithSellerInfo(products: seq<Product>): (r: seq<ProductDto>)
    ensures |r| == |products|
    ensures forall k :: 0 <= k < |products| ==> r[k] == ConvertToProductDto(products[k])
  {
    Map(products, ConvertToProductDto)
  }

  /** `productRepository.findBySellerId`, taken as the derived query on the product's seller. */
  function OwnedBy(p: Product, sellerId: int): bool {
    p.seller.Some? && p.seller.value.id == sellerId
  }

  function Owns(sellerId: int): Product -> bool {
    (p: Product) => OwnedBy(p, sellerId)
  }

  /** `getProductsBySeller`: exactly the seller's products, as DTOs carrying that seller id. */
  function GetProductsBySeller(products: seq<Product>, sellerId: int): (r: seq<ProductDto>)
    ensures forall k :: 0 <= k < |r| ==> r[k].sellerId == Some(sellerId)
    ensures forall k :: 0 <= k < |products| && OwnedBy(products[k], sellerId) ==> ConvertToProductDto(products[k]) in r
    ensures |r| == Count(products, Owns(sellerId))
  {
    FilterLength(products, Owns(sellerId));
    SellerProductsListed(products, sellerId);
    Map(Filter(products, Owns(sellerId)), ConvertToProductDto)
  }

  lemma SellerProductsListed(products: seq<Product>, sellerId: int)
    ensures var r := Map(Filter(products, Owns(sellerId)), ConvertToProductDto);
      (forall k :: 0 <= k < |r| ==> r[k].sellerId == Some(sellerId))
      && forall k :: 0 <= k < |products| && OwnedBy(products[k], sellerId) ==> ConvertToProductDto(products[k]) in r
  {
    var mine := Filter(products, Owns(sellerId));
    forall k | 0 <= k < |mine|
      ensures OwnedBy(mine[k], sellerId)
    {
      assert Owns(sellerId)(mine[k]);
    }
    forall k | 0 <= k < |products| && OwnedBy(products[k], sellerId)
      ensures ConvertToProductDto(products[k]) in Map(mine, ConvertToProductDto)
    {
      assert Owns(sellerId)(products[k]);
      MapHasImage(mine, ConvertToProductDto, products[k]);
    }
  }

  /** `getPendingProducts`: every product not explicitly active (false or null), as DTOs. */
  function GetPendingProducts(products: seq<Product>): (r: seq<ProductDto>)
    ensures forall k :: 0 <= k < |r| ==> r[k].isActive != Some(true)
    ensures forall k :: 0 <= k < |products| && products[k].isActive != Some(true) ==>
      ConvertToProductDto(products[k]) in r
    ensures |r| == Count(products, IsPendingProduct)
  {
    var pending := Filter(products, IsPendingProduct);
    FilterLength(products, IsPendingProduct);
    var r := Map(pending, ConvertToProductDto);
    assert forall k :: 0 <= k < |products| && products[k].isActive != Some(true) ==> ConvertToProductDto(products[k]) in r by {
      forall k | 0 <= k < |products| && products[k].isActive != Some(true)
        ensures ConvertToProductDto(products[k]) in r
      {
        assert IsPendingProduct(products[k]);
        var j :| 0 <= j < |pending| && pending[j] == products[k];
        assert r[j] == ConvertToProductDto(products[k]);
      }
    }
    r
  }

  /** After `approveProduct`, the product has left the pending list. */
  lemma ApprovedProductLeavesPending(products: seq<Product>, log: seq<Notification>, productId: int, notes: Option<string>)
    ensures var after := ApproveProduct(products, log, productId, notes).0;
      forall k :: 0 <= k < |GetPendingProducts(after)| ==> GetPendingProducts(after)[k].id != productId
  {
    var after := ApproveProduct(products, log, productId, notes).0;
    if FindProduct(products, productId).Some? {
      forall k | 0 <= k < |after| && after[k].id == productId
        ensures after[k].isActive == Some(true)
      {
      }
    }
  }

  /** After `rejectProduct` on an existing product, it is in the pending list. */
  lemma RejectedProductIsPending(products: seq<Product>, log: seq<Notification>, k: nat, reason: Option<string>)
    requires k < |products|
    ensures var after := RejectProduct(products, log, products[k].id, reason).0;
      after[k].id == products[k].id && ConvertToProductDto(after[k]) in GetPendingProducts(after)
  {
    assert FindProduct(products, products[k].id).Some?;
  }

  // ------------------------------------------------------------ categories

  /** The category table and the next generated id. */
  datatype CategoryStore = CategoryStore(categories: seq<Category>, nextId: int)

  ghost predicate ValidCategories(st: CategoryStore) {
    forall k :: 0 <= k < |st.categories| ==> st.categories[k].id < st.nextId
  }

  /** `productRepository.countByCategoryId` */
  function InCategory(p: Product, categoryId: int): bool {
    p.category.Some? && p.category.value.id == categoryId
  }

  function CountByCategoryId(products: seq<Product>, categoryId: int): (n: nat)
    ensures n <= |products|
    ensures n == 0 <==> forall k :: 0 <= k < |products| ==> !InCategory(products[k], categoryId)
    decreases |products|
  {
    if |products| == 0 then 0
    else
      var last := products[|products| - 1];
      CountByCategoryId(products[..|products| - 1], categoryId) + if InCategory(last, categoryId) then 1 else 0
  }

  datatype CategoryWithCount = CategoryWithCount(id: int, name: string, description: string,
                                                 isActive: Option<bool>, productCount: nat)

  /** `getAllCategoriesWithCount` */
  function GetAllCategoriesWithCount(categories: seq<Category>, products: seq<Product>): (r: seq<CategoryWithCount>)
    ensures |r| == |categories|
    ensures forall k :: 0 <= k < |categories| ==>
      r[k].id == categories[k].id && r[k].name == categories[k].name
      && r[k].isActive == categories[k].isActive
      && r[k].productCount == CountByCategoryId(products, categories[k].id)
  {
    Map(categories, (c: Category) => CategoryWithCount(c.id, c.name, c.description, c.isActive,
                                                         CountByCategoryId(products, c.id)))
  }

  /** `createCategory`: a new active category under the next id. */
  function CreateCategory(st: CategoryStore, name: string, description: string): (r: (Category, CategoryStore))
    ensures r.0 == Category(st.nextId, name, description, Some(true))
    ensures r.1.categories == st.categories + [r.0] && r.1.nextId == st.nextId + 1
    ensures ValidCategories(st) ==> ValidCategories(r.1)
  {
    var c := Category(st.nextId, name, description, Some(true));
    (c, CategoryStore(st.categories + [c], st.nextId + 1))
  }

  function FindCategory(categories: seq<Category>, id: int): (o: Option<Category>)
    ensures o.Some? ==> o.value in categories && o.value.id == id
    ensures o.None? ==> forall k :: 0 <= k < |categories| ==> categories[k].id != id
  {
    FindFirst(categories, (c: Category) => c.id == id)
  }

  /** `updateCategory`: overwrite name, description and status (null
      included); `None` (Java `null`) when the id is unknown. */
  function UpdateCategory(st: CategoryStore, categoryId: int, name: string, description: string, isActive: Option<bool>)
    : (r: (Option<Category>, CategoryStore))
    ensures r.0.None? <==> FindCategory(st.categories, categoryId).None?
    ensures r.0.None? ==> r.1 == st
    ensures r.0.Some? ==> r.0.value == Category(categoryId, name, description, isActive)
    ensures r.1.nextId == st.nextId && |r.1.categories| == |st.categories|
    ensures forall k :: 0 <= k < |st.categories| ==>
      r.1.categories[k] == (if st.categories[k].id == categoryId then Category(categoryId, name, description, isActive)
                            else st.categories[k])
  {
    if FindCategory(st.categories, categoryId).None? then (None, st)
    else
      var c := Category(categoryId, name, description, isActive);
      (Some(c), st.(categories := UpdateWhere(st.categories, (x: Category) => x.id == categoryId, (x: Category) => c)))
  }

  /** `deleteCategory`: refused while any product is in the category;
      otherwise the category with that id is removed (nothing happens for an
      unknown id). */
  function DeleteCategory(st: CategoryStore, products: seq<Product>, categoryId: int): (r: Result<CategoryStore>)
    ensures r.Failure? <==> CountByCategoryId(products, categoryId) > 0
    ensures r.Failure? ==> r.error == "Cannot delete category with products."
    ensures r.Success? ==>
      r.value.nextId == st.nextId
      && SubsequenceOf(r.value.categories, st.categories)
      && (forall k :: 0 <= k < |r.value.categories| ==> r.value.categories[k].id != categoryId)
      && (forall k :: 0 <= k < |st.categories| && st.categories[k].id != categoryId ==> st.categories[k] in r.value.categories)
  {
    if CountByCategoryId(products, categoryId) == 0 then
      Success(st.(categories := Filter(st.categories, (c: Category) => c.id != categoryId)))
    else Failure("Cannot delete category with products.")
  }

  /** Creating a category and deleting it again, before any product uses it,
      gives back the original categories. */
  lemma CreateThenDeleteCategory(st: CategoryStore, products: seq<Product>, name: string, description: string)
    requires ValidCategories(st)
    requires forall k :: 0 <= k < |products| ==> !InCategory(products[k], st.nextId)
    ensures var (c, st') := CreateCategory(st, name, description);
      DeleteCategory(st', products, c.id) == Success(CategoryStore(st.categories, st.nextId + 1))
  {
    var (c, st') := CreateCategory(st, name, description);
    var keep := (x: Category) => x.id != c.id;
    assert forall k :: 0 <= k < |st.categories| ==> keep(st.categories[k]);
    FilterAllKept(st.categories, keep);
    FilterAppendRejected(st.categories, c, keep);
  }

  // ----------------------------------------------------------------- stats

  /** The statistics part of `UserManagementDto`. */
  datatype UserWithStats = UserWithStats(user: User, totalOrders: nat, totalSpent: real)

  function UserStats(orders: seq<Order>, u: User): (s: UserWithStats)
    ensures s.user == u
    ensures s.totalOrders == |OrderRepository.FindByUserId(orders, u.id)|
    ensures s.totalSpent == PresentTotal(OrderRepository.Totals(OrderRepository.FindByUserId(orders, u.id)))
  {
    SqlSumOrZero(OrderRepository.Totals(OrderRepository.FindByUserId(orders, u.id)));
    UserWithStats(u, OrderRepository.CountOrdersByUserId(orders, u.id), OrderRepository.SumTotalSpentByUserId(orders, u.id).GetOr(0.0))
  }

  /** `getAllUsersWithStats` */
  function GetAllUsersWithStats(users: seq<User>, orders: seq<Order>): (r: seq<UserWithStats>)
    ensures |r| == |users|
    ensures forall k :: 0 <= k < |users| ==> r[k] == UserStats(orders, users[k])
  {
    Map(users, (u: User) => UserStats(orders, u))
  }

  /** `getUsersByRole`: the users holding the role, with their statistics. */
  function GetUsersByRole(users: seq<User>, orders: seq<Order>, role: Role): (r: seq<UserWithStats>)
    ensures forall k :: 0 <= k < |r| ==> r[k].user.role == role && r[k].user in users
    ensures forall k :: 0 <= k < |users| && users[k].role == role ==> UserStats(orders, users[k]) in r
    ensures |r| == RoleCount(users, role)
  {
    FilterLength(users, HoldsRole(role));
    RoleCountIsCount(users, role);
    RoleHoldersListed(users, orders, role);
    GetAllUsersWithStats(Filter(users, HoldsRole(role)), orders)
  }

  function HoldsRole(role: Role): User -> bool {
    (u: User) => u.role == role
  }

  lemma RoleHoldersListed(users: seq<User>, orders: seq<Order>, role: Role)
    ensures var r := GetAllUsersWithStats(Filter(users, HoldsRole(role)), orders);
      (forall k :: 0 <= k < |r| ==> r[k].user.role == role && r[k].user in users)
      && forall k :: 0 <= k < |users| && users[k].role == role ==> UserStats(orders, users[k]) in r
  {
    var holders := Filter(users, HoldsRole(role));
    var r := GetAllUsersWithStats(holders, orders);
    forall k | 0 <= k < |r|
      ensures r[k].user.role == role && r[k].user in users
    {
      assert HoldsRole(role)(holders[k]);
    }
    forall k | 0 <= k < |users| && users[k].role == role
      ensures UserStats(orders, users[k]) in r
    {
      assert HoldsRole(role)(users[k]);
      var j :| 0 <= j < |holders| && holders[j] == users[k];
      assert r[j] == UserStats(orders, users[k]);
    }
  }

  lemma {:induction false} RoleCountIsCount(users: seq<User>, role: Role)
    ensures RoleCount(users, role) == Count(users, HoldsRole(role))
    decreases |users|
  {
    if |users| > 0 {
      RoleCountIsCount(users[..|users| - 1], role);
    }
  }

  /** The statistics part of `SellerWithStatsDto`. */
  datatype SellerWithStats = SellerWithStats(seller: User, totalProducts: nat, activeProducts: nat,
                                             totalRevenue: real, totalOrders: nat, rating: real)

  /** `productRepository.countBySellerIdAndIsActiveTrue` */
  function ActiveOwnedBy(p: Product, sellerId: int): bool {
    OwnedBy(p, sellerId) && p.isActive == Some(true)
  }

  function ActivelyOwns(sellerId: int): Product -> bool {
    (p: Product) => ActiveOwnedBy(p, sellerId)
  }

  function SellerStats(products: seq<Product>, orders: seq<Order>, seller: User): (s: SellerWithStats)
    ensures s.seller == seller && s.rating == 4.5
    ensures s.activeProducts <= s.totalProducts
    ensures s.totalProducts == |GetProductsBySeller(products, seller.id)|
    ensures s.activeProducts == |Filter(products, ActivelyOwns(seller.id))|
    ensures s.totalOrders == OrderRepository.CountBySellerId(orders, seller.id)
    ensures s.totalRevenue == OrderRepository.WeightedTotal(orders, seller.id)
  {
    OrderRepository.SellerSumWeightsByItems(orders, seller.id);
    CountActiveOwned(products, seller.id);
    FilterLength(products, ActivelyOwns(seller.id));
    SellerWithStats(seller,
      Count(products, Owns(seller.id)),
      Count(products, ActivelyOwns(seller.id)),
      OrderRepository.SumTotalAmountBySellerId(orders, seller.id).GetOr(0.0),
      OrderRepository.CountBySellerId(orders, seller.id),
      4.5)
  }

  lemma {:induction false} CountActiveOwned(products: seq<Product>, sellerId: int)
    ensures Count(products, ActivelyOwns(sellerId)) <= Count(products, Owns(sellerId))
    decreases |products|
  {
    if |products| > 0 {
      CountActiveOwned(products[..|products| - 1], sellerId);
    }
  }

  /** `getAllSellersWithStats`: one entry per seller, in repository order. */
  function GetAllSellersWithStats(users: seq<User>, products: seq<Product>, orders: seq<Order>): (r: seq<SellerWithStats>)
    ensures forall k :: 0 <= k < |r| ==> r[k].seller.role == Seller && r[k] == SellerStats(products, orders, r[k].seller)
    ensures forall k :: 0 <= k < |users| && users[k].role == Seller ==> SellerStats(products, orders, users[k]) in r
    ensures |r| == RoleCount(users, Seller)
  {
    var sellers := Filter(users, IsSeller);
    FilterLength(users, IsSeller);
    RoleCountIsCount(users, Seller);
    assert Count(users, IsSeller) == Count(users, HoldsRole(Seller)) by {
      CountSameKeep(users, IsSeller, HoldsRole(Seller));
    }
    var r := Map(sellers, (u: User) => SellerStats(products, orders, u));
    assert forall k :: 0 <= k < |users| && users[k].role == Seller ==> SellerStats(products, orders, users[k]) in r by {
      forall k | 0 <= k < |users| && users[k].role == Seller
        ensures SellerStats(products, orders, users[k]) in r
      {
        assert IsSeller(users[k]);
        var j :| 0 <= j < |sellers| && sellers[j] == users[k];
        assert r[j] == SellerStats(products, orders, users[k]);
      }
    }
    r
  }

  /** Counting with two predicates that agree everywhere gives the same count. */
  lemma {:induction false} CountSameKeep<T>(xs: seq<T>, a: T -> bool, b: T -> bool)
    requires forall x :: a(x) == b(x)
    ensures Count(xs, a) == Count(xs, b)
    decreases |xs|
  {
    if |xs| > 0 {
      CountSameKeep(xs[..|xs| - 1], a, b);
    }
  }

  // ------------------------------------------------------------ order DTOs

  /** `OrderItemDetailDto` */
  datatype OrderItemDetail = OrderItemDetail(
    productName: Option<string>,
    categoryName: Option<string>,
    sellerName: Option<string>,
    imageUrl: Option<string>,
    quantity: int,
    price: real,
    totalPrice: real)

  /** `convertToOrderItemDetailDto`: a missing quantity reads 0, a missing
      price 0; the seller's name is joined untrimmed, "null" for a missing part. */
  function ConvertToOrderItemDetailDto(item: OrderItem): (d: OrderItemDetail)
    ensures d.quantity == item.quantity.GetOr(0) && d.price == item.price.GetOr(0.0)
    // the line total is the amount the product revenue query sums, or 0 when price or quantity is missing
    ensures d.totalPrice == OrderRepository.LineAmount(item).GetOr(0.0)
    ensures item.product.Some? ==> var p := item.product.value;
      d.productName == p.name && d.imageUrl == p.imageUrl
      && d.categoryName == (if p.category.Some? then Some(p.category.value.name) else None)
    ensures item.product.None? ==> d.productName.None? && d.categoryName.None? && d.imageUrl.None?
    ensures d.sellerName.Some? <==> item.product.Some? && item.product.value.seller.Some?
    ensures d.sellerName.Some? ==> var s := item.product.value.seller.value;
      d.sellerName.value == JavaText(s.firstName) + " " + JavaText(s.lastName)
  {
    var qty := item.quantity.GetOr(0);
    var price := item.price.GetOr(0.0);
    match item.product
    case None => OrderItemDetail(None, None, None, None, qty, price, price * qty as real)
    case Some(p) =>
      OrderItemDetail(
        p.name,
        if p.category.Some? then Some(p.category.value.name) else None,
        if p.seller.Some? then Some(JavaText(p.seller.value.firstName) + " " + JavaText(p.seller.value.lastName)) else None,
        p.imageUrl, qty, price, price * qty as real)
  }

  /** `CustomerOrderDto` */
  datatype CustomerOrder = CustomerOrder(
    orderId: int,
    customerId: int,
    customerName: string,
    customerEmail: string,
    totalPrice: Option<real>,
    totalCarbonScore: Option<real>,
    status: string,
    orderDate: int,
    shippingAddress: Option<string>,
    items: seq<OrderItemDetail>)

  /** `convertToCustomerOrderDto` */
  function ConvertToCustomerOrderDto(o: Order): (d: CustomerOrder)
    ensures d.orderId == o.id && d.customerId == o.user.id && d.orderDate == o.createdAt
    ensures d.customerName == JavaText(o.user.firstName) + " " + JavaText(o.user.lastName)
    ensures d.customerEmail == o.user.email
    ensures d.totalPrice == o.totalPrice && d.status == o.status
    ensures d.totalCarbonScore == o.totalCarbonScore && d.shippingAddress == o.shippingAddress
    ensures |d.items| == |o.items|
    ensures forall k :: 0 <= k < |o.items| ==> d.items[k] == ConvertToOrderItemDetailDto(o.items[k])
  {
    CustomerOrder(o.id, o.user.id, JavaText(o.user.firstName) + " " + JavaText(o.user.lastName), o.user.email,
                  o.totalPrice, o.totalCarbonScore, o.status, o.createdAt, o.shippingAddress,
                  Map(o.items, ConvertToOrderItemDetailDto))
  }

  /** `getAllCustomerOrders`: every order, newest first. */
  function GetAllCustomerOrders(orders: seq<Order>): (r: seq<CustomerOrder>)
    ensures |r| == |orders|
    ensures forall i, j :: 0 <= i < j < |r| ==> r[i].orderDate >= r[j].orderDate
    ensures forall k :: 0 <= k < |r| ==> exists o :: o in orders && r[k] == ConvertToCustomerOrderDto(o)
    ensures multiset(r) == multiset(Map(orders, ConvertToCustomerOrderDto))
  {
    var sorted := OrderRepository.FindAllOrderByCreatedAtDesc(orders);
    ReorderedDtos(orders, sorted);
    Map(sorted, ConvertToCustomerOrderDto)
  }

  /** The DTOs of a rearrangement of the orders are a rearrangement of the orders' DTOs. */
  lemma ReorderedDtos(orders: seq<Order>, sorted: seq<Order>)
    requires multiset(sorted) == multiset(orders)
    ensures var r := Map(sorted, ConvertToCustomerOrderDto);
      |r| == |orders|
      && (forall k :: 0 <= k < |r| ==> exists o :: o in orders && r[k] == ConvertToCustomerOrderDto(o))
      && multiset(r) == multiset(Map(orders, ConvertToCustomerOrderDto))
  {
    MapPermutation(sorted, orders, ConvertToCustomerOrderDto);
    assert |sorted| == |orders| by {
      assert |multiset(sorted)| == |multiset(orders)|;
    }
    var r := Map(sorted, ConvertToCustomerOrderDto);
    forall k | 0 <= k < |r|
      ensures exists o :: o in orders && r[k] == ConvertToCustomerOrderDto(o)
    {
      assert sorted[k] in multiset(sorted);
      assert sorted[k] in orders;
    }
  }

  /** `getCustomerOrdersByUserId`: that user's orders, one DTO each. */
  function GetCustomerOrdersByUserId(orders: seq<Order>, userId: int): (r: seq<CustomerOrder>)
    ensures |r| == OrderRepository.CountOrdersByUserId(orders, userId)
    ensures forall k :: 0 <= k < |r| ==> r[k].customerId == userId
    ensures forall k :: 0 <= k < |orders| && orders[k].user.id == userId ==> ConvertToCustomerOrderDto(orders[k]) in r
  {
    var mine := OrderRepository.FindByUserId(orders, userId);
    assert forall k :: 0 <= k < |orders| && orders[k].user.id == userId ==>
      ConvertToCustomerOrderDto(orders[k]) in Map(mine, ConvertToCustomerOrderDto) by {
      forall k | 0 <= k < |orders| && orders[k].user.id == userId
        ensures ConvertToCustomerOrderDto(orders[k]) in Map(mine, ConvertToCustomerOrderDto)
      {
        MapHasImage(mine, ConvertToCustomerOrderDto, orders[k]);
      }
    }
    Map(mine, ConvertToCustomerOrderDto)
  }
}

=== FILE: app_routes.dfy ===
/** The application shell (frontend/src/App.jsx): the start-up session
    check, the route table with its role gates, and the rule that hides the
    navigation bar and footer on the dashboards and the sign-in page.

    `authAPI` is not part of this model: its `isAuthenticated()` and
    `getUserRole()` results are inputs, a `Failure` standing for a call that
    throws. Paths are matched exactly (case and trailing slashes as given). */
module AppRoutes {
  import opened Wrappers
  import opened Js

  /** The shell's `isAuthenticated`, `userRole` and `isLoading` state. */
  datatype AppState = AppState(isAuthenticated: bool, userRole: JsValue, isLoading: bool)

  const Initial: AppState := AppState(false, Null, true)

  /** The `checkAuth` effect, run once on mount from the initial state: the
      role is read only when the session check is truthy, either call may
      throw (the state then stays signed out), and loading always ends. */
  function CheckAuth(authenticated: Result<JsValue>, role: Result<JsValue>): (s: AppState)
    ensures !s.isLoading
    ensures s.isAuthenticated <==> authenticated.Success? && Truthy(authenticated.value) && role.Success?
    ensures s.isAuthenticated ==> s.userRole == role.value
    ensures !s.isAuthenticated ==> s == Initial.(isLoading := false)
  {
    if authenticated.Success? && Truthy(authenticated.value) && role.Success? then
      AppState(true, role.value, false)
    else
      Initial.(isLoading := false)
  }

  // ------------------------------------------------------------ route table

  datatype Page =
    | HomePage | AboutPage | AuthPage | CartPage | ProductsPage | ProductDetailPage(productId: string)
    | CheckoutPage | OrdersPage | WishlistPage | ProfilePage | AdminDashboardPage | SellerDashboardPage

  /** What a route renders: a page, wrapped in `ProtectedRoute` or not, or a
      redirect (`<Navigate replace>`). */
  datatype Element = Render(page: Page, guarded: bool) | Redirect(to: string)

  /** `isAuthenticated && userRole === role` */
  predicate HasRole(s: AppState, role: string) {
    s.isAuthenticated && StrictEquals(s.userRole, Str(role))
  }

  /** The segment after `/product/` in a `/product/:id` path. */
  function ProductParam(path: string): (o: Option<string>)
    ensures o.Some? ==> path == "/product/" + o.value && |o.value| > 0 && '/' !in o.value
  {
    var prefix := "/product/";
    if |path| > |prefix| && path[..|prefix|] == prefix && '/' !in path[|prefix|..] then
      assert path == prefix + path[|prefix|..];
      Some(path[|prefix|..])
    else None
  }

  /** The element the route table yields for a path. */
  function Route(path: string, s: AppState): (e: Element)
    // the dashboards render exactly for their role; anything else goes to sign-in
    ensures path == "/admin/dashboard" ==>
      e == (if HasRole(s, "ADMIN") then Render(AdminDashboardPage, false) else Redirect("/auth"))
    ensures path == "/seller/dashboard" ==>
      e == (if HasRole(s, "SELLER") then Render(SellerDashboardPage, false) else Redirect("/auth"))
    ensures path == "/admin" ==> e == Redirect(if HasRole(s, "ADMIN") then "/admin/dashboard" else "/auth")
    ensures path == "/seller" ==> e == Redirect(if HasRole(s, "SELLER") then "/seller/dashboard" else "/auth")
    ensures path in {"/customer", "/customer/dashboard"} ==> e == Redirect(if HasRole(s, "CUSTOMER") then "/" else "/auth")
    // only the cart, the marketplace and the profile sit behind the guard
    ensures e.Render? && e.guarded <==> path in {"/cart", "/products", "/profile"}
    ensures e == Render(AdminDashboardPage, false) ==> path == "/admin/dashboard"
    ensures e == Render(SellerDashboardPage, false) ==> path == "/seller/dashboard"
    ensures e == Render(AuthPage, false) ==> path == "/auth"
  {
    if path == "/" then Render(HomePage, false)
    else if path == "/about" then Render(AboutPage, false)
    else if path == "/auth" then Render(AuthPage, false)
    else if path == "/cart" then Render(CartPage, true)
    else if path == "/products" then Render(ProductsPage, true)
    else if path == "/checkout" then Render(CheckoutPage, false)
    else if path == "/orders" then Render(OrdersPage, false)
    else if path == "/wishlist" then Render(WishlistPage, false)
    else if path == "/profile" then Render(ProfilePage, true)
    else if path == "/admin" then Redirect(if HasRole(s, "ADMIN") then "/admin/dashboard" else "/auth")
    else if path == "/admin/dashboard" then
      if HasRole(s, "ADMIN") then Render(AdminDashboardPage, false) else Redirect("/auth")
    else if path == "/seller" then Redirect(if HasRole(s, "SELLER") then "/seller/dashboard" else "/auth")
    else if path == "/seller/dashboard" then
      if HasRole(s, "SELLER") then Render(SellerDashboardPage, false) else Redirect("/auth")
    else if path == "/customer" || path == "/customer/dashboard" then
      Redirect(if HasRole(s, "CUSTOMER") then "/" else "/auth")
    else if ProductParam(path).Some? then Render(ProductDetailPage(ProductParam(path).value), false)
    else Redirect("/")
  }

  /** The paths the table names; every other path is caught by `*`. */
  predicate Declared(path: string) {
    path in {"/", "/about", "/auth", "/cart", "/products", "/checkout", "/orders", "/wishlist", "/profile",
             "/admin", "/admin/dashboard", "/seller", "/seller/dashboard", "/customer", "/customer/dashboard"}
    || ProductParam(path).Some?
  }

  /** An undeclared path redirects home. */
  lemma UnmatchedGoesHome(path: string, s: AppState)
    requires !Declared(path)
    ensures Route(path, s) == Redirect("/")
  {
  }

  /** Redirects never chain: the target of any redirect renders a page. */
  lemma RedirectsSettle(path: string, s: AppState)
    ensures Route(path, s).Redirect? ==> Route(Route(path, s).to, s).Render?
  {
    var e := Route(path, s);
    if e.Redirect? {
      assert e.to in {"/", "/auth", "/admin/dashboard", "/seller/dashboard"};
    }
  }

  /** A signed-out visitor and a signed-in user of another role are sent to
      the same place by every role-gated route. */
  lemma MismatchLikeSignedOut(path: string, s: AppState)
    requires path in {"/admin", "/admin/dashboard", "/seller", "/seller/dashboard", "/customer", "/customer/dashboard"}
    requires s.isAuthenticated && !StrictEquals(s.userRole, Str("ADMIN"))
    requires !StrictEquals(s.userRole, Str("SELLER")) && !StrictEquals(s.userRole, Str("CUSTOMER"))
    ensures Route(path, s) == Route(path, AppState(false, Null, false)) == Redirect("/auth")
  {
  }

  // ------------------------------------------------------------ page chrome

  /** `AppLayout`: the navigation bar and footer are drawn unless the path
      contains a dashboard path or is exactly the sign-in page. */
  function ShowsChrome(pathname: string): (b: bool)
    ensures !b <==> Includes(pathname, "/admin/dashboard") || Includes(pathname, "/seller/dashboard") || pathname == "/auth"
  {
    !(Includes(pathname, "/admin/dashboard") || Includes(pathname, "/seller/dashboard") || pathname == "/auth")
  }

  lemma IncludesSelf(s: string)
    ensures Includes(s, s)
  {
  }

  /** The dashboards and the sign-in page are drawn without the chrome. */
  lemma ChromelessPages(path: string, s: AppState)
    requires Route(path, s) in {Render(AdminDashboardPage, false), Render(SellerDashboardPage, false), Render(AuthPage, false)}
    ensures !ShowsChrome(path)
  {
    IncludesSelf("/admin/dashboard");
    IncludesSelf("/seller/dashboard");
  }

  /** The storefront pages are drawn with the navigation bar and footer. */
  lemma StorefrontHasChrome(path: string)
    requires path in {"/", "/about", "/cart", "/products", "/checkout", "/orders", "/wishlist", "/profile"}
    ensures ShowsChrome(path)
  {
    ShortNotIncludes(path, "/admin/dashboard");
    ShortNotIncludes(path, "/seller/dashboard");
  }

  /** A string shorter than `sub` cannot contain it. */
  lemma {:induction false} ShortNotIncludes(s: string, sub: string)
    requires |s| < |sub|
    ensures !Includes(s, sub)
    decreases |s|
  {
    if |s| > 0 {
      ShortNotIncludes(s[1..], sub);
    }
  }
}

=== FILE: browser.dfy ===
/** The browser's key-value stores (`localStorage`, `sessionStorage`) and
    the JSON codec the views use on them. A store is a map from key to text;
    `JSON.parse` and `JSON.stringify` are supplied as a codec whose `parse` is
    partial (`None` for text that does not parse). */
module Browser {
  import opened Wrappers
  import opened Js

  type Store = map<string, string>

  /** `storage.getItem(key)`: the stored text, or `null` when the key is absent. */
  function GetItem(st: Store, key: string): (v: JsValue)
    ensures key in st ==> v == Str(st[key])
    ensures key !in st ==> v == Null
  {
    if key in st then Str(st[key]) else Null
  }

  /** The stored text under `key` when it is present and non-empty, that is,
      when `getItem(key)` is truthy. */
  function Stored(st: Store, key: string): (o: Option<string>)
    ensures o.Some? <==> Truthy(GetItem(st, key))
    ensures o.Some? ==> GetItem(st, key) == Str(o.value) && o.value != ""
  {
    if key in st && st[key] != "" then Some(st[key]) else None
  }

  /** `storage.removeItem(key)` */
  function RemoveItem(st: Store, key: string): (st': Store)
    ensures key !in st'
    ensures forall k :: k != key ==> (k in st' <==> k in st)
    ensures forall k :: k in st' ==> st'[k] == st[k]
  {
    st - {key}
  }

  /** `storage.setItem(key, text)` */
  function SetItem(st: Store, key: string, text: string): (st': Store)
    ensures key in st' && st'[key] == text
    ensures forall k :: k != key ==> (k in st' <==> k in st)
    ensures forall k :: k != key && k in st' ==> st'[k] == st[k]
  {
    st[key := text]
  }

  /** `JSON.parse` (partial: `None` when it would throw) and `JSON.stringify`. */
  datatype JsonCodec = JsonCodec(parse: string -> Option<JsValue>, stringify: JsValue -> string)
}

=== FILE: cart_page.dfy ===
/** The Smart Cart page (frontend/src/pages/Cart.jsx): whose cart it
    shows, how it loads it, the summary sums and item removal.

    The cart endpoints are not part of this model; their replies are inputs
    (`Failure` for a request that throws). Alerts are not modelled. */
module CartPage {
  import opened Wrappers
  import opened Js
  import opened Browser
  import opened Sequences
  import ProtectedRoute

  /** `resolvedUserId`: the stored user's truthy `userId`, else the
      `userId` key, else 3. */
  function ResolvedUserId(local: Store, json: JsonCodec): (id: JsValue)
    ensures Truthy(id)
    ensures Stored(local, "user").None? && Stored(local, "userId").None? ==> id == N(3.0)
  {
    match Stored(local, "user")
    case Some(text) =>
      (match json.parse(text)
       case Some(u) => if Truthy(Prop(u, "userId")) then Prop(u, "userId") else Or(GetItem(local, "userId"), N(3.0))
       case None => Or(GetItem(local, "userId"), N(3.0)))
    case None => Or(GetItem(local, "userId"), N(3.0))
  }

  /** The cart page reads the same id as the route guard, with user 3 as
      the fallback where the guard would refuse entry. */
  lemma SameIdAsGuard(local: Store, json: JsonCodec)
    ensures ResolvedUserId(local, json) == Or(ProtectedRoute.ResolveStoredUserId(local, json), N(3.0))
    ensures !ProtectedRoute.Admitted(false, local, json) ==> ResolvedUserId(local, json) == N(3.0)
  {
  }

  // ------------------------------------------------------------------ load

  /** The page's `cartItems` and `error`. */
  datatype CartView = CartView(items: seq<JsValue>, error: string)

  const LoadError: string := "Unable to load your cart. Please try again."
  const RemoveError: string := "Failed to remove item. Please try again."

  /** `fetchCart`: the details endpoint, falling back to the plain cart
      endpoint when it throws; when both throw the items stay as they were. */
  function FetchCart(before: CartView, details: Result<JsValue>, fallback: Result<JsValue>): (v: CartView)
    ensures details.Success? ==> v == CartView(ArrayOrEmpty(details.value), "")
    ensures details.Failure? && fallback.Success? ==> v == CartView(ArrayOrEmpty(fallback.value), "")
    ensures details.Failure? && fallback.Failure? ==> v == CartView(before.items, LoadError)
    ensures v.error == "" <==> details.Success? || fallback.Success?
  {
    match details
    case Success(d) => CartView(ArrayOrEmpty(d), "")
    case Failure(_) =>
      match fallback
      case Success(f) => CartView(ArrayOrEmpty(f), "")
      case Failure(_) => CartView(before.items, LoadError)
  }

  // ---------------------------------------------------------------- sums

  /** `Number(item[field] || 0) * Number(item.quantity || 0)` */
  function Weighted(item: JsValue, field: string): Number {
    Mul(ToNumber(Or(Prop(item, field), N(0.0))), ToNumber(Or(Prop(item, "quantity"), N(0.0))))
  }

  /** `items.reduce((acc, item) => acc + Weighted(item, field), 0)` */
  function WeightedSum(items: seq<JsValue>, field: string): Number
    decreases |items|
  {
    if |items| == 0 then Finite(0.0)
    else Add(WeightedSum(items[..|items| - 1], field), Weighted(items[|items| - 1], field))
  }

  /** A field holding a finite number, or missing (or otherwise falsy). */
  predicate NumberOrMissing(v: JsValue) {
    !Truthy(v) || (v.Num? && v.n.Finite?)
  }

  /** The field's value, missing counted as 0. */
  function ValueOr0(v: JsValue): real
    requires NumberOrMissing(v)
  {
    if Truthy(v) then v.n.r else 0.0
  }

  /** The item's field and quantity are numbers or missing. */
  predicate Summable(item: JsValue, field: string) {
    NumberOrMissing(Prop(item, field)) && NumberOrMissing(Prop(item, "quantity"))
  }

  /** One item's field times its quantity, missing values as 0. */
  function Term(item: JsValue, field: string): real
    requires Summable(item, field)
  {
    ValueOr0(Prop(item, field)) * ValueOr0(Prop(item, "quantity"))
  }

  /** Reference definition: the sum of field times quantity, missing values as 0. */
  function FieldTotal(items: seq<JsValue>, field: string): real
    requires forall i :: 0 <= i < |items| ==> Summable(items[i], field)
    decreases |items|
  {
    if |items| == 0 then 0.0
    else
      assert Summable(items[|items| - 1], field);
      FieldTotal(items[..|items| - 1], field) + Term(items[|items| - 1], field)
  }

  lemma WeightedValue(item: JsValue, field: string)
    requires Summable(item, field)
    ensures Weighted(item, field) == Finite(Term(item, field))
  {
  }

  /** The subtotal, carbon and eco-point sums are the per-quantity totals,
      with a missing price, carbon figure, point count or quantity as 0. */
  lemma {:induction false} WeightedSumIsFieldTotal(items: seq<JsValue>, field: string)
    requires forall i :: 0 <= i < |items| ==> Summable(items[i], field)
    ensures WeightedSum(items, field) == Finite(FieldTotal(items, field))
    decreases |items|
  {
    if |items| > 0 {
      var init := items[..|items| - 1];
      var last := items[|items| - 1];
      forall i | 0 <= i < |init|
        ensures Summable(init[i], field)
      {
        assert init[i] == items[i];
      }
      WeightedSumIsFieldTotal(init, field);
      WeightedValue(last, field);
    }
  }

  /** The three summary figures; the total shown equals the subtotal (no shipping here). */
  datatype Summary = Summary(subtotal: Number, carbonSaved: Number, ecoPoints: Number, total: Number)

  function Summarize(items: seq<JsValue>): (s: Summary)
    ensures s.total == s.subtotal
    ensures s.subtotal == WeightedSum(items, "price")
    ensures s.carbonSaved == WeightedSum(items, "carbonSaved")
    ensures s.ecoPoints == WeightedSum(items, "ecoPoints")
  {
    var subtotal := WeightedSum(items, "price");
    Summary(subtotal, WeightedSum(items, "carbonSaved"), WeightedSum(items, "ecoPoints"), subtotal)
  }

  // --------------------------------------------------------------- removal

  /** `item.cartId !== cartId` */
  function KeepsOther(cartId: JsValue): JsValue -> bool {
    (item: JsValue) => !StrictEquals(Prop(item, "cartId"), cartId)
  }

  /** `removeItem`: after a successful delete, drop the items with that
      cart id; after a failed one, keep the items and show the error. */
  function RemoveItem(v: CartView, cartId: JsValue, response: Result<JsValue>): (v': CartView)
    ensures response.Failure? ==> v' == CartView(v.items, RemoveError)
    ensures response.Success? ==>
      v'.error == v.error
      && SubsequenceOf(v'.items, v.items)
      && (forall k :: 0 <= k < |v'.items| ==> !StrictEquals(Prop(v'.items[k], "cartId"), cartId))
      && (forall k :: 0 <= k < |v.items| && !StrictEquals(Prop(v.items[k], "cartId"), cartId) ==> v.items[k] in v'.items)
    // each kept item stays as often as it was listed
    ensures response.Success? ==>
      forall k :: 0 <= k < |v.items| ==>
        multiset(v'.items)[v.items[k]]
          == if StrictEquals(Prop(v.items[k], "cartId"), cartId) then 0 else multiset(v.items)[v.items[k]]
  {
    FilterCounts(v.items, KeepsOther(cartId));
    if response.Success? then v.(items := Filter(v.items, KeepsOther(cartId))) else v.(error := RemoveError)
  }

  /** Removing the same cart id again after a successful removal changes nothing. */
  lemma RemoveTwiceIsRemoveOnce(v: CartView, cartId: JsValue, r1: JsValue, r2: JsValue)
    ensures var once := RemoveItem(v, cartId, Success(r1));
      RemoveItem(once, cartId, Success(r2)) == once
  {
    FilterIdempotent(v.items, KeepsOther(cartId));
  }
}

=== FILE: cart_service.dfy ===
/** The back end's cart-line store and its service
    (ecobazaarbackend/.../service/CartService.java).

    The cart repository is a table of lines in insertion order; a new line
    takes the next identity value. Users and products are looked up by id in
    their own stores. A thrown `RuntimeException` is a `Failure` with its
    message; the class is `@Transactional`, so a failed call leaves every
    store as it was, which the model expresses by returning no new store. */
module CartService {
  import opened Wrappers
  import opened Domain
  import Js
  import Sequences

  /** A row of the cart table; the product reference may be null in stored data. */
  datatype CartLine = CartLine(id: int, userId: int, productId: Option<int>, quantity: int)

  datatype CartStore = CartStore(lines: seq<CartLine>, nextId: int)

  /** The row shape `getUserCartDetails` returns. */
  datatype CartItemDto = CartItemDto(
    cartId: int,
    productId: int,
    name: Option<string>,
    image: Option<string>,
    price: real,
    quantity: int,
    ecoPoints: Option<int>,
    carbonSaved: Option<real>)

  /** Line ids are unique and below the next identity value, and each
      (user, product) pair has at most one line. */
  ghost predicate Valid(st: CartStore) {
    (forall i :: 0 <= i < |st.lines| ==> st.lines[i].id < st.nextId)
    && (forall i, j :: 0 <= i < j < |st.lines| ==> st.lines[i].id != st.lines[j].id)
    && (forall i, j :: 0 <= i < j < |st.lines| && st.lines[i].productId.Some? ==>
          !(st.lines[i].userId == st.lines[j].userId && st.lines[i].productId == st.lines[j].productId))
  }

  /** `findByUserIdAndProductId`: the position of the line for this user and product. */
  function FindLine(lines: seq<CartLine>, userId: int, productId: int): (o: Option<nat>)
    ensures o.Some? ==> o.value < |lines| && lines[o.value].userId == userId
                        && lines[o.value].productId == Some(productId)
    ensures o.None? ==> forall i :: 0 <= i < |lines| ==>
                          !(lines[i].userId == userId && lines[i].productId == Some(productId))
    decreases |lines|
  {
    if |lines| == 0 then None
    else if lines[0].userId == userId && lines[0].productId == Some(productId) then Some(0)
    else match FindLine(lines[1..], userId, productId)
      case Some(k) => Some(k + 1)
      case None => None
  }

  /** `addToCart`: the line for (user, product) with its quantity raised by
      `quantity` (in `Integer` arithmetic), or a new line. Returns the saved
      line and the new store. */
  function AddToCart(st: CartStore, users: set<int>, products: map<int, Product>,
                     userId: int, productId: int, quantity: int): (r: Result<(CartLine, CartStore)>)
    ensures userId !in users ==> r == Failure("User not found")
    ensures userId in users && productId !in products ==> r == Failure("Product not found")
    ensures r.Success? <==> userId in users && productId in products
    ensures r.Success? ==> var (line, st') := r.value;
      line.userId == userId && line.productId == Some(productId) && line in st'.lines
  {
    if userId !in users then Failure("User not found")
    else if productId !in products then Failure("Product not found")
    else match FindLine(st.lines, userId, productId)
      case Some(i) =>
        var line := st.lines[i].(quantity := Int32Add(st.lines[i].quantity, quantity));
        var lines' := st.lines[i := line];
        assert lines'[i] == line;
        Success((line, st.(lines := lines')))
      case None =>
        var line := CartLine(st.nextId, userId, Some(productId), quantity);
        Success((line, CartStore(st.lines + [line], st.nextId + 1)))
  }

  /** With a line for (user, product) already present, adding raises that
      line's quantity by the requested amount and creates no line; every
      other line is untouched. */
  lemma AddToExistingLine(st: CartStore, users: set<int>, products: map<int, Product>,
                          userId: int, productId: int, quantity: int, i: nat)
    requires Valid(st)
    requires userId in users && productId in products
    requires i < |st.lines| && st.lines[i].userId == userId && st.lines[i].productId == Some(productId)
    ensures var r := AddToCart(st, users, products, userId, productId, quantity);
      r.Success? && |r.value.1.lines| == |st.lines| && r.value.1.nextId == st.nextId
      && r.value.1.lines[i].id == st.lines[i].id
      && r.value.1.lines[i].quantity == Int32Add(st.lines[i].quantity, quantity)
      && r.value.0 == r.value.1.lines[i]
      && forall j :: 0 <= j < |st.lines| && j != i ==> r.value.1.lines[j] == st.lines[j]
  {
    var o := FindLine(st.lines, userId, productId);
    assert o.Some?;
    assert o.value == i;
  }

  /** With no line for (user, product), adding appends exactly one line
      for them with the requested quantity and a fresh id. */
  lemma AddNewLine(st: CartStore, users: set<int>, products: map<int, Product>,
                   userId: int, productId: int, quantity: int)
    requires userId in users && productId in products
    requires forall i :: 0 <= i < |st.lines| ==>
               !(st.lines[i].userId == userId && st.lines[i].productId == Some(productId))
    ensures var r := AddToCart(st, users, products, userId, productId, quantity);
      r.Success?
      && r.value.1.lines == st.lines + [r.value.0]
      && r.value.0 == CartLine(st.nextId, userId, Some(productId), quantity)
  {
  }

  /** Adding keeps the store valid: ids stay unique and each (user,
      product) pair keeps at most one line. */
  lemma AddToCartPreservesValid(st: CartStore, users: set<int>, products: map<int, Product>,
                                userId: int, productId: int, quantity: int)
    requires Valid(st)
    ensures var r := AddToCart(st, users, products, userId, productId, quantity);
      r.Success? ==> Valid(r.value.1)
  {
    var r := AddToCart(st, users, products, userId, productId, quantity);
    if r.Success? {
      var st' := r.value.1;
      match FindLine(st.lines, userId, productId)
      case Some(i) =>
        assert forall j :: 0 <= j < |st.lines| ==>
          st'.lines[j].id == st.lines[j].id && st'.lines[j].userId == st.lines[j].userId
          && st'.lines[j].productId == st.lines[j].productId;
      case None =>
        var n := |st.lines|;
        assert forall j :: 0 <= j < n ==> st'.lines[j] == st.lines[j];
        assert st'.lines[n] == CartLine(st.nextId, userId, Some(productId), quantity);
    }
  }

  /** The `findByUserId` condition: the line belongs to the user. */
  function OwnedBy(userId: int): CartLine -> bool {
    (l: CartLine) => l.userId == userId
  }

  /** `getCartItems` / `findByUserId`: the user's lines in store order. The
      first ensures ties it to the shared order-preserving filter; the last
      says each of the user's lines appears exactly as often as it is
      stored, and every other line not at all. */
  function UserLines(lines: seq<CartLine>, userId: int): (r: seq<CartLine>)
    ensures r == Sequences.Filter(lines, OwnedBy(userId))
    ensures Sequences.SubsequenceOf(r, lines)
    ensures forall k :: 0 <= k < |r| ==> r[k].userId == userId && r[k] in lines
    ensures forall k :: 0 <= k < |lines| && lines[k].userId == userId ==> lines[k] in r
    ensures |r| <= |lines|
    ensures forall k :: 0 <= k < |lines| ==>
      multiset(r)[lines[k]] == if lines[k].userId == userId then multiset(lines)[lines[k]] else 0
    decreases |lines|
  {
    Sequences.FilterCounts(lines, OwnedBy(userId));
    if |lines| == 0 then []
    else
      var rest := UserLines(lines[1..], userId);
      assert forall k :: 1 <= k < |lines| ==> lines[k] == lines[1..][k - 1];
      if lines[0].userId == userId then [lines[0]] + rest else rest
  }

  function GetCartItems(st: CartStore, userId: int): (r: seq<CartLine>)
    ensures Sequences.SubsequenceOf(r, st.lines)
    ensures forall k :: 0 <= k < |r| ==> r[k].userId == userId && r[k] in st.lines
    ensures forall k :: 0 <= k < |st.lines| && st.lines[k].userId == userId ==> st.lines[k] in r
    ensures forall k :: 0 <= k < |st.lines| ==>
      multiset(r)[st.lines[k]] == if st.lines[k].userId == userId then multiset(st.lines)[st.lines[k]] else 0
  {
    UserLines(st.lines, userId)
  }

  /** The lines whose id differs from `id`, in their order. */
  function WithoutId(lines: seq<CartLine>, id: int): (r: seq<CartLine>)
    ensures forall k :: 0 <= k < |r| ==> r[k].id != id && r[k] in lines
    ensures forall k :: 0 <= k < |lines| && lines[k].id != id ==> lines[k] in r
    ensures |r| <= |lines|
    decreases |lines|
  {
    if |lines| == 0 then []
    else
      var rest := WithoutId(lines[1..], id);
      assert forall k :: 1 <= k < |lines| ==> lines[k] == lines[1..][k - 1];
      if lines[0].id != id then [lines[0]] + rest else rest
  }

  predicate HasId(lines: seq<CartLine>, id: int) {
    exists k :: 0 <= k < |lines| && lines[k].id == id
  }

  /** `removeCartItem`: delete the line with that id, or fail naming the id. */
  function RemoveCartItem(st: CartStore, cartId: int): (r: Result<CartStore>)
    ensures r.Success? <==> HasId(st.lines, cartId)
    ensures r.Failure? ==> r.error == "Cart item not found with id: " + Js.IntToString(cartId)
    ensures r.Success? ==> !HasId(r.value.lines, cartId) && r.value.nextId == st.nextId
    ensures r.Success? ==> forall k :: 0 <= k < |st.lines| && st.lines[k].id != cartId ==> st.lines[k] in r.value.lines
    ensures r.Success? ==> forall k :: 0 <= k < |r.value.lines| ==> r.value.lines[k] in st.lines
  {
    if HasId(st.lines, cartId) then Success(st.(lines := WithoutId(st.lines, cartId)))
    else Failure("Cart item not found with id: " + Js.IntToString(cartId))
  }

  /** `removeFromCart` delegates to `removeCartItem`: it fails on an unknown
      line and otherwise removes that line and nothing else. */
  function RemoveFromCart(st: CartStore, cartItemId: int): (r: Result<CartStore>)
    ensures r.Success? <==> HasId(st.lines, cartItemId)
    ensures r.Success? ==> !HasId(r.value.lines, cartItemId)
    ensures r.Success? ==> forall k :: 0 <= k < |st.lines| && st.lines[k].id != cartItemId ==> st.lines[k] in r.value.lines
  {
    RemoveCartItem(st, cartItemId)
  }

  /** In a valid store, removing an existing line removes exactly one line
      and keeps the store valid. */
  lemma {:induction false} WithoutUniqueId(lines: seq<CartLine>, k: nat)
    requires k < |lines|
    requires forall i, j :: 0 <= i < j < |lines| ==> lines[i].id != lines[j].id
    ensures WithoutId(lines, lines[k].id) == lines[..k] + lines[k + 1..]
    decreases |lines|
  {
    var id := lines[k].id;
    if k == 0 {
      var tail := lines[1..];
      assert forall i :: 0 <= i < |tail| ==> tail[i].id != id;
      WithoutAbsentId(tail, id);
    } else {
      WithoutUniqueId(lines[1..], k - 1);
      assert lines[1..][k - 1] == lines[k];
      assert lines[1..][..k - 1] == lines[1..k];
      assert lines[1..][k..] == lines[k + 1..];
      assert lines[..k] == [lines[0]] + lines[1..k];
    }
  }

  lemma {:induction false} WithoutAbsentId(lines: seq<CartLine>, id: int)
    requires forall i :: 0 <= i < |lines| ==> lines[i].id != id
    ensures WithoutId(lines, id) == lines
    decreases |lines|
  {
    if |lines| > 0 {
      WithoutAbsentId(lines[1..], id);
    }
  }

  /** Removing an existing line of a valid store deletes exactly that line,
      keeps the others in order and keeps the store valid. */
  lemma RemoveExistingLine(st: CartStore, k: nat)
    requires Valid(st) && k < |st.lines|
    ensures RemoveCartItem(st, st.lines[k].id) == Success(st.(lines := st.lines[..k] + st.lines[k + 1..]))
    ensures Valid(st.(lines := st.lines[..k] + st.lines[k + 1..]))
  {
    WithoutUniqueId(st.lines, k);
    DropKeepsValid(st, k);
  }

  /** Dropping one line of a valid store leaves a valid store. */
  lemma DropKeepsValid(st: CartStore, k: nat)
    requires Valid(st) && k < |st.lines|
    ensures Valid(st.(lines := st.lines[..k] + st.lines[k + 1..]))
  {
    var rest := st.lines[..k] + st.lines[k + 1..];
    assert forall i :: 0 <= i < |rest| ==> rest[i] == st.lines[if i < k then i else i + 1];
    forall i, j | 0 <= i < j < |rest|
      ensures rest[i].id != rest[j].id
      ensures rest[i].productId.Some? ==>
        !(rest[i].userId == rest[j].userId && rest[i].productId == rest[j].productId)
    {
      var i0 := if i < k then i else i + 1;
      var j0 := if j < k then j else j + 1;
      assert rest[i] == st.lines[i0] && rest[j] == st.lines[j0] && i0 < j0;
    }
  }

  // ------------------------------------------------------- cart details

  /** The message of the first failure a line causes, if any. */
  function LineProblem(line: CartLine, products: map<int, Product>): (o: Option<string>)
    ensures o.None? <==> line.productId.Some? && line.productId.value in products
  {
    match line.productId
    case None => Some("Cart item " + Js.IntToString(line.id) + " is missing product reference")
    case Some(pid) =>
      if pid in products then None else Some("Product not found id: " + Js.IntToString(pid))
  }

  /** The row built for a line whose product resolves. */
  function DetailOf(line: CartLine, p: Product): (d: CartItemDto)
    ensures d.cartId == line.id && d.quantity == line.quantity
    ensures p.price.Some? ==> d.price == p.price.value
    ensures p.price.None? ==> d.price == 0.0
  {
    CartItemDto(line.id, p.id, p.name, p.imageUrl, p.price.GetOr(0.0), line.quantity,
                p.ecoPoints, p.carbonReduction)
  }

  /** Every line has a product reference that resolves. */
  predicate AllResolve(lines: seq<CartLine>, products: map<int, Product>) {
    forall k :: 0 <= k < |lines| ==> LineProblem(lines[k], products).None?
  }

  /** `msg` is the message of the first line with a problem. */
  predicate FirstProblemIs(lines: seq<CartLine>, products: map<int, Product>, msg: string) {
    exists k :: 0 <= k < |lines| && LineProblem(lines[k], products) == Some(msg)
      && (forall j :: 0 <= j < k ==> LineProblem(lines[j], products).None?)
  }

  /** The row of a line whose product resolves. */
  function RowOf(line: CartLine, products: map<int, Product>): CartItemDto
    requires LineProblem(line, products).None?
  {
    DetailOf(line, products[line.productId.value])
  }

  /** The rows of `lines`, or the first line's problem. */
  method Details(lines: seq<CartLine>, products: map<int, Product>) returns (r: Result<seq<CartItemDto>>)
    ensures r.Success? <==> AllResolve(lines, products)
    ensures r.Success? ==> |r.value| == |lines| && forall k :: 0 <= k < |lines| ==> r.value[k] == RowOf(lines[k], products)
    ensures r.Failure? ==> FirstProblemIs(lines, products, r.error)
  {
    var details: seq<CartItemDto> := [];
    var i := 0;
    while i < |lines|
      invariant 0 <= i <= |lines|
      invariant |details| == i
      invariant forall j :: 0 <= j < i ==> LineProblem(lines[j], products).None?
      invariant forall j :: 0 <= j < i ==> details[j] == RowOf(lines[j], products)
    {
      var problem := LineProblem(lines[i], products);
      if problem.Some? {
        assert !AllResolve(lines, products);
        assert FirstProblemIs(lines, products, problem.value);
        return Failure(problem.value);
      }
      details := details + [RowOf(lines[i], products)];
      i := i + 1;
    }
    return Success(details);
  }

  /** `getUserCartDetails`: one row per line of the user, in store order; the
      first line with a null product reference or an unknown product makes the
      whole call fail with that line's message. */
  method GetUserCartDetails(st: CartStore, products: map<int, Product>, userId: int)
    returns (r: Result<seq<CartItemDto>>)
    ensures var lines := UserLines(st.lines, userId);
      r.Success? <==> AllResolve(lines, products)
    ensures var lines := UserLines(st.lines, userId);
      r.Success? ==> (|r.value| == |lines|
        && forall k :: 0 <= k < |lines| ==>
             r.value[k] == DetailOf(lines[k], products[lines[k].productId.value]))
    ensures r.Failure? ==> FirstProblemIs(UserLines(st.lines, userId), products, r.error)
  {
    r := Details(UserLines(st.lines, userId), products);
  }
}

=== FILE: checkout.dfy ===
/** The checkout page (frontend/src/pages/Checkout.jsx): where the cart
    comes from, the price summary, shipping-form validation, payment-method
    selection and the checks made before an order is submitted.

    The order, cart and customer APIs are not part of this model: their
    results are inputs (`Failure` for a call that throws, carrying the
    error's `message`). The cart is taken to be an array of items; what the
    page does with a stored cart that parses to something else is not
    modelled. The eco-points redemption widget's output is an input. */
module Checkout {
  import opened Wrappers
  import opened Js
  import opened Browser

  // ------------------------------------------------------------- cart load

  /** `localCartRaw ? JSON.parse(localCartRaw) : []`; `None` when the text
      does not parse (the load then fails as a whole). */
  function LocalCart(local: Store, json: JsonCodec): (c: Option<JsValue>)
    ensures Stored(local, "cart").None? ==> c == Some(Arr([]))
    ensures Stored(local, "cart").Some? ==> c == json.parse(local["cart"])
  {
    match Stored(local, "cart")
    case None => Some(Arr([]))
    case Some(text) => json.parse(text)
  }

  /** The result of `loadCheckoutData`: the cart and the error message. */
  datatype Loaded = Loaded(cart: JsValue, error: string)

  /** `loadCheckoutData`. The server cart is asked for only when the current
      user has a truthy `userId`, and used only when it is a non-empty array;
      otherwise the stored cart is used. A stored cart that does not parse
      leaves the cart empty with an error. */
  function LoadCheckoutData(currentUser: JsValue, server: Result<JsValue>, local: Store, json: JsonCodec): (l: Loaded)
    ensures Truthy(currentUser) && Truthy(Prop(currentUser, "userId")) && server.Success?
            && server.value.Arr? && |server.value.items| > 0
      ==> l == Loaded(server.value, "")
    ensures !(Truthy(currentUser) && Truthy(Prop(currentUser, "userId")) && server.Success?
              && server.value.Arr? && |server.value.items| > 0)
      ==> l == (match LocalCart(local, json)
                case Some(c) => Loaded(c, "")
                case None => Loaded(Arr([]), "Failed to load checkout data"))
  {
    var fallback := match LocalCart(local, json)
                    case Some(c) => Loaded(c, "")
                    case None => Loaded(Arr([]), "Failed to load checkout data");
    if Truthy(currentUser) && Truthy(Prop(currentUser, "userId")) then
      match server
      case Success(data) => if data.Arr? && |data.items| > 0 then Loaded(data, "") else fallback
      case Failure(_) => fallback
    else fallback
  }

  /** With no stored cart and no usable server cart the page starts empty. */
  lemma NoCartAnywhereIsEmpty(currentUser: JsValue, server: Result<JsValue>, local: Store, json: JsonCodec)
    requires "cart" !in local
    requires server.Success? ==> server.value == Arr([])
    ensures LoadCheckoutData(currentUser, server, local, json) == Loaded(Arr([]), "")
  {
  }

  // ---------------------------------------------------------- price summary

  /** `Number(item.price) * item.quantity` */
  function LineAmount(item: JsValue): Number {
    Mul(ToNumber(Prop(item, "price")), ToNumber(Prop(item, "quantity")))
  }

  /** `calculateSubtotal`: a left fold from 0. */
  function Subtotal(cart: seq<JsValue>): Number
    decreases |cart|
  {
    if |cart| == 0 then Finite(0.0)
    else Add(Subtotal(cart[..|cart| - 1]), LineAmount(cart[|cart| - 1]))
  }

  /** A cart line whose price and quantity are numbers (a price may also be numeric text). */
  predicate PricedLine(item: JsValue) {
    ToNumber(Prop(item, "price")).Finite? && ToNumber(Prop(item, "quantity")).Finite?
  }

  /** Reference definition: the sum over the lines of price times quantity. */
  function LineTotal(cart: seq<JsValue>): real
    requires forall i :: 0 <= i < |cart| ==> PricedLine(cart[i])
    decreases |cart|
  {
    if |cart| == 0 then 0.0
    else
      var last := cart[|cart| - 1];
      assert PricedLine(last);
      LineTotal(cart[..|cart| - 1]) + LineAmount(last).r
  }

  /** With every line priced, the subtotal is the sum of price times quantity. */
  lemma {:induction false} SubtotalIsLineTotal(cart: seq<JsValue>)
    requires forall i :: 0 <= i < |cart| ==> PricedLine(cart[i])
    ensures Subtotal(cart) == Finite(LineTotal(cart))
    decreases |cart|
  {
    if |cart| > 0 {
      var init := cart[..|cart| - 1];
      assert forall i :: 0 <= i < |init| ==> init[i] == cart[i];
      SubtotalIsLineTotal(init);
      assert PricedLine(cart[|cart| - 1]);
    }
  }

  /** One line with an unreadable price or quantity makes the subtotal NaN. */
  lemma {:induction false} UnpricedLinePoisons(cart: seq<JsValue>, k: int)
    requires 0 <= k < |cart| && LineAmount(cart[k]).NaN?
    ensures Subtotal(cart) == NaN
    decreases |cart|
  {
    if k < |cart| - 1 {
      UnpricedLinePoisons(cart[..|cart| - 1], k);
    }
  }

  const FreeShippingAbove: real := 2000.0
  const ShippingFee: real := 99.0

  /** `calculateShipping`: free strictly above 2000, otherwise 99 (NaN pays). */
  function Shipping(subtotal: Number): (fee: real)
    ensures fee == 0.0 <==> subtotal.Finite? && subtotal.r > FreeShippingAbove
    ensures fee != 0.0 ==> fee == ShippingFee
  {
    if Greater(subtotal, Finite(FreeShippingAbove)) then 0.0 else ShippingFee
  }

  /** `calculateTotal`: subtotal plus shipping. */
  function Total(subtotal: Number): (t: Number)
    ensures subtotal.Finite? ==> t == Finite(subtotal.r + Shipping(subtotal))
    ensures subtotal.NaN? ==> t == NaN
  {
    Add(subtotal, Finite(Shipping(subtotal)))
  }

  /** The total shown: the total less the eco-points discount. */
  function DisplayedTotal(subtotal: Number, discountAmount: real): (t: Number)
    ensures subtotal.Finite? ==> t == Finite(subtotal.r + Shipping(subtotal) - discountAmount)
    ensures subtotal.NaN? ==> t == NaN
  {
    Sub(Total(subtotal), Finite(discountAmount))
  }

  /** The threshold is strict: a subtotal of exactly 2000 pays shipping,
      so it costs more in total than a subtotal of 2001. */
  lemma ThresholdIsStrict()
    ensures Shipping(Finite(2000.0)) == 99.0 && Shipping(Finite(2000.5)) == 0.0
    ensures Total(Finite(2000.0)) == Finite(2099.0) && Total(Finite(2001.0)) == Finite(2001.0)
  {
  }

  // ---------------------------------------------------------- shipping form

  type ShippingInfo = map<string, string>

  const RequiredFields: set<string> := {"firstName", "lastName", "email", "phone", "address", "city", "state", "zipCode"}

  /** The form holds every field the page reads. */
  predicate HasShippingFields(info: ShippingInfo) {
    RequiredFields <= info.Keys && "country" in info
  }

  /** `currentUser?.f || ''` for a text field of the current user; a
      non-text value is read as absent. */
  function UserText(currentUser: JsValue, field: string): string {
    match Or(Prop(currentUser, field), Str(""))
    case Str(s) => s
    case _ => ""
  }

  /** The form's first state: name and email from the current user, India
      as the country, everything else empty. */
  function InitialShippingInfo(currentUser: JsValue): (info: ShippingInfo)
    ensures HasShippingFields(info)
    ensures info["country"] == "India" && info["phone"] == "" && info["address"] == ""
    ensures info["firstName"] == UserText(currentUser, "firstName")
    ensures forall f :: f in {"firstName", "lastName", "email"} && Or(Prop(currentUser, f), Str("")).Str? ==>
      info[f] == Or(Prop(currentUser, f), Str("")).s
    ensures forall f :: f in {"firstName", "lastName", "email"} && !Truthy(Prop(currentUser, f)) ==> info[f] == ""
  {
    map["firstName" := UserText(currentUser, "firstName"), "lastName" := UserText(currentUser, "lastName"),
        "email" := UserText(currentUser, "email"), "phone" := "", "address" := "", "city" := "",
        "state" := "", "zipCode" := "", "country" := "India"]
  }

  /** `handleInputChange`: only the shipping section is stored. */
  function HandleInputChange(info: ShippingInfo, section: string, field: string, value: string): (r: ShippingInfo)
    ensures section == "shipping" ==> r == info[field := value]
    ensures section != "shipping" ==> r == info
    ensures HasShippingFields(info) ==> HasShippingFields(r)
  {
    if section == "shipping" then info[field := value] else info
  }

  /** `validateForm`: every required field is non-blank after trimming. */
  function ValidateForm(info: ShippingInfo): (ok: bool)
    requires HasShippingFields(info)
    ensures ok <==> forall f :: f in RequiredFields ==> Trim(info[f]) != ""
  {
    forall f :: f in RequiredFields ==> Trim(info[f]) != ""
  }

  /** The country is not required: changing it never changes validity. */
  lemma CountryNotRequired(info: ShippingInfo, country: string)
    requires HasShippingFields(info)
    ensures HasShippingFields(info["country" := country])
    ensures ValidateForm(info["country" := country]) == ValidateForm(info)
  {
    var info' := info["country" := country];
    assert forall f :: f in RequiredFields ==> info'[f] == info[f];
  }

  /** A field of spaces only fails validation. */
  lemma BlankFieldFails(info: ShippingInfo, field: string)
    requires HasShippingFields(info) && field in RequiredFields
    requires AllSpace(info[field])
    ensures !ValidateForm(info)
  {
    TrimEmptyIffAllSpace(info[field]);
  }

  // -------------------------------------------------------- payment method

  /** `handlePaymentMethodClick`: choosing UPI only raises an alert. */
  function ClickPaymentMethod(selected: string, methodId: string): (r: string)
    ensures methodId == "upi" ==> r == selected
    ensures methodId != "upi" ==> r == methodId
  {
    if methodId == "upi" then selected else methodId
  }

  /** The selection after a series of clicks, starting from cash on delivery. */
  function AfterClicks(clicks: seq<string>): string
    decreases |clicks|
  {
    if |clicks| == 0 then "cash_on_delivery"
    else ClickPaymentMethod(AfterClicks(clicks[..|clicks| - 1]), clicks[|clicks| - 1])
  }

  /** However the user clicks, UPI is never the selected method. */
  lemma {:induction false} UpiNeverSelected(clicks: seq<string>)
    ensures AfterClicks(clicks) != "upi"
    decreases |clicks|
  {
    if |clicks| > 0 {
      UpiNeverSelected(clicks[..|clicks| - 1]);
    }
  }

  // ------------------------------------------------------------ place order

  /** One entry of `cartItems`. */
  datatype OrderLine = OrderLine(productId: JsValue, quantity: JsValue)

  /** `{ productId: item.productId || item.id, quantity: item.quantity || 1 }` */
  function ToOrderLine(item: JsValue): (l: OrderLine)
    ensures Truthy(l.quantity)
    ensures Truthy(Prop(item, "quantity")) ==> l.quantity == Prop(item, "quantity")
    ensures !Truthy(Prop(item, "quantity")) ==> l.quantity == N(1.0)
    ensures Truthy(Prop(item, "productId")) ==> l.productId == Prop(item, "productId")
    ensures !Truthy(Prop(item, "productId")) ==> l.productId == Prop(item, "id")
  {
    OrderLine(Or(Prop(item, "productId"), Prop(item, "id")), Or(Prop(item, "quantity"), N(1.0)))
  }

  /** The request body of `orderAPI.createOrder`. */
  datatype OrderData = OrderData(
    cartItems: seq<OrderLine>,
    shippingAddress: string,
    paymentMethod: string,
    notes: JsValue,
    ecoPointsUsed: JsValue,
    ecoPointsDiscount: JsValue,
    isEcoBoost: JsValue)

  /** The eco-points widget's last report. */
  datatype Redemption = Redemption(pointsUsed: JsValue, discountAmount: JsValue, isEcoBoost: JsValue)

  function ShippingAddress(info: ShippingInfo): string
    requires HasShippingFields(info)
  {
    info["firstName"] + " " + info["lastName"] + "\n" + info["address"] + "\n" + info["city"] + ", "
    + info["state"] + " " + info["zipCode"] + "\n" + info["country"] + "\nPhone: " + info["phone"]
  }

  /** What `handlePlaceOrder` leaves behind: the error shown, the request
      sent (if any), whether the order completed, and the order id shown. */
  datatype Placement = Placement(error: string, sent: Option<OrderData>, complete: bool, orderId: JsValue)

  const FillAllFields: string := "Please fill in all required fields"
  const MustLogIn: string := "You must be logged in to place an order."
  const CartEmpty: string := "Cart is empty."

  /** The `TypeError` message for reading `key` of a nullish value, in
      V8's wording. */
  function NullReadMessage(v: JsValue, key: string): (m: string)
    ensures m != ""
  {
    "Cannot read properties of " + (if v.Null? then "null" else "undefined") + " (reading '" + key + "')"
  }

  /** `handlePlaceOrder`. `createOrder` yields the response data; `clearCart`
      runs only after it succeeds. Reading the id of a nullish reply throws
      inside the `try`, so the error is shown although the order was placed
      and the cart cleared. */
  function PlaceOrder(info: ShippingInfo, currentUser: JsValue, cart: seq<JsValue>, selected: string,
                      notes: string, redemption: Redemption,
                      createOrder: Result<JsValue>, clearCart: Result<bool>): (p: Placement)
    requires HasShippingFields(info)
    // the checks, in order; the first that fails decides the error
    ensures !ValidateForm(info) ==> p == Placement(FillAllFields, None, false, Str(""))
    ensures ValidateForm(info) && !(Truthy(currentUser) && Truthy(Prop(currentUser, "userId")))
      ==> p == Placement(MustLogIn, None, false, Str(""))
    ensures ValidateForm(info) && Truthy(currentUser) && Truthy(Prop(currentUser, "userId")) && |cart| == 0
      ==> p == Placement(CartEmpty, None, false, Str(""))
    ensures p.sent.Some? <==>
      ValidateForm(info) && Truthy(currentUser) && Truthy(Prop(currentUser, "userId")) && |cart| > 0 && selected != "upi"
    // whatever was chosen, the order goes out as cash on delivery, one line per cart item
    ensures p.sent.Some? ==>
      p.sent.value.paymentMethod == "CASH_ON_DELIVERY"
      && |p.sent.value.cartItems| == |cart|
      && (forall i :: 0 <= i < |cart| ==> p.sent.value.cartItems[i] == ToOrderLine(cart[i]))
    ensures p.complete ==> p.sent.Some? && createOrder.Success? && clearCart.Success? && p.error == ""
    // once sent, the outcome follows the two calls and the reply
    ensures p.sent.Some? && createOrder.Failure? ==>
      !p.complete && p.error == (if createOrder.error == "" then "Order failed" else createOrder.error)
    ensures p.sent.Some? && createOrder.Success? && clearCart.Failure? ==>
      !p.complete && p.error == (if clearCart.error == "" then "Order failed" else clearCart.error)
    ensures p.sent.Some? && createOrder.Success? && clearCart.Success? && !Nullish(createOrder.value) ==>
      p.complete && p.error == ""
      && p.orderId == Or(Or(Prop(createOrder.value, "id"), Prop(createOrder.value, "orderId")), Str(""))
    // a nullish reply throws when its id is read, after the cart was cleared
    ensures p.sent.Some? && createOrder.Success? && clearCart.Success? && Nullish(createOrder.value) ==>
      !p.complete && p.error == NullReadMessage(createOrder.value, "id")
  {
    if !ValidateForm(info) then Placement(FillAllFields, None, false, Str(""))
    else if !(Truthy(currentUser) && Truthy(Prop(currentUser, "userId"))) then Placement(MustLogIn, None, false, Str(""))
    else if |cart| == 0 then Placement(CartEmpty, None, false, Str(""))
    else if selected == "upi" then Placement("", None, false, Str(""))
    else
      var data := OrderData(ToOrderLines(cart), ShippingAddress(info), "CASH_ON_DELIVERY", Or(Str(notes), Str("")),
                            Or(redemption.pointsUsed, N(0.0)), Or(redemption.discountAmount, N(0.0)),
                            Or(redemption.isEcoBoost, Bool(false)));
      match createOrder
      case Failure(m) => Placement(if m == "" then "Order failed" else m, Some(data), false, Str(""))
      case Success(response) =>
        match clearCart
        case Failure(m) => Placement(if m == "" then "Order failed" else m, Some(data), false, Str(""))
        case Success(_) =>
          if Nullish(response) then Placement(NullReadMessage(response, "id"), Some(data), false, Str(""))
          else Placement("", Some(data), true, Or(Or(Prop(response, "id"), Prop(response, "orderId")), Str("")))
  }

  /** `cart.map(...)` into order lines. */
  function ToOrderLines(cart: seq<JsValue>): (lines: seq<OrderLine>)
    ensures |lines| == |cart|
    ensures forall i :: 0 <= i < |cart| ==> lines[i] == ToOrderLine(cart[i])
  {
    seq(|cart|, i requires 0 <= i < |cart| => ToOrderLine(cart[i]))
  }

  /** Every line sent has a truthy quantity: a zero or missing one goes out as 1. */
  lemma SentQuantitiesTruthy(info: ShippingInfo, currentUser: JsValue, cart: seq<JsValue>, selected: string,
                             notes: string, redemption: Redemption,
                             createOrder: Result<JsValue>, clearCart: Result<bool>)
    requires HasShippingFields(info)
    ensures var p := PlaceOrder(info, currentUser, cart, selected, notes, redemption, createOrder, clearCart);
      p.sent.Some? ==> forall i :: 0 <= i < |p.sent.value.cartItems| ==> Truthy(p.sent.value.cartItems[i].quantity)
  {
  }

  /** A sent order ends either complete with no error, or not complete with
      an error shown; never both and never neither. */
  lemma SentOrderCompletesOrShowsError(info: ShippingInfo, currentUser: JsValue, cart: seq<JsValue>, selected: string,
                                       notes: string, redemption: Redemption,
                                       createOrder: Result<JsValue>, clearCart: Result<bool>)
    requires HasShippingFields(info)
    ensures var p := PlaceOrder(info, currentUser, cart, selected, notes, redemption, createOrder, clearCart);
      p.sent.Some? ==> (p.complete <==> p.error == "")
    ensures var p := PlaceOrder(info, currentUser, cart, selected, notes, redemption, createOrder, clearCart);
      p.sent.None? ==> !p.complete
  {
  }

  /** From any selection reachable by clicking, a valid, signed-in,
      non-empty checkout always sends the order. */
  lemma ReachableSelectionSends(clicks: seq<string>, info: ShippingInfo, currentUser: JsValue, cart: seq<JsValue>,
                                notes: string, redemption: Redemption,
                                createOrder: Result<JsValue>, clearCart: Result<bool>)
    requires HasShippingFields(info) && ValidateForm(info)
    requires Truthy(currentUser) && Truthy(Prop(currentUser, "userId")) && |cart| > 0
    ensures PlaceOrder(info, currentUser, cart, AfterClicks(clicks), notes, redemption, createOrder, clearCart).sent.Some?
  {
    UpiNeverSelected(clicks);
  }
}

=== FILE: data_initializer.dfy ===
/** The start-up seeding of the catalogue
    (ecobazaarbackend/.../config/DataInitializer.java): six categories when
    there are none, a test seller found or created by username, and six
    products when there are none.

    The carbon calculator service is not part of this model; it is a
    function parameter. Generated ids come from per-table counters. */
module DataInitializer {
  import opened Wrappers
  import opened Domain
  import Sequences

  /** The three tables the initializer touches, with their id counters. */
  datatype Db = Db(
    users: seq<User>,
    categories: seq<Category>,
    products: seq<Product>,
    nextUserId: int,
    nextCategoryId: int,
    nextProductId: int)

  /** `carbonCalculatorService.calculateCarbonScore(weight, distance, ecoFriendly)` */
  type CarbonCalculator = (real, real, bool) -> Option<real>

  // ------------------------------------------------------------ categories

  const CategorySeeds: seq<(string, string)> := [
    ("Electronics", "Electronic devices and gadgets"),
    ("Fashion", "Clothing and fashion items"),
    ("Home & Garden", "Home improvement and gardening products"),
    ("Office", "Office supplies and stationery"),
    ("Personal Care", "Natural and organic personal care products"),
    ("Food & Beverages", "Organic and sustainable food products")
  ]

  /** The seeded categories, active, numbered from `firstId`. */
  function SeedCategories(firstId: int): (cs: seq<Category>)
    ensures |cs| == |CategorySeeds|
    ensures forall k :: 0 <= k < |cs| ==>
      cs[k] == Category(firstId + k, CategorySeeds[k].0, CategorySeeds[k].1, Some(true))
  {
    seq(|CategorySeeds|, k requires 0 <= k < |CategorySeeds| =>
      Category(firstId + k, CategorySeeds[k].0, CategorySeeds[k].1, Some(true)))
  }

  /** `initializeCategories`: seed only an empty table. */
  function InitializeCategories(db: Db): (r: Db)
    ensures |db.categories| > 0 ==> r == db
    ensures |db.categories| == 0 ==>
      r == db.(categories := SeedCategories(db.nextCategoryId), nextCategoryId := db.nextCategoryId + |CategorySeeds|)
    ensures |r.categories| > 0
  {
    if |db.categories| == 0 then
      db.(categories := SeedCategories(db.nextCategoryId), nextCategoryId := db.nextCategoryId + |CategorySeeds|)
    else db
  }

  // ---------------------------------------------------------------- seller

  /** `userRepository.findByUsername` */
  function FindByUsername(users: seq<User>, username: string): (o: Option<User>)
    ensures o.Some? ==> o.value in users && o.value.username == username
    ensures o.None? ==> forall k :: 0 <= k < |users| ==> users[k].username != username
  {
    Sequences.FindFirst(users, (u: User) => u.username == username)
  }

  /** The test seller as created on first start. */
  function NewTestSeller(id: int, now: int): User {
    User(id, "testseller", "seller@ecobazaar.com", Some("Test"), Some("Seller"), Seller, Some(true), Some(0), now)
  }

  /** `initializeSeller`: the user named "testseller", created if missing
      (an existing one is used whatever its role or status). */
  function InitializeSeller(db: Db, now: int): (r: (User, Db))
    ensures r.0.username == "testseller" && r.0 in r.1.users
    ensures FindByUsername(db.users, "testseller").Some? ==> r == (FindByUsername(db.users, "testseller").value, db)
    ensures FindByUsername(db.users, "testseller").None? ==>
      r.0 == NewTestSeller(db.nextUserId, now)
      && r.1 == db.(users := db.users + [r.0], nextUserId := db.nextUserId + 1)
  {
    match FindByUsername(db.users, "testseller")
    case Some(u) => (u, db)
    case None =>
      var u := NewTestSeller(db.nextUserId, now);
      (u, db.(users := db.users + [u], nextUserId := db.nextUserId + 1))
  }

  // -------------------------------------------------------------- products

  /** The arguments of one `createProduct` call. */
  datatype ProductSeed = ProductSeed(
    name: string,
    description: string,
    price: real,
    categoryName: string,
    weightKg: real,
    shippingDistanceKm: real,
    imageUrl: string)

  const ProductSeeds: seq<ProductSeed> := [
    ProductSeed("Jute Cloth Bag", "Suitable for daily use like groceries.",
                59.0, "Home & Garden", 0.5, 30.0,
                "https://img.freepik.com/premium-photo/highresolution-jute-bag-image-4k-detailed-texture-ecofriendly-natural-fiber-material_1192771-5050.jpg?semt=ais_hybrid&w=740&q=80"),
    ProductSeed("Cotton T-Shirt", "Comfortable cotton t-shirt made from 100% certified organic cotton.",
                199.0, "Fashion", 0.2, 50.0,
                "https://cdn.yourdesignstore.in/uploads/yds/productImages/full/17155845641871Main-Product-Image-1-1.png"),
    ProductSeed("Solar Power Bank", "Portable solar charger with 10,000mAh capacity.",
                1249.0, "Electronics", 0.3, 100.0,
                "https://5.imimg.com/data5/SELLER/Default/2024/6/427061773/QA/JS/JS/128786604/20-500x500.jpg"),
    ProductSeed("Reused Paper Notebook", "200 pages notebook made from 100% recycled papers.",
                119.0, "Office", 0.1, 25.0,
                "https://m.media-amazon.com/images/I/817mFy4yYkL.jpg"),
    ProductSeed("Re-chargeable battery cell", "USB re-chargeable cells. Single unit.",
                45.0, "Home & Garden", 0.4, 40.0,
                "https://5.imimg.com/data5/SELLER/Default/2025/2/492338752/EG/YX/GJ/11709116/18650-li-ion-2600mah-3c-rechargeable-battery-cell-500x500.jpg"),
    ProductSeed("Glass Vase", "Beautiful vase made from reuse glass powder and china-clay.",
                499.0, "Home & Garden", 0.6, 35.0,
                "https://www.shutterstock.com/image-photo/handcrafted-clay-vase-featuring-detailed-600nw-2623874541.jpg")
  ]

  /** The first category with the given name, else the first category of
      all (`categories.get(0)` throws on an empty list). */
  function CategoryFor(categories: seq<Category>, name: string): (c: Category)
    requires |categories| > 0
    ensures c in categories
    ensures c.name == name || c == categories[0]
    ensures (exists k :: 0 <= k < |categories| && categories[k].name == name) ==> c.name == name
    ensures (forall k :: 0 <= k < |categories| ==> categories[k].name != name) ==> c == categories[0]
    ensures (exists k :: 0 <= k < |categories| && categories[k].name == name) ==>
      exists k :: FirstNameAt(categories, name, k) && c == categories[k]
  {
    match FirstNamed(categories, name)
    case Some(c) => c
    case None => categories[0]
  }

  /** `k` is the position of the first category named `name`. */
  predicate FirstNameAt(categories: seq<Category>, name: string, k: int) {
    0 <= k < |categories| && categories[k].name == name
    && forall j :: 0 <= j < k ==> categories[j].name != name
  }

  /** `findFirst` over the categories with the given name. */
  function FirstNamed(categories: seq<Category>, name: string): (o: Option<Category>)
    ensures o.Some? ==> o.value in categories && o.value.name == name
    ensures o.None? <==> forall k :: 0 <= k < |categories| ==> categories[k].name != name
    ensures o.Some? ==> exists k :: FirstNameAt(categories, name, k) && o.value == categories[k]
    decreases |categories|
  {
    if |categories| == 0 then None
    else if categories[0].name == name then
      assert FirstNameAt(categories, name, 0);
      Some(categories[0])
    else
      var rest := FirstNamed(categories[1..], name);
      if rest.Some? then
        var k :| FirstNameAt(categories[1..], name, k) && rest.value == categories[1..][k];
        assert FirstNameAt(categories, name, k + 1);
        rest
      else rest
  }

  /** `createProduct`: active, eco-friendly, 50 in stock, scored by the calculator. */
  function CreateProduct(id: int, s: ProductSeed, categories: seq<Category>, seller: User,
                         carbon: CarbonCalculator, now: int): (p: Product)
    requires |categories| > 0
    ensures p.id == id && p.name == Some(s.name) && p.price == Some(s.price)
    ensures p.category == Some(CategoryFor(categories, s.categoryName)) && p.seller == Some(seller)
    ensures p.isActive == Some(true) && p.isEcoFriendly == Some(true) && p.stockQuantity == Some(50)
    ensures p.carbonScore == carbon(s.weightKg, s.shippingDistanceKm, true)
  {
    Product(id, Some(s.name), Some(s.description), Some(s.price), Some(CategoryFor(categories, s.categoryName)),
            Some(seller), Some(true), Some(50), carbon(s.weightKg, s.shippingDistanceKm, true), Some(true),
            Some(s.imageUrl), None, None, Some(s.weightKg), Some(s.shippingDistanceKm), now)
  }

  /** `initializeProducts`: seed only an empty table. */
  function InitializeProducts(db: Db, seller: User, carbon: CarbonCalculator, now: int): (r: Db)
    requires |db.categories| > 0
    ensures |db.products| > 0 ==> r == db
    ensures |db.products| == 0 ==>
      r.users == db.users && r.categories == db.categories
      && r.nextProductId == db.nextProductId + |ProductSeeds|
      && |r.products| == |ProductSeeds|
      && forall k :: 0 <= k < |ProductSeeds| ==>
           r.products[k] == CreateProduct(db.nextProductId + k, ProductSeeds[k], db.categories, seller, carbon, now)
  {
    if |db.products| == 0 then
      var ps := seq(|ProductSeeds|, k requires 0 <= k < |ProductSeeds| =>
                    CreateProduct(db.nextProductId + k, ProductSeeds[k], db.categories, seller, carbon, now));
      db.(products := ps, nextProductId := db.nextProductId + |ProductSeeds|)
    else db
  }

  /** `run`: categories, then the seller, then the products. */
  function Run(db: Db, carbon: CarbonCalculator, now: int): (r: Db)
    ensures |r.categories| > 0 && |r.products| > 0
    ensures FindByUsername(r.users, "testseller").Some?
    ensures |db.categories| > 0 ==> r.categories == db.categories
    ensures |db.products| > 0 ==> r.products == db.products
    ensures forall k :: 0 <= k < |db.users| ==> db.users[k] in r.users
  {
    var db1 := InitializeCategories(db);
    var (seller, db2) := InitializeSeller(db1, now);
    var r := InitializeProducts(db2, seller, carbon, now);
    FoundWhenPresent(r.users, seller);
    r
  }

  /** A user in the list is found by its username. */
  lemma FoundWhenPresent(users: seq<User>, u: User)
    requires u in users
    ensures FindByUsername(users, u.username).Some?
  {
    var k :| 0 <= k < |users| && users[k] == u;
  }

  /** Starting the application again changes nothing: every step finds its
      table already seeded. */
  lemma RunIdempotent(db: Db, carbon: CarbonCalculator, now: int, later: int)
    ensures Run(Run(db, carbon, now), carbon, later) == Run(db, carbon, now)
  {
  }

  /** The database the application first starts on. */
  const Empty: Db := Db([], [], [], 1, 1, 1)

  /** On an empty database the run adds six categories, the test seller
      and six products that all belong to it. */
  lemma FreshStartSeedsCatalogue(carbon: CarbonCalculator, now: int)
    ensures var r := Run(Empty, carbon, now);
      |r.categories| == 6 && |r.users| == 1 && |r.products| == 6
      && r.users[0] == NewTestSeller(1, now)
      && r.categories == SeedCategories(1)
      && forall k :: 0 <= k < 6 ==>
           r.products[k] == CreateProduct(1 + k, ProductSeeds[k], SeedCategories(1), NewTestSeller(1, now), carbon, now)
  {
    var db1 := InitializeCategories(Empty);
    assert db1.categories == SeedCategories(1);
    var (seller, db2) := InitializeSeller(db1, now);
    assert seller == NewTestSeller(1, now) && db2.users == [seller];
  }

  /** Each fresh product lands in the category its seed names. */
  lemma FreshProductsInNamedCategories(carbon: CarbonCalculator, now: int)
    ensures forall k :: 0 <= k < 6 ==>
      CreateProduct(1 + k, ProductSeeds[k], SeedCategories(1), NewTestSeller(1, now), carbon, now).category.value.name
        == ProductSeeds[k].categoryName
  {
    var cats := SeedCategories(1);
    forall k | 0 <= k < 6
      ensures CreateProduct(1 + k, ProductSeeds[k], cats, NewTestSeller(1, now), carbon, now).category.value.name
        == ProductSeeds[k].categoryName
    {
      var name := ProductSeeds[k].categoryName;
      assert exists j :: 0 <= j < |cats| && cats[j].name == name by {
        if name == "Electronics" { assert cats[0].name == name; }
        else if name == "Fashion" { assert cats[1].name == name; }
        else if name == "Home & Garden" { assert cats[2].name == name; }
        else { assert cats[3].name == name; }
      }
    }
  }
}

=== FILE: domain.dfy ===
/** The back end's persistent entities, as the services read them, and the
    few pieces of Java and SQL semantics the services depend on: string
    concatenation of a possibly-null string, `String.trim`, 32-bit `Integer`
    addition and SQL `SUM` over nullable values.

    A Java reference that may be `null` is an `Option`. Timestamps are
    integer milliseconds; money and scores are exact reals. The entity
    classes themselves (User, Product, Category, Order, OrderItem, Cart) are
    not part of this model: their fields are the ones the services read. */
module Domain {
  import opened Wrappers
  import Sequences

  datatype Role = Admin | Seller | Customer

  datatype User = User(
    id: int,
    username: string,
    email: string,
    firstName: Option<string>,
    lastName: Option<string>,
    role: Role,
    isActive: Option<bool>,
    ecoPoints: Option<int>,
    createdAt: int)

  datatype Category = Category(id: int, name: string, description: string, isActive: Option<bool>)

  datatype Product = Product(
    id: int,
    name: Option<string>,
    description: Option<string>,
    price: Option<real>,
    category: Option<Category>,
    seller: Option<User>,
    isActive: Option<bool>,
    stockQuantity: Option<int>,
    carbonScore: Option<real>,
    isEcoFriendly: Option<bool>,
    imageUrl: Option<string>,
    ecoPoints: Option<int>,
    carbonReduction: Option<real>,
    weightKg: Option<real>,
    shippingDistanceKm: Option<real>,
    createdAt: int)

  /** One line of an order; the product reference, quantity and price may be null. */
  datatype OrderItem = OrderItem(product: Option<Product>, quantity: Option<int>, price: Option<real>)

  /** An order; `status` is the name of its status constant. */
  datatype Order = Order(
    id: int,
    user: User,
    status: string,
    totalPrice: Option<real>,
    totalCarbonScore: Option<real>,
    shippingAddress: Option<string>,
    createdAt: int,
    items: seq<OrderItem>)

  /** A message handed to the notification service: recipient user id
      (`None` for a null recipient), title, message and type. */
  datatype Notification = Notification(recipient: Option<int>, title: string, message: string, kind: string)

  // ---------------------------------------------------------- Java strings

  /** How Java's `+` renders a possibly-null `String` operand. */
  function JavaText(s: Option<string>): (t: string)
    ensures s.Some? ==> t == s.value
    ensures s.None? ==> t == "null"
  {
    match s
    case Some(v) => v
    case None => "null"
  }

  /** The characters `String.trim()` removes: every one up to U+0020. */
  predicate JavaSpace(c: char) {
    c <= ' '
  }

  /** `String.trim()`: strips leading and trailing characters up to U+0020
      and changes nothing else. */
  function JavaTrim(s: string): (t: string)
    ensures |t| <= |s|
    ensures Trimmed(t)
    ensures Sequences.StripOf(t, s, JavaSpace)
  {
    var a := TrimLeading(s);
    var t := TrimTrailing(a);
    Sequences.StripFrontBack(s, a, t, JavaSpace);
    t
  }

  /** `String.trim()` is the only strip of `s`: any `t` that is `s` with
      characters up to U+0020 cut from its ends, and no more, is `s.trim()`. */
  lemma JavaTrimUnique(s: string, t: string)
    requires Sequences.StripOf(t, s, JavaSpace)
    ensures JavaTrim(s) == t
  {
    Sequences.StripUnique(JavaTrim(s), t, s, JavaSpace);
  }

  function TrimLeading(s: string): (t: string)
    ensures |t| <= |s| && t == s[|s| - |t|..]
    ensures |t| > 0 ==> t[0] > ' '
    ensures forall i :: 0 <= i < |s| - |t| ==> s[i] <= ' '
  {
    if |s| > 0 && s[0] <= ' ' then TrimLeading(s[1..]) else s
  }

  function TrimTrailing(s: string): (t: string)
    ensures |t| <= |s| && t == s[..|t|]
    ensures |t| > 0 ==> t[|t| - 1] > ' '
    ensures forall i :: |t| <= i < |s| ==> s[i] <= ' '
  {
    if |s| > 0 && s[|s| - 1] <= ' ' then TrimTrailing(s[..|s| - 1]) else s
  }

  /** A string with no control or space character at either end. */
  predicate Trimmed(s: string) {
    |s| == 0 || (s[0] > ' ' && s[|s| - 1] > ' ')
  }

  /** Trimming leaves an already trimmed string alone. */
  lemma JavaTrimTrimmed(s: string)
    requires Trimmed(s)
    ensures JavaTrim(s) == s
  {
  }

  // --------------------------------------------------------- Java integers

  const Int32Modulus: int := 0x1_0000_0000

  predicate IsInt32(x: int) {
    -0x8000_0000 <= x < 0x8000_0000
  }

  /** `Integer` addition: the mathematical sum wrapped into 32-bit two's complement. */
  function Int32Add(a: int, b: int): (r: int)
    ensures IsInt32(r)
    ensures (r - (a + b)) % Int32Modulus == 0
    ensures IsInt32(a + b) ==> r == a + b
  {
    var m := (a + b + 0x8000_0000) % Int32Modulus;
    m - 0x8000_0000
  }

  // ------------------------------------------------------------- SQL SUM

  /** SQL `SUM` over a column: the sum of the non-null values, or `NULL`
      when there is none (in particular over no rows). */
  function SqlSum(values: seq<Option<real>>): (s: Option<real>)
    ensures s.None? <==> forall i :: 0 <= i < |values| ==> values[i].None?
    decreases |values|
  {
    if |values| == 0 then None
    else
      var rest := SqlSum(values[..|values| - 1]);
      match (rest, values[|values| - 1])
      case (None, v) => v
      case (Some(a), None) => Some(a)
      case (Some(a), Some(b)) => Some(a + b)
  }

  /** The arithmetic total of the non-null values (0 for none). */
  function PresentTotal(values: seq<Option<real>>): real
    decreases |values|
  {
    if |values| == 0 then 0.0
    else PresentTotal(values[..|values| - 1]) + values[|values| - 1].GetOr(0.0)
  }

  /** `SUM(...)` replaced by zero when null, as the services do with
      `if (x == null) x = BigDecimal.ZERO`, is the total of the present values. */
  lemma {:induction false} SqlSumOrZero(values: seq<Option<real>>)
    ensures SqlSum(values).GetOr(0.0) == PresentTotal(values)
    decreases |values|
  {
    if |values| > 0 {
      SqlSumOrZero(values[..|values| - 1]);
    }
  }
}

=== FILE: greener_alternative.dfy ===
/** The greener-alternative panel of a cart line
    (frontend/src/components/cart/GreenerAlternative.jsx): loading the
    suggestion, when the panel shows, the carbon and price comparison, and
    replacing the line with the suggestion.

    The suggestion and cart endpoints are not part of this model: their
    replies are inputs (`Failure` for a request that throws). Number
    formatting (`toFixed`) and the details toggle are not modelled. */
module GreenerAlternative {
  import opened Wrappers
  import opened Js

  // ------------------------------------------------------------------ load

  /** The panel's `alternative`, `error` and `loading`. */
  datatype Panel = Panel(alternative: JsValue, error: bool, loading: bool)

  /** `loadAlternative`: a truthy reply becomes the alternative; an empty
      reply or a failed request sets the error and keeps the previous
      alternative, which the error then hides. */
  function LoadAlternative(before: Panel, response: Result<JsValue>): (after: Panel)
    ensures !after.loading
    ensures !after.error <==> response.Success? && Truthy(response.value)
    ensures !after.error ==> after.alternative == response.value
    ensures after.error ==> after.alternative == before.alternative
  {
    if response.Success? && Truthy(response.value) then Panel(response.value, false, false)
    else Panel(before.alternative, true, false)
  }

  /** The render guard: the panel shows only once loaded, without an
      error, and with an alternative. */
  predicate Visible(p: Panel) {
    !p.loading && !p.error && Truthy(p.alternative)
  }

  /** The panel shows after a load exactly when the reply was a truthy
      suggestion; a failure hides even a suggestion shown before. */
  lemma VisibleIffSuggested(before: Panel, response: Result<JsValue>)
    ensures Visible(LoadAlternative(before, response)) <==> response.Success? && Truthy(response.value)
  {
  }

  // ------------------------------------------------------------ comparison

  /** `currentProduct?.carbonScore || 0` as a number. */
  function CurrentCarbon(current: JsValue): Number {
    ToNumber(Or(Prop(current, "carbonScore"), N(0.0)))
  }

  /** `alternative.emissionPerUnit || 0` as a number. */
  function AlternativeCarbon(alternative: JsValue): Number {
    ToNumber(Or(Prop(alternative, "emissionPerUnit"), N(0.0)))
  }

  /** `currentCarbon - alternativeCarbon` */
  function CarbonReduction(current: JsValue, alternative: JsValue): Number {
    Sub(CurrentCarbon(current), AlternativeCarbon(alternative))
  }

  /** `carbonReductionPercent` before rounding: the reduction as a share of
      the current carbon when that is positive, and 0 otherwise. */
  function ReductionPercent(current: JsValue, alternative: JsValue): (pct: Number)
    ensures !Greater(CurrentCarbon(current), Finite(0.0)) ==> pct == Finite(0.0)
    ensures Greater(CurrentCarbon(current), Finite(0.0)) && CarbonReduction(current, alternative).Finite? ==>
      pct == Finite(CarbonReduction(current, alternative).r / CurrentCarbon(current).r * 100.0)
  {
    var c := CurrentCarbon(current);
    var red := CarbonReduction(current, alternative);
    if Greater(c, Finite(0.0)) then
      (if red.Finite? then Finite(red.r / c.r * 100.0) else NaN)
    else Finite(0.0)
  }

  /** `carbonReduction > 0`: the "less CO₂" badge shows. */
  predicate ShowsLessCo2(current: JsValue, alternative: JsValue) {
    Greater(CarbonReduction(current, alternative), Finite(0.0))
  }

  /** When the badge shows for a line with positive carbon, its percentage
      is positive, and it is at most 100 when the alternative's emission is
      not negative. */
  lemma BadgePercentInRange(current: JsValue, alternative: JsValue)
    requires ShowsLessCo2(current, alternative) && Greater(CurrentCarbon(current), Finite(0.0))
    ensures ReductionPercent(current, alternative).Finite?
    ensures ReductionPercent(current, alternative).r > 0.0
    ensures AlternativeCarbon(alternative).r >= 0.0 ==> ReductionPercent(current, alternative).r <= 100.0
  {
    var c := CurrentCarbon(current).r;
    var red := CarbonReduction(current, alternative).r;
    assert red <= c ==> red / c <= 1.0;
  }

  /** The price text's colour. */
  datatype Colour = Green | Orange | Neutral

  /** `alternativePrice - currentPrice`, each `||`-defaulted to 0. */
  function PriceDifference(current: JsValue, alternative: JsValue): Number {
    var currentPrice := Or(Prop(current, "price"), N(0.0));
    var alternativePrice := Or(Prop(alternative, "price"), Or(Prop(alternative, "unitPrice"), N(0.0)));
    Sub(ToNumber(alternativePrice), ToNumber(currentPrice))
  }

  /** The colour for a price difference: cheaper green, dearer orange,
      equal (or not comparable) neutral. */
  function ColourFor(diff: Number): (c: Colour)
    ensures c == Green <==> Less(diff, Finite(0.0))
    ensures c == Orange <==> Greater(diff, Finite(0.0))
    ensures c == Neutral <==> diff.NaN? || diff.r == 0.0
  {
    if Less(diff, Finite(0.0)) then Green
    else if Greater(diff, Finite(0.0)) then Orange
    else Neutral
  }

  /** Swapping the two prices swaps green and orange. */
  lemma ColourSwaps(a: real, b: real)
    ensures ColourFor(Sub(Finite(b), Finite(a))) == Green <==> ColourFor(Sub(Finite(a), Finite(b))) == Orange
    ensures ColourFor(Sub(Finite(b), Finite(a))) == Neutral <==> ColourFor(Sub(Finite(a), Finite(b))) == Neutral
  {
  }

  // --------------------------------------------------------------- replace

  /** The cart line `handleReplace` builds. */
  datatype CartItem = CartItem(
    id: JsValue,
    productId: JsValue,
    name: JsValue,
    price: JsValue,
    image: JsValue,
    quantity: JsValue,
    ecoScore: int,
    carbonScore: JsValue,
    isEcoFriendly: JsValue)

  /** The replacement line: the alternative's id as both ids, the current
      line's quantity (1 when falsy), score 95 for a green alternative and
      80 otherwise, and its emission (0 when falsy) as the carbon score. */
  function ReplacementItem(alternative: JsValue, current: JsValue): (it: CartItem)
    ensures it.id == Prop(alternative, "id") && it.productId == it.id
    ensures it.quantity == (if Truthy(Prop(current, "quantity")) then Prop(current, "quantity") else N(1.0))
    ensures Truthy(it.quantity)
    ensures it.ecoScore == (if Truthy(Prop(alternative, "isGreen")) then 95 else 80)
    ensures it.carbonScore ==
      (if Truthy(Prop(alternative, "emissionPerUnit")) then Prop(alternative, "emissionPerUnit") else N(0.0))
  {
    CartItem(
      id := Prop(alternative, "id"),
      productId := Prop(alternative, "id"),
      name := Or(Prop(alternative, "name"), Prop(alternative, "productName")),
      price := Or(Prop(alternative, "price"), Prop(alternative, "unitPrice")),
      image := Or(Prop(alternative, "imageUrl"), Prop(alternative, "image")),
      quantity := Or(Prop(current, "quantity"), N(1.0)),
      ecoScore := if Truthy(Prop(alternative, "isGreen")) then 95 else 80,
      carbonScore := Or(Prop(alternative, "emissionPerUnit"), N(0.0)),
      isEcoFriendly := Or(Prop(alternative, "isGreen"), Bool(false)))
  }

  /** What a replace click does outside the panel, in order. */
  datatype Effect =
    | RemoveRequest(cartId: JsValue)
    | AddRequest(item: CartItem)
    | CartUpdated
    | Replaced(item: CartItem)
    | Alert(success: bool)

  /** `handleReplace`: nothing without an alternative or a callback.
      Otherwise the current line is removed first (when it has an id), then
      the replacement is added; on success the cart change is announced and
      the callback told; a failed request stops there with the failure alert. */
  function HandleReplace(alternative: JsValue, hasOnReplace: bool, current: JsValue,
                         removeResult: Result<JsValue>, addResult: Result<JsValue>): (effects: seq<Effect>)
    ensures |effects| == 0 <==> !Truthy(alternative) || !hasOnReplace
    ensures |effects| > 0 && Truthy(Prop(current, "id")) ==> effects[0] == RemoveRequest(Prop(current, "id"))
    ensures forall k :: 0 <= k < |effects| && effects[k].RemoveRequest? ==> k == 0 && Truthy(Prop(current, "id"))
    ensures forall k :: 0 <= k < |effects| && effects[k].AddRequest? ==>
      effects[k].item == ReplacementItem(alternative, current)
    ensures CartUpdated in effects <==>
      Truthy(alternative) && hasOnReplace && addResult.Success?
      && (Truthy(Prop(current, "id")) ==> removeResult.Success?)
  {
    if !Truthy(alternative) || !hasOnReplace then []
    else
      var item := ReplacementItem(alternative, current);
      var added :=
        if addResult.Success? then [AddRequest(item), CartUpdated, Replaced(item), Alert(true)]
        else [AddRequest(item), Alert(false)];
      if Truthy(Prop(current, "id")) then
        if removeResult.Success? then [RemoveRequest(Prop(current, "id"))] + added
        else [RemoveRequest(Prop(current, "id")), Alert(false)]
      else added
  }

  /** The replacement is requested only after the old line's removal has
      succeeded (or was not needed), so a failed removal never leaves both
      lines in the cart. */
  lemma AddOnlyAfterRemoval(alternative: JsValue, current: JsValue, removeResult: Result<JsValue>,
                            addResult: Result<JsValue>, k: int)
    requires 0 <= k < |HandleReplace(alternative, true, current, removeResult, addResult)|
    requires HandleReplace(alternative, true, current, removeResult, addResult)[k].AddRequest?
    ensures Truthy(Prop(current, "id")) ==> k == 1 && removeResult.Success?
    ensures !Truthy(Prop(current, "id")) ==> k == 0
  {
  }
}

=== FILE: js_values.dfy ===
/** JavaScript value semantics used by the front end: dynamically typed
    values, truthiness, the `??` and `||` operators, optional property reads,
    `Number(...)` and `String(...)` conversions, strict equality, and the string
    helpers `trim`, `toLowerCase` and `includes`.

    Numbers are exact reals plus NaN; the infinities are not represented.
    Only integer numbers below 10^21 are rendered as text (every other number
    makes a text result `None`). */
module Js {
  import opened Wrappers
  import Sequences

  /** A JavaScript number: a finite value or NaN. */
  datatype Number = Finite(r: real) | NaN

  function Add(a: Number, b: Number): Number {
    if a.Finite? && b.Finite? then Finite(a.r + b.r) else NaN
  }

  function Sub(a: Number, b: Number): Number {
    if a.Finite? && b.Finite? then Finite(a.r - b.r) else NaN
  }

  function Mul(a: Number, b: Number): Number {
    if a.Finite? && b.Finite? then Finite(a.r * b.r) else NaN
  }

  /** `a > b`; every comparison with NaN is false. */
  predicate Greater(a: Number, b: Number) {
    a.Finite? && b.Finite? && a.r > b.r
  }

  /** `a < b`; every comparison with NaN is false. */
  predicate Less(a: Number, b: Number) {
    a.Finite? && b.Finite? && a.r < b.r
  }

  /** `a <= b`; every comparison with NaN is false. */
  predicate LessEq(a: Number, b: Number) {
    a.Finite? && b.Finite? && a.r <= b.r
  }

  datatype JsValue =
    | Undefined
    | Null
    | Bool(b: bool)
    | Num(n: Number)
    | Str(s: string)
    | Arr(items: seq<JsValue>)
    | Obj(fields: map<string, JsValue>)

  /** A finite number literal. */
  function N(r: real): JsValue {
    Num(Finite(r))
  }

  /** `Array.isArray(data) ? data : []`: an array reply is used as-is and
      anything else becomes the empty list. */
  function ArrayOrEmpty(data: JsValue): (items: seq<JsValue>)
    ensures data.Arr? ==> items == data.items
    ensures !data.Arr? ==> items == []
  {
    if data.Arr? then data.items else []
  }

  /** `v === null || v === undefined`, the values `??` and `?.` treat as missing. */
  predicate Nullish(v: JsValue) {
    v.Undefined? || v.Null?
  }

  /** JavaScript truthiness: `undefined`, `null`, `false`, `0`, `NaN` and `""` are falsy. */
  predicate Truthy(v: JsValue) {
    match v
    case Undefined => false
    case Null => false
    case Bool(b) => b
    case Num(n) => n.Finite? && n.r != 0.0
    case Str(s) => s != ""
    case Arr(_) => true
    case Obj(_) => true
  }

  /** `a ?? b` */
  function Coalesce(a: JsValue, b: JsValue): JsValue {
    if Nullish(a) then b else a
  }

  /** `a || b` */
  function Or(a: JsValue, b: JsValue): JsValue {
    if Truthy(a) then a else b
  }

  /** `v?.key`: an own property of an object; `undefined` for every other
      base value (array indices, string length and inherited members are not
      modelled). Where the source writes `v.key`, callers ensure `v` is not
      nullish, since that read would throw. */
  function Prop(v: JsValue, key: string): JsValue {
    match v
    case Obj(fields) => if key in fields then fields[key] else Undefined
    case _ => Undefined
  }

  /** `??` keeps the falsy values `0`, `""`, `false` and `NaN`, where `||`
      replaces them: the difference several normalisers rely on. */
  lemma CoalesceKeepsFalsy(a: JsValue, b: JsValue)
    requires !Nullish(a) && !Truthy(a)
    ensures Coalesce(a, b) == a
    ensures Or(a, b) == b
    ensures a != b ==> Coalesce(a, b) != Or(a, b)
  {
  }

  // ---------------------------------------------------------------- strings

  /** The characters `String.prototype.trim` removes: WhiteSpace and
      LineTerminator of the ECMAScript grammar. */
  predicate IsJsSpace(c: char) {
    var k := c as int;
    k == 0x09 || k == 0x0A || k == 0x0B || k == 0x0C || k == 0x0D || k == 0x20
    || k == 0xA0 || k == 0x1680 || (0x2000 <= k <= 0x200A) || k == 0x2028
    || k == 0x2029 || k == 0x202F || k == 0x205F || k == 0x3000 || k == 0xFEFF
  }

  function TrimStart(s: string): (t: string)
    ensures |t| <= |s| && t == s[|s| - |t|..]
    ensures |t| > 0 ==> !IsJsSpace(t[0])
    ensures forall i :: 0 <= i < |s| - |t| ==> IsJsSpace(s[i])
  {
    if |s| > 0 && IsJsSpace(s[0]) then TrimStart(s[1..]) else s
  }

  function TrimEnd(s: string): (t: string)
    ensures |t| <= |s| && t == s[..|t|]
    ensures |t| > 0 ==> !IsJsSpace(t[|t| - 1])
    ensures forall i :: |t| <= i < |s| ==> IsJsSpace(s[i])
  {
    if |s| > 0 && IsJsSpace(s[|s| - 1]) then TrimEnd(s[..|s| - 1]) else s
  }

  /** `s.trim()`: the text with the white space at both ends removed, and
      nothing else changed. */
  function Trim(s: string): (t: string)
    ensures Sequences.StripOf(t, s, IsJsSpace)
  {
    var a := TrimStart(s);
    var t := TrimEnd(a);
    Sequences.StripFrontBack(s, a, t, IsJsSpace);
    t
  }

  /** `trim` is the only stripping: any slice of `s` that drops nothing but
      white space from its two ends, and keeps none there, is `s.trim()`. */
  lemma TrimUnique(s: string, t: string)
    requires Sequences.StripOf(t, s, IsJsSpace)
    ensures Trim(s) == t
  {
    Sequences.StripUnique(Trim(s), t, s, IsJsSpace);
  }

  /** Text that neither starts nor ends with white space is its own trim. */
  lemma TrimUnpadded(s: string)
    requires |s| > 0 && !IsJsSpace(s[0]) && !IsJsSpace(s[|s| - 1])
    ensures Trim(s) == s
  {
  }

  predicate AllSpace(s: string) {
    forall i :: 0 <= i < |s| ==> IsJsSpace(s[i])
  }

  /** `s.trim()` is empty exactly when every character of `s` is white space. */
  lemma TrimEmptyIffAllSpace(s: string)
    ensures Trim(s) == "" <==> AllSpace(s)
  {
    var a := TrimStart(s);
    if Trim(s) == "" {
      assert |a| == 0;
    } else {
      var t := Trim(s);
      assert !IsJsSpace(t[0]);
      assert t[0] == a[0] == s[|s| - |a|];
    }
  }

  /** ASCII `toLowerCase`. */
  function LowerChar(c: char): char {
    if 'A' <= c <= 'Z' then (c as int + 32) as char else c
  }

  /** `s.toLowerCase()` (upper-case ASCII letters only). */
  function Lower(s: string): (t: string)
    ensures |t| == |s|
    ensures forall i :: 0 <= i < |s| ==> t[i] == LowerChar(s[i])
  {
    if |s| == 0 then "" else [LowerChar(s[0])] + Lower(s[1..])
  }

  /** Lower-casing twice is lower-casing once. */
  lemma LowerIdempotent(s: string)
    ensures Lower(Lower(s)) == Lower(s)
  {
  }

  /** `s.includes(sub)`: `sub` occurs in `s` as a contiguous piece. */
  predicate Includes(s: string, sub: string)
    decreases |s|
  {
    sub <= s || (|s| > 0 && Includes(s[1..], sub))
  }

  lemma IncludesEmpty(s: string)
    ensures Includes(s, "")
  {
  }

  // ------------------------------------------------------------- equality

  /** `a === b`. Objects and arrays compare by reference in JavaScript; the
      model has no references and treats two of them as distinct. */
  predicate StrictEquals(a: JsValue, b: JsValue) {
    match (a, b)
    case (Undefined, Undefined) => true
    case (Null, Null) => true
    case (Bool(x), Bool(y)) => x == y
    case (Num(x), Num(y)) => x.Finite? && y.Finite? && x.r == y.r
    case (Str(x), Str(y)) => x == y
    case _ => false
  }

  // ----------------------------------------------------- decimal integers

  predicate IsDigit(c: char) {
    '0' <= c <= '9'
  }

  predicate AllDigits(s: string) {
    forall i :: 0 <= i < |s| ==> IsDigit(s[i])
  }

  function DigitChar(d: nat): char
    requires d < 10
  {
    ('0' as int + d) as char
  }

  /** The decimal digits of `n`, without leading zeros. */
  function NatDigits(n: nat): (ds: string)
    ensures |ds| > 0 && AllDigits(ds)
    decreases n
  {
    if n < 10 then [DigitChar(n)] else NatDigits(n / 10) + [DigitChar(n % 10)]
  }

  /** The value of a string of decimal digits. */
  function DigitsValue(ds: string): nat
    requires AllDigits(ds)
  {
    if |ds| == 0 then 0
    else DigitsValue(ds[..|ds| - 1]) * 10 + (ds[|ds| - 1] as int - '0' as int)
  }

  /** Rendering an integer in decimal and reading it back gives the integer. */
  lemma {:induction false} DigitsRoundTrip(n: nat)
    ensures DigitsValue(NatDigits(n)) == n
    decreases n
  {
    if n >= 10 {
      var ds := NatDigits(n);
      assert ds[..|ds| - 1] == NatDigits(n / 10);
      DigitsRoundTrip(n / 10);
    }
  }

  /** `String(n)` for an integer of magnitude below 10^21. */
  function IntToString(n: int): string {
    if n < 0 then "-" + NatDigits(-n) else NatDigits(n)
  }

  function Pow10(k: nat): (p: nat)
    ensures p >= 1
  {
    if k == 0 then 1 else 10 * Pow10(k - 1)
  }

  function IndexOf(s: string, c: char): (i: nat)
    ensures i <= |s|
    ensures i < |s| ==> s[i] == c
    ensures forall j :: 0 <= j < i ==> s[j] != c
  {
    if |s| == 0 then 0 else if s[0] == c then 0 else 1 + IndexOf(s[1..], c)
  }

  /** An unsigned decimal literal `digits[.digits]` with at least one digit. */
  function ParseUnsigned(t: string): Number {
    var k := IndexOf(t, '.');
    if k == |t| then
      if |t| > 0 && AllDigits(t) then Finite(DigitsValue(t) as real) else NaN
    else
      var ip := t[..k];
      var fp := t[k + 1..];
      if AllDigits(ip) && AllDigits(fp) && |ip| + |fp| > 0
      then Finite(DigitsValue(ip) as real + DigitsValue(fp) as real / Pow10(|fp|) as real)
      else NaN
  }

  function Negate(a: Number): Number {
    if a.Finite? then Finite(-a.r) else NaN
  }

  /** The position of the first exponent mark `e` or `E`, or `|t|`. */
  function ExponentIndex(t: string): (i: nat)
    ensures i <= |t|
    ensures i < |t| ==> t[i] == 'e' || t[i] == 'E'
    ensures forall j :: 0 <= j < i ==> t[j] != 'e' && t[j] != 'E'
  {
    if |t| == 0 then 0 else if t[0] == 'e' || t[0] == 'E' then 0 else 1 + ExponentIndex(t[1..])
  }

  /** `r × 10^x` for a whole exponent of either sign, one power at a time. */
  function Scale(r: real, x: int): real
    decreases if x >= 0 then x else -x
  {
    if x == 0 then r else if x > 0 then Scale(r * 10.0, x - 1) else Scale(r / 10.0, x + 1)
  }

  /** An unsigned decimal literal with an optional exponent
      `e[+|-]digits` (either case of `e`). */
  function ParseDecimal(t: string): Number {
    var e := ExponentIndex(t);
    var m := ParseUnsigned(t[..e]);
    if e == |t| then m
    else
      var x := t[e + 1..];
      var ds := if |x| > 0 && (x[0] == '+' || x[0] == '-') then x[1..] else x;
      if m.Finite? && |ds| > 0 && AllDigits(ds)
      then var n: int := DigitsValue(ds); Finite(Scale(m.r, if x[0] == '-' then -n else n))
      else NaN
  }

  /** The base a `0x`, `0o` or `0b` prefix (either case) names, or 0. */
  function RadixOf(t: string): nat {
    if |t| < 2 || t[0] != '0' then 0
    else if t[1] == 'x' || t[1] == 'X' then 16
    else if t[1] == 'o' || t[1] == 'O' then 8
    else if t[1] == 'b' || t[1] == 'B' then 2
    else 0
  }

  /** The value of a hexadecimal digit of either case; 16 for any other character. */
  function HexValue(c: char): (d: nat)
    ensures d <= 16
  {
    if '0' <= c <= '9' then c as int - '0' as int
    else if 'a' <= c <= 'f' then c as int - 'a' as int + 10
    else if 'A' <= c <= 'F' then c as int - 'A' as int + 10
    else 16
  }

  predicate RadixDigits(ds: string, base: nat) {
    forall i :: 0 <= i < |ds| ==> HexValue(ds[i]) < base
  }

  /** The value of a string of digits in `base`. */
  function RadixValue(ds: string, base: nat): nat
    requires RadixDigits(ds, base)
  {
    if |ds| == 0 then 0
    else RadixValue(ds[..|ds| - 1], base) * base + HexValue(ds[|ds| - 1])
  }

  /** The digits after a radix prefix: at least one, all below the base. */
  function ParseRadix(ds: string, base: nat): Number {
    if |ds| > 0 && RadixDigits(ds, base) then Finite(RadixValue(ds, base) as real) else NaN
  }

  /** `Number(s)` for a string, as StringToNumber (section 7.1.4.1.1 of
      ECMA-262) reads it: white space around the literal is ignored and the
      empty string is 0; a `0x`, `0o` or `0b` literal reads in its base and
      takes no sign; otherwise a signed decimal literal with an optional
      exponent. "Infinity" and overflow to it are not modelled ("Infinity"
      reads as NaN here), nor is rounding to double precision. */
  function ParseNumeric(s: string): Number {
    var t := Trim(s);
    if t == "" then Finite(0.0)
    else if RadixOf(t) > 0 then ParseRadix(t[2..], RadixOf(t))
    else
      var d := ParseDecimal(if t[0] == '-' || t[0] == '+' then t[1..] else t);
      if t[0] == '-' then Negate(d) else d
  }

  lemma TrimDigits(ds: string)
    requires |ds| > 0 && AllDigits(ds)
    ensures Trim(ds) == ds
  {
    assert !IsJsSpace(ds[0]);
    assert !IsJsSpace(ds[|ds| - 1]);
  }

  lemma ParseUnsignedDigits(ds: string)
    requires |ds| > 0 && AllDigits(ds)
    ensures ParseUnsigned(ds) == Finite(DigitsValue(ds) as real)
    ensures ParseDecimal(ds) == Finite(DigitsValue(ds) as real)
  {
    var k := IndexOf(ds, '.');
    assert k == |ds| by {
      assert forall i :: 0 <= i < |ds| ==> ds[i] != '.';
    }
    assert ExponentIndex(ds) == |ds| by {
      assert forall i :: 0 <= i < |ds| ==> ds[i] != 'e' && ds[i] != 'E';
    }
    assert ds[..|ds|] == ds;
  }

  lemma TrimNegative(ds: string)
    requires |ds| > 0 && AllDigits(ds)
    ensures Trim("-" + ds) == "-" + ds
  {
    var s := "-" + ds;
    assert TrimStart(s) == s;
    assert s[|s| - 1] == ds[|ds| - 1];
  }

  lemma ParseNegative(ds: string)
    requires |ds| > 0 && AllDigits(ds)
    ensures ParseNumeric("-" + ds) == Finite(-(DigitsValue(ds) as real))
  {
    var s := "-" + ds;
    TrimNegative(ds);
    assert Trim(s) == s;
    assert s != "" && s[0] == '-' && RadixOf(s) == 0;
    assert s[1..] == ds;
    NegativeBranch(s);
    ParseUnsignedDigits(ds);
  }

  lemma ParseDigits(ds: string)
    requires |ds| > 0 && AllDigits(ds)
    ensures ParseNumeric(ds) == Finite(DigitsValue(ds) as real)
  {
    TrimDigits(ds);
    assert RadixOf(ds) == 0 by {
      if |ds| >= 2 { assert IsDigit(ds[1]); }
    }
    assert IsDigit(ds[0]);
    DecimalBranch(ds);
    ParseUnsignedDigits(ds);
  }

  /** `Number("DDDeEE")`: a decimal integer, `e` at position `k`, and a
      non-negative exponent read as the integer scaled by that power of ten
      (ScalePow: the scaling is multiplication by 10^EE). */
  lemma ParseExponent(t: string, k: nat)
    requires 0 < k < |t| - 1 && t[k] == 'e' && AllDigits(t[..k]) && AllDigits(t[k + 1..])
    ensures ParseNumeric(t) == Finite(Scale(DigitsValue(t[..k]) as real, DigitsValue(t[k + 1..])))
  {
    ExponentTextIsDecimal(t, k);
    DecimalWithExponent(t, k);
  }

  lemma ExponentTextIsDecimal(t: string, k: nat)
    requires 0 < k < |t| - 1 && t[k] == 'e' && AllDigits(t[..k]) && AllDigits(t[k + 1..])
    ensures ParseNumeric(t) == ParseDecimal(t)
  {
    assert t[0] == t[..k][0] && t[|t| - 1] == t[k + 1..][|t| - k - 2];
    TrimUnpadded(t);
    assert RadixOf(t) == 0 by {
      if k >= 2 { assert t[1] == t[..k][1]; }
    }
    DecimalBranch(t);
  }

  lemma DecimalWithExponent(t: string, k: nat)
    requires 0 < k < |t| - 1 && t[k] == 'e' && AllDigits(t[..k]) && AllDigits(t[k + 1..])
    ensures ParseDecimal(t) == Finite(Scale(DigitsValue(t[..k]) as real, DigitsValue(t[k + 1..])))
  {
    assert forall j :: 0 <= j < k ==> t[j] == t[..k][j] && IsDigit(t[j]);
    assert ExponentIndex(t) == k;
    ParseUnsignedDigits(t[..k]);
    assert IsDigit(t[k + 1..][0]);
  }

  /** Untrimmable unsigned text without a radix prefix takes the decimal branch. */
  lemma DecimalBranch(t: string)
    requires Trim(t) == t && t != "" && RadixOf(t) == 0 && t[0] != '-' && t[0] != '+'
    ensures ParseNumeric(t) == ParseDecimal(t)
  {
  }

  /** Scaling by a non-negative exponent multiplies by that power of ten. */
  lemma {:induction false} ScalePow(r: real, n: nat)
    ensures Scale(r, n) == r * Pow10(n) as real
    decreases n
  {
    if n > 0 {
      ScalePow(r * 10.0, n - 1);
    }
  }

  /** `Number("0xHH")`, `Number("0oOO")`, `Number("0bBB")`: the digits after
      the prefix read in its base. */
  lemma ParseRadixLiteral(t: string)
    requires RadixOf(t) > 0 && |t| > 2 && RadixDigits(t[2..], RadixOf(t))
    ensures ParseNumeric(t) == Finite(RadixValue(t[2..], RadixOf(t)) as real)
  {
    assert t[|t| - 1] == t[2..][|t| - 3];
    assert HexValue(t[|t| - 1]) < 16;
    TrimUnpadded(t);
    RadixBranch(t);
  }

  /** Untrimmable text with a radix prefix takes the radix branch. */
  lemma RadixBranch(t: string)
    requires Trim(t) == t && RadixOf(t) > 0
    ensures ParseNumeric(t) == ParseRadix(t[2..], RadixOf(t))
  {
  }

  /** `Number("1e3")` is 1000. */
  lemma ExponentLiteral()
    ensures ParseNumeric("1e3") == Finite(1000.0)
  {
    ExponentLiteralScaled();
    assert Scale(1.0, 3) == 1000.0;
  }

  lemma ExponentLiteralScaled()
    ensures ParseNumeric("1e3") == Finite(Scale(1.0, 3))
  {
    ThousandParts();
    ParseExponent("1e3", 1);
  }

  lemma ThousandParts()
    ensures "1e3"[1] == 'e' && AllDigits("1e3"[..1]) && AllDigits("1e3"[2..])
    ensures DigitsValue("1e3"[..1]) == 1 && DigitsValue("1e3"[2..]) == 3
  {
    var t := "1e3";
    assert t[..1] == ['1'] && t[2..] == ['3'];
    assert DigitsValue(['1']) == 1 by { assert ['1'][..0] == []; }
    assert DigitsValue(['3']) == 3 by { assert ['3'][..0] == []; }
  }

  /** `Number("0x10")` is 16. */
  lemma HexLiteral()
    ensures ParseNumeric("0x10") == Finite(16.0)
  {
    var t := "0x10";
    assert RadixOf(t) == 16;
    var ds := t[2..];
    assert ds == ['1', '0'];
    assert RadixValue(ds, 16) == 16 by {
      assert ds[..1] == ['1'] && ['1'][..0] == [];
      assert RadixValue(['1'], 16) == 1;
      assert HexValue(ds[1]) == 0;
    }
    ParseRadixLiteral(t);
  }

  /** `Number("0o7")` is 7. */
  lemma OctalLiteral()
    ensures ParseNumeric("0o7") == Finite(7.0)
  {
    var t := "0o7";
    assert RadixOf(t) == 8;
    var ds := t[2..];
    assert ds == ['7'];
    assert RadixValue(ds, 8) == 7 by {
      assert ds[..0] == [];
    }
    ParseRadixLiteral(t);
  }

  /** `Number("0b1")` is 1. */
  lemma BinaryLiteral()
    ensures ParseNumeric("0b1") == Finite(1.0)
  {
    var t := "0b1";
    assert RadixOf(t) == 2;
    var ds := t[2..];
    assert ds == ['1'];
    assert RadixValue(ds, 2) == 1 by {
      assert ds[..0] == [];
    }
    ParseRadixLiteral(t);
  }

  /** `Number("-0x10")` is NaN: a radix literal takes no sign. */
  lemma SignedHexIsNaN()
    ensures ParseNumeric("-0x10") == NaN
  {
    var t := "-0x10";
    assert ParseNumeric(t) == Negate(ParseDecimal(t[1..])) by {
      TrimUnpadded(t);
      assert RadixOf(t) == 0;
      NegativeBranch(t);
    }
    assert ParseDecimal(t[1..]) == NaN by {
      assert t[1..] == "0x10";
      HexNotDecimal();
    }
  }

  lemma HexNotDecimal()
    ensures ParseDecimal("0x10") == NaN
  {
    var u := "0x10";
    assert ExponentIndex(u) == 4 by {
      assert forall j :: 0 <= j < 4 ==> u[j] != 'e' && u[j] != 'E';
    }
    assert IndexOf(u, '.') == 4 by {
      assert forall j :: 0 <= j < 4 ==> u[j] != '.';
    }
    assert !IsDigit(u[1]);
  }

  /** Untrimmable text with a leading minus and no radix prefix is a negated decimal. */
  lemma NegativeBranch(t: string)
    requires Trim(t) == t && t != "" && RadixOf(t) == 0 && t[0] == '-'
    ensures ParseNumeric(t) == Negate(ParseDecimal(t[1..]))
  {
  }

  /** `Number(String(n)) === n` for integers: the string form of an id or a
      quantity reads back as the same number. */
  lemma ParseIntToString(n: int)
    ensures ParseNumeric(IntToString(n)) == Finite(n as real)
  {
    var m: nat := if n < 0 then -n else n;
    DigitsRoundTrip(m);
    if n < 0 {
      assert IntToString(n) == "-" + NatDigits(m);
      ParseNegative(NatDigits(m));
    } else {
      assert IntToString(n) == NatDigits(m);
      ParseDigits(NatDigits(m));
    }
  }

  // ----------------------------------------------------------- conversions

  /** `Number(v)`. An object reads as NaN; an array reads through its
      string form, so `[]` is 0 and `[x]` reads as `x` does. */
  function ToNumber(v: JsValue): Number
    decreases v
  {
    match v
    case Undefined => NaN
    case Null => Finite(0.0)
    case Bool(b) => if b then Finite(1.0) else Finite(0.0)
    case Num(n) => n
    case Str(s) => ParseNumeric(s)
    case Obj(_) => NaN
    case Arr(items) =>
      if |items| == 0 then Finite(0.0)
      else if |items| > 1 then NaN
      else match items[0]
        case Undefined => Finite(0.0)
        case Null => Finite(0.0)
        case Bool(_) => NaN
        case _ => ToNumber(items[0])
  }

  /** `typeof v === 'number'` (NaN included). */
  predicate IsNumberType(v: JsValue) {
    v.Num?
  }

  /** `String(v)` and template-literal interpolation; `None` where the text
      is not modelled (a number that is not an integer below 10^21). */
  function ToText(v: JsValue): Option<string>
    decreases v, 1
  {
    match v
    case Undefined => Some("undefined")
    case Null => Some("null")
    case Bool(b) => Some(if b then "true" else "false")
    case Num(n) =>
      if n.NaN? then Some("NaN")
      else if n.r == n.r.Floor as real && -1000000000000000000000.0 < n.r < 1000000000000000000000.0
      then Some(IntToString(n.r.Floor))
      else None
    case Str(s) => Some(s)
    case Obj(_) => Some("[object Object]")
    case Arr(items) => JoinTexts(items)
  }

  /** `items.join(",")` where nullish elements contribute "". */
  function JoinTexts(items: seq<JsValue>): Option<string>
    decreases items, 0
  {
    if |items| == 0 then Some("")
    else
      var head := if Nullish(items[0]) then Some("") else ToText(items[0]);
      if |items| == 1 then head
      else match (head, JoinTexts(items[1..]))
        case (Some(h), Some(t)) => Some(h + "," + t)
        case _ => None
  }

  /** The numeric comparison `v > k` against a number literal. */
  predicate GreaterThan(v: JsValue, k: real) {
    Greater(ToNumber(v), Finite(k))
  }

  /** The numeric comparison `v < k` against a number literal. */
  predicate LessThan(v: JsValue, k: real) {
    Less(ToNumber(v), Finite(k))
  }

  // ------------------------------------------------------------------ sums

  /** The running value of `acc + term` in a `reduce` that starts at 0: a
      number while every term is a number, boolean or nullish; once a term is a
      string, array or object, `+` concatenates and the total becomes a string
      whose text the model does not track. */
  datatype Sum = Numeric(n: Number) | Concatenated

  function Plus(acc: Sum, term: JsValue): Sum {
    match acc
    case Concatenated => Concatenated
    case Numeric(a) =>
      match term
      case Str(_) => Concatenated
      case Arr(_) => Concatenated
      case Obj(_) => Concatenated
      case _ => Numeric(Add(a, ToNumber(term)))
  }

  /** `items.reduce((acc, item) => acc + (item?.[field] || 0), 0)`, a left fold. */
  function SumOrZero(items: seq<JsValue>, field: string): Sum
    decreases |items|
  {
    if |items| == 0 then Numeric(Finite(0.0))
    else Plus(SumOrZero(items[..|items| - 1], field), Or(Prop(items[|items| - 1], field), N(0.0)))
  }

  /** A term that adds as a number: falsy (counted as 0), a number or a boolean. */
  predicate AddsAsNumber(v: JsValue) {
    !Truthy(v) || v.Num? || v.Bool?
  }

  /** What a term adds: a truthy number itself, `true` 1, anything falsy 0. */
  function ValueOrZero(v: JsValue): real {
    if !Truthy(v) then 0.0
    else match v
      case Num(n) => n.r
      case Bool(_) => 1.0
      case _ => 0.0
  }

  /** Reference definition: the sum of the fields' values, falsy ones as 0. */
  function TotalOrZero(items: seq<JsValue>, field: string): real
    decreases |items|
  {
    if |items| == 0 then 0.0
    else TotalOrZero(items[..|items| - 1], field) + ValueOrZero(Prop(items[|items| - 1], field))
  }

  /** While every field adds as a number, the fold is the plain sum with
      missing or falsy values as 0; it is never NaN. */
  lemma {:induction false} SumOrZeroIsTotal(items: seq<JsValue>, field: string)
    requires forall i :: 0 <= i < |items| ==> AddsAsNumber(Prop(items[i], field))
    ensures SumOrZero(items, field) == Numeric(Finite(TotalOrZero(items, field)))
    decreases |items|
  {
    if |items| > 0 {
      var init := items[..|items| - 1];
      assert forall i :: 0 <= i < |init| ==> init[i] == items[i];
      SumOrZeroIsTotal(init, field);
      assert AddsAsNumber(Prop(items[|items| - 1], field));
    }
  }

  /** One truthy text value turns the fold into string concatenation. */
  lemma {:induction false} TextTermConcatenates(items: seq<JsValue>, field: string, k: int)
    requires 0 <= k < |items|
    requires Prop(items[k], field).Str? && Truthy(Prop(items[k], field))
    ensures SumOrZero(items, field) == Concatenated
    decreases |items|
  {
    if k < |items| - 1 {
      TextTermConcatenates(items[..|items| - 1], field, k);
    }
  }
}

=== FILE: login.dfy ===
/** The sign-in form (frontend/src/components/auth/Login.jsx): its
    validation schema, what a submission stores, and where it redirects.

    `authAPI.login` is not part of this model: its reply is an input. The
    reply's token and role are taken to be strings (the source stores the
    token with `setItem` and lowercases the role). The success callback and
    the 1.5-second redirect delay are left to the caller. */
module Login {
  import opened Wrappers
  import opened Js
  import opened Browser
  import Navbar
  import ProtectedRoute
  import AppRoutes

  /** `loginSchema`: each field is a required string. */
  function ValidateLogin(username: string, password: string): (errors: seq<string>)
    ensures |errors| == 0 <==> username != "" && password != ""
    ensures "Username is required" in errors <==> username == ""
    ensures "Password is required" in errors <==> password == ""
  {
    (if username == "" then ["Username is required"] else [])
    + (if password == "" then ["Password is required"] else [])
  }

  /** The fields of a successful login reply the form reads. */
  datatype LoginData = LoginData(
    token: string,
    userId: JsValue,
    username: JsValue,
    role: string,
    firstName: JsValue,
    lastName: JsValue,
    email: JsValue)

  /** The login call's outcome: the reply's data, or the rejection with
      `err.response?.data?.message` (`undefined` when absent). */
  datatype LoginReply = Accepted(data: LoginData) | Rejected(message: JsValue)

  /** The form's `error`, `success` and `isLoading` state. */
  datatype LoginView = LoginView(error: JsValue, success: string, isLoading: bool)

  /** After a submission: the view, local storage, and the redirect target. */
  datatype SubmitOutcome = SubmitOutcome(view: LoginView, local: Store, redirect: Option<string>)

  const DefaultLoginError: string := "Login failed. Please check your credentials."

  /** The user record stored under `user`: exactly these six fields. */
  function UserRecord(d: LoginData): (u: JsValue)
    ensures u.Obj? && u.fields.Keys == {"userId", "username", "role", "firstName", "lastName", "email"}
    ensures Prop(u, "userId") == d.userId && Prop(u, "role") == Str(d.role)
  {
    Obj(map["userId" := d.userId, "username" := d.username, "role" := Str(d.role),
            "firstName" := d.firstName, "lastName" := d.lastName, "email" := d.email])
  }

  /** The post-login page: the marketplace for customers, otherwise the
      dashboard named after the lowercased role. */
  function RoleTarget(role: string): (path: string)
    ensures Lower(role) == "customer" ==> path == "/products"
    ensures Lower(role) != "customer" ==> path == "/" + Lower(role) + "/dashboard"
  {
    var r := Lower(role);
    if r == "customer" then "/products" else "/" + r + "/dashboard"
  }

  /** `onSubmit`: both messages are cleared first; a success stores the
      token and user record and schedules the redirect; a failure shows the
      server's message, or the default when that is falsy, and stores nothing. */
  function OnSubmit(before: LoginView, reply: LoginReply, local: Store, json: JsonCodec): (o: SubmitOutcome)
    ensures !o.view.isLoading
    ensures reply.Accepted? ==>
      o.view == LoginView(Str(""), "Login successful! Redirecting...", false)
      && o.local == local["token" := reply.data.token]["user" := json.stringify(UserRecord(reply.data))]
      && o.redirect == Some(RoleTarget(reply.data.role))
    ensures reply.Rejected? ==>
      o.view == LoginView(Or(reply.message, Str(DefaultLoginError)), "", false)
      && o.local == local && o.redirect.None?
  {
    var cleared := LoginView(Str(""), "", true);
    match reply
    case Accepted(d) =>
      var stored := SetItem(SetItem(local, "token", d.token), "user", json.stringify(UserRecord(d)));
      SubmitOutcome(cleared.(success := "Login successful! Redirecting...", isLoading := false), stored,
                    Some(RoleTarget(d.role)))
    case Rejected(message) =>
      SubmitOutcome(cleared.(error := Or(message, Str(DefaultLoginError)), isLoading := false), local, None)
  }

  /** A rejected sign-in always shows some message. */
  lemma RejectionShowsMessage(before: LoginView, message: JsValue, local: Store, json: JsonCodec)
    ensures Truthy(OnSubmit(before, Rejected(message), local, json).view.error)
  {
  }

  /** The codec reads back what it wrote for this record. */
  predicate RoundTrips(json: JsonCodec, v: JsValue) {
    json.parse(json.stringify(v)) == Some(v)
  }

  /** After a successful sign-in with a non-empty token the navigation bar
      resolves the session to the stored record, and the route guard admits
      the user when the record's id is truthy. */
  lemma SignInIsSeenByNavbarAndGuard(before: LoginView, d: LoginData, local: Store, json: JsonCodec)
    requires d.token != "" && RoundTrips(json, UserRecord(d))
    requires json.stringify(UserRecord(d)) != ""
    ensures var local' := OnSubmit(before, Accepted(d), local, json).local;
      Navbar.CheckAuth(local', json) == (Navbar.AuthState(true, UserRecord(d)), local')
      && (Truthy(d.userId) ==> ProtectedRoute.Admitted(false, local', json))
  {
    var local' := OnSubmit(before, Accepted(d), local, json).local;
    assert local'["token"] == d.token;
    assert local'["user"] == json.stringify(UserRecord(d));
  }

  /** An ADMIN sign-in lands on the dashboard the route table renders for that role. */
  lemma AdminRedirectMatchesRouteTable()
    ensures RoleTarget("ADMIN") == "/admin/dashboard"
    ensures AppRoutes.Route(RoleTarget("ADMIN"), AppRoutes.AppState(true, Str("ADMIN"), false))
            == AppRoutes.Render(AppRoutes.AdminDashboardPage, false)
  {
    assert Lower("ADMIN") == "admin";
    assert RoleTarget("ADMIN") == "/admin/dashboard";
  }

  /** A SELLER sign-in lands on the seller dashboard the route table renders. */
  lemma SellerRedirectMatchesRouteTable()
    ensures RoleTarget("SELLER") == "/seller/dashboard"
    ensures AppRoutes.Route(RoleTarget("SELLER"), AppRoutes.AppState(true, Str("SELLER"), false))
            == AppRoutes.Render(AppRoutes.SellerDashboardPage, false)
  {
    assert Lower("SELLER") == "seller";
    assert RoleTarget("SELLER") == "/seller/dashboard";
  }

  /** A CUSTOMER sign-in lands on the guarded marketplace. */
  lemma CustomerRedirectMatchesRouteTable()
    ensures RoleTarget("CUSTOMER") == "/products"
    ensures AppRoutes.Route(RoleTarget("CUSTOMER"), AppRoutes.AppState(true, Str("CUSTOMER"), false))
            == AppRoutes.Render(AppRoutes.ProductsPage, true)
  {
    assert Lower("CUSTOMER") == "customer";
    assert RoleTarget("CUSTOMER") == "/products";
  }
}

=== FILE: navbar.dfy ===
/** The navigation bar's session resolver, first-visit wipe, cart badge and
    link visibility (frontend/src/components/layout/Navbar.jsx). */
module Navbar {
  import opened Wrappers
  import opened Js
  import opened Browser

  /** The bar's `isAuthenticated` and `user` state. */
  datatype AuthState = AuthState(isAuthenticated: bool, user: JsValue)

  const SignedOut: AuthState := AuthState(false, Null)

  /** Both `token` and `user` are stored (truthy) and the user record parses. */
  predicate HasSession(local: Store, json: JsonCodec) {
    Stored(local, "token").Some? && Stored(local, "user").Some?
    && json.parse(Stored(local, "user").value).Some?
  }

  /** `checkAuth`: resolve the session from local storage. Returns the new
      state and the new local store. */
  function CheckAuth(local: Store, json: JsonCodec): (r: (AuthState, Store))
    ensures r.0.isAuthenticated <==> HasSession(local, json)
    ensures r.0.isAuthenticated ==>
      r.1 == local && json.parse(local["user"]) == Some(r.0.user)
    ensures !r.0.isAuthenticated ==> r.0 == SignedOut
    // only a present but unparsable user record clears storage
    ensures Stored(local, "token").Some? && Stored(local, "user").Some? && !HasSession(local, json)
      ==> r.1 == local - {"token", "user"}
    ensures Stored(local, "token").None? || Stored(local, "user").None? ==> r.1 == local
  {
    match (Stored(local, "token"), Stored(local, "user"))
    case (Some(_), Some(userData)) =>
      (match json.parse(userData)
       case Some(u) => (AuthState(true, u), local)
       case None => (SignedOut, RemoveItem(RemoveItem(local, "token"), "user")))
    case _ => (SignedOut, local)
  }

  /** Resolving twice gives the same state and store as resolving once: the
      wipe after a corrupt record leaves nothing for a second pass to change. */
  lemma CheckAuthIdempotent(local: Store, json: JsonCodec)
    ensures CheckAuth(CheckAuth(local, json).1, json) == CheckAuth(local, json)
  {
    var r := CheckAuth(local, json);
    if !r.0.isAuthenticated && r.1 != local {
      assert Stored(r.1, "token").None?;
    }
  }

  /** The mount effect: on the first load of a tab (no `hasVisited` marker in
      session storage) the stored credentials are wiped and the marker set;
      on later loads the session is resolved with `checkAuth`. Returns the
      state, the local store and the session store. */
  function Mount(local: Store, session: Store, json: JsonCodec): (r: (AuthState, Store, Store))
    ensures Stored(session, "hasVisited").None? ==>
      r.0 == SignedOut && r.1 == local - {"token", "user"}
      && r.2 == session["hasVisited" := "true"]
    ensures Stored(session, "hasVisited").Some? ==>
      (r.0, r.1) == CheckAuth(local, json) && r.2 == session
  {
    if Stored(session, "hasVisited").None? then
      (SignedOut, RemoveItem(RemoveItem(local, "token"), "user"), SetItem(session, "hasVisited", "true"))
    else
      var (state, local') := CheckAuth(local, json);
      (state, local', session)
  }

  /** After a first load, nothing stored before it can authenticate: a
      `storage` event that re-runs `checkAuth` still yields signed-out, and a
      second mount in the same tab resolves normally. */
  lemma FirstVisitForgetsCredentials(local: Store, session: Store, json: JsonCodec)
    requires Stored(session, "hasVisited").None?
    ensures var (state, local', session') := Mount(local, session, json);
      state == SignedOut
      && CheckAuth(local', json).0 == SignedOut
      && Stored(session', "hasVisited").Some?
      && Mount(local', session', json) == (SignedOut, local', session')
  {
    var (state, local', session') := Mount(local, session, json);
    assert Stored(local', "token").None?;
    assert Stored(session', "hasVisited") == Some("true");
  }

  // -------------------------------------------------------------- cart badge

  /** `loadCart`: the badge count from the stored cart, the sum of the items'
      quantities (`Js.SumOrZero`). An absent or empty `cart` key reads as the
      text "[]"; text that does not parse, or parses to something other than
      an array, gives 0 (the exception is caught). */
  function LoadCartCount(local: Store, json: JsonCodec): (c: Sum)
    ensures (match json.parse(Stored(local, "cart").GetOr("[]"))
             case Some(Arr(items)) =>
               (forall i :: 0 <= i < |items| ==> AddsAsNumber(Prop(items[i], "quantity"))) ==>
                 c == Numeric(Finite(TotalOrZero(items, "quantity")))
             case _ => c == Numeric(Finite(0.0)))
  {
    match json.parse(Stored(local, "cart").GetOr("[]"))
    case Some(Arr(items)) =>
      if forall i :: 0 <= i < |items| ==> AddsAsNumber(Prop(items[i], "quantity")) then
        SumOrZeroIsTotal(items, "quantity");
        SumOrZero(items, "quantity")
      else SumOrZero(items, "quantity")
    case _ => Numeric(Finite(0.0))
  }

  /** The codec reads "[]" as the empty array, as `JSON.parse` does. */
  predicate ReadsEmptyArray(json: JsonCodec) {
    json.parse("[]") == Some(Arr([]))
  }

  /** With no `cart` key the badge count is 0. */
  lemma AbsentCartCountsZero(local: Store, json: JsonCodec)
    requires "cart" !in local && ReadsEmptyArray(json)
    ensures LoadCartCount(local, json) == Numeric(Finite(0.0))
  {
  }

  /** `cartCount > 0`; `None` when the count became a string, whose
      comparison depends on text the model does not track. */
  function BadgeVisible(count: Sum): (o: Option<bool>)
    ensures count.Numeric? <==> o.Some?
    ensures count.Numeric? && count.n.Finite? ==> o == Some(count.n.r > 0.0)
    ensures count == Numeric(NaN) ==> o == Some(false)
  {
    match count
    case Numeric(n) => Some(Greater(n, Finite(0.0)))
    case Concatenated => None
  }

  datatype NavLink = HomeLink | MarketplaceLink | AboutLink | OrdersLink | SmartCartLink | ProfileLink | SignInLink

  /** The links the bar renders (desktop and mobile menus agree). */
  function VisibleLinks(isAuthenticated: bool): (links: set<NavLink>)
    ensures HomeLink in links && AboutLink in links
    ensures MarketplaceLink in links <==> isAuthenticated
    ensures OrdersLink in links <==> isAuthenticated
    ensures SmartCartLink in links <==> isAuthenticated
    ensures ProfileLink in links <==> isAuthenticated
    ensures SignInLink in links <==> !isAuthenticated
  {
    if isAuthenticated then {HomeLink, MarketplaceLink, AboutLink, OrdersLink, SmartCartLink, ProfileLink}
    else {HomeLink, AboutLink, SignInLink}
  }

  /** The count badge sits inside the Smart Cart link: it shows only when
      signed in and the count is above zero. */
  function BadgeShown(isAuthenticated: bool, count: Sum): (o: Option<bool>)
    ensures !isAuthenticated ==> o == Some(false)
    ensures isAuthenticated ==> o == BadgeVisible(count)
    ensures o == Some(true) ==> SmartCartLink in VisibleLinks(isAuthenticated)
  {
    if isAuthenticated then BadgeVisible(count) else Some(false)
  }
}

=== FILE: order_repository.dfy ===
/** The order repository's derived and JPQL queries
    (ecobazaarbackend/.../repository/OrderRepository.java) as functions over
    the order table. Every order item belongs to exactly one order, so the
    order-item table is the concatenation of the orders' item lists.

    A JPQL inner join yields one row per matching (order, item) pair; the
    aggregates over such a join therefore see an order once per matching
    item. `SUM` is SQL's: `None` (null) when no non-null value is summed. */
module OrderRepository {
  import opened Wrappers
  import opened Domain
  import opened Sequences

  // --------------------------------------------------------- plain queries

  /** `findByUserId` */
  function FindByUserId(orders: seq<Order>, userId: int): (r: seq<Order>)
    ensures SubsequenceOf(r, orders)
    ensures forall k :: 0 <= k < |r| ==> r[k].user.id == userId
    ensures forall k :: 0 <= k < |orders| && orders[k].user.id == userId ==> orders[k] in r
  {
    Filter(orders, (o: Order) => o.user.id == userId)
  }

  /** `findByStatus` */
  function FindByStatus(orders: seq<Order>, status: string): (r: seq<Order>)
    ensures SubsequenceOf(r, orders)
    ensures forall k :: 0 <= k < |r| ==> r[k].status == status
    ensures forall k :: 0 <= k < |orders| && orders[k].status == status ==> orders[k] in r
  {
    Filter(orders, (o: Order) => o.status == status)
  }

  function CreatedAt(o: Order): int {
    o.createdAt
  }

  /** `findAllOrderByCreatedAtDesc`: every order exactly once, newest first. */
  function FindAllOrderByCreatedAtDesc(orders: seq<Order>): (r: seq<Order>)
    ensures multiset(r) == multiset(orders)
    ensures forall i, j :: 0 <= i < j < |r| ==> r[i].createdAt >= r[j].createdAt
  {
    var r := SortDesc(orders, CreatedAt);
    assert SortedDesc(r, CreatedAt);
    r
  }

  /** `findByUserOrderByCreatedAtDesc`: the user's orders, newest first. */
  function FindByUserOrderByCreatedAtDesc(orders: seq<Order>, user: User): (r: seq<Order>)
    ensures multiset(r) == multiset(FindByUserId(orders, user.id))
    ensures forall i, j :: 0 <= i < j < |r| ==> r[i].createdAt >= r[j].createdAt
    ensures forall k :: 0 <= k < |r| ==> r[k].user.id == user.id
  {
    var mine := FindByUserId(orders, user.id);
    var r := FindAllOrderByCreatedAtDesc(mine);
    assert forall k :: 0 <= k < |r| ==> r[k] in multiset(mine);
    r
  }

  // ------------------------------------------------------- per-user aggregates

  /** `countOrdersByUserId` */
  function CountOrdersByUserId(orders: seq<Order>, userId: int): (n: nat)
    ensures n == |FindByUserId(orders, userId)|
  {
    FilterLength(orders, (o: Order) => o.user.id == userId);
    Count(orders, (o: Order) => o.user.id == userId)
  }

  /** The `totalPrice` column of a list of rows. */
  function Totals(rows: seq<Order>): (t: seq<Option<real>>)
    ensures |t| == |rows|
    ensures forall k :: 0 <= k < |rows| ==> t[k] == rows[k].totalPrice
    decreases |rows|
  {
    if |rows| == 0 then [] else Totals(rows[..|rows| - 1]) + [rows[|rows| - 1].totalPrice]
  }

  /** `sumTotalRevenue`: `SUM(totalPrice)` over every order. */
  function SumTotalRevenue(orders: seq<Order>): (s: Option<real>)
    ensures s.None? <==> forall k :: 0 <= k < |orders| ==> orders[k].totalPrice.None?
    ensures s.GetOr(0.0) == PresentTotal(Totals(orders))
  {
    SqlSumOrZero(Totals(orders));
    SqlSum(Totals(orders))
  }

  /** `sumTotalSpentByUserId`: `SUM(totalPrice)` over the user's orders. */
  function SumTotalSpentByUserId(orders: seq<Order>, userId: int): (s: Option<real>)
    ensures s.None? <==> forall k :: 0 <= k < |orders| && orders[k].user.id == userId ==> orders[k].totalPrice.None?
  {
    var mine := FindByUserId(orders, userId);
    assert forall k :: 0 <= k < |mine| ==> mine[k] in orders;
    SumTotalRevenue(mine)
  }

  /** The revenue sum reads only `totalPrice`: orders that differ in status,
      user, date or items but carry the same totals sum the same. */
  lemma RevenueIgnoresStatus(orders: seq<Order>, orders': seq<Order>)
    requires |orders| == |orders'|
    requires forall k :: 0 <= k < |orders| ==> orders[k].totalPrice == orders'[k].totalPrice
    ensures SumTotalRevenue(orders) == SumTotalRevenue(orders')
  {
    assert Totals(orders) == Totals(orders');
  }

  /** An order of another user changes neither the user's order count nor
      the user's spending total. */
  lemma OtherUsersOrdersIgnored(orders: seq<Order>, o: Order, userId: int)
    requires o.user.id != userId
    ensures CountOrdersByUserId(orders + [o], userId) == CountOrdersByUserId(orders, userId)
    ensures SumTotalSpentByUserId(orders + [o], userId) == SumTotalSpentByUserId(orders, userId)
  {
    FilterAppendRejected(orders, o, (x: Order) => x.user.id == userId);
  }

  // -------------------------------------------------- seller join queries

  /** The join condition `oi.product` is present and `p.seller.id = sellerId`
      (a null product or seller matches nothing under an inner join). */
  predicate SoldBy(item: OrderItem, sellerId: int) {
    item.product.Some? && item.product.value.seller.Some?
    && item.product.value.seller.value.id == sellerId
  }

  /** How many of the items match the seller. */
  function SellerItemCount(items: seq<OrderItem>, sellerId: int): (n: nat)
    ensures n <= |items|
    decreases |items|
  {
    if |items| == 0 then 0
    else SellerItemCount(items[..|items| - 1], sellerId) + (if SoldBy(items[|items| - 1], sellerId) then 1 else 0)
  }

  /** How many of the order's items match the seller. */
  function MatchCount(o: Order, sellerId: int): (n: nat)
    ensures n <= |o.items|
  {
    SellerItemCount(o.items, sellerId)
  }

  /** `n` copies of `x`. */
  function Repeat<T>(x: T, n: nat): (r: seq<T>)
    ensures |r| == n
    ensures forall k :: 0 <= k < n ==> r[k] == x
  {
    seq(n, _ => x)
  }

  /** The rows of `Order o JOIN o.orderItems oi JOIN oi.product p WHERE
      p.seller.id = :sellerId`: each order once per matching item. */
  function SellerRows(orders: seq<Order>, sellerId: int): (rows: seq<Order>)
    ensures forall k :: 0 <= k < |rows| ==> rows[k] in orders
    decreases |orders|
  {
    if |orders| == 0 then []
    else
      var init := orders[..|orders| - 1];
      var last := orders[|orders| - 1];
      var rows := SellerRows(init, sellerId) + Repeat(last, MatchCount(last, sellerId));
      assert forall k :: 0 <= k < |init| ==> init[k] in orders;
      rows
  }

  /** `findBySellerId`: the join rows themselves (an order repeats once per matching item). */
  function FindBySellerId(orders: seq<Order>, sellerId: int): (rows: seq<Order>)
    ensures forall k :: 0 <= k < |rows| ==> rows[k] in orders
  {
    SellerRows(orders, sellerId)
  }

  /** `countBySellerId`: `COUNT(o)` over the join rows. */
  function CountBySellerId(orders: seq<Order>, sellerId: int): (n: nat)
    ensures n == |FindBySellerId(orders, sellerId)|
  {
    |SellerRows(orders, sellerId)|
  }

  /** `countBySellerIdAndStatus`: the join rows whose order has the status. */
  function CountBySellerIdAndStatus(orders: seq<Order>, sellerId: int, status: string): (n: nat)
    ensures n <= CountBySellerId(orders, sellerId)
  {
    Count(SellerRows(orders, sellerId), (o: Order) => o.status == status)
  }

  /** `sumTotalAmountBySellerId`: `SUM(o.totalPrice)` over the join rows. */
  function SumTotalAmountBySellerId(orders: seq<Order>, sellerId: int): (s: Option<real>)
    ensures s.None? <==> forall k :: 0 <= k < |orders| && MatchCount(orders[k], sellerId) > 0
                           ==> orders[k].totalPrice.None?
  {
    var rows := SellerRows(orders, sellerId);
    RowsCoverMatchingOrders(orders, sellerId);
    SqlSum(Totals(rows))
  }

  /** Every order with a matching item appears among the join rows, and
      every row is such an order. */
  lemma {:induction false} RowsCoverMatchingOrders(orders: seq<Order>, sellerId: int)
    ensures forall k :: 0 <= k < |orders| && MatchCount(orders[k], sellerId) > 0 ==>
              orders[k] in SellerRows(orders, sellerId)
    ensures forall k :: 0 <= k < |SellerRows(orders, sellerId)| ==>
              MatchCount(SellerRows(orders, sellerId)[k], sellerId) > 0
    decreases |orders|
  {
    if |orders| > 0 {
      var init := orders[..|orders| - 1];
      RowsCoverMatchingOrders(init, sellerId);
      var last := orders[|orders| - 1];
      var rows := SellerRows(orders, sellerId);
      assert rows == SellerRows(init, sellerId) + Repeat(last, MatchCount(last, sellerId));
      forall k | 0 <= k < |orders| && MatchCount(orders[k], sellerId) > 0
        ensures orders[k] in rows
      {
        if k < |orders| - 1 {
          assert orders[k] == init[k];
        } else {
          assert rows[|rows| - 1] == last;
        }
      }
    }
  }

  /** Reference definition: each order counted once per item it holds from the seller. */
  function MatchTotal(orders: seq<Order>, sellerId: int): nat
    decreases |orders|
  {
    if |orders| == 0 then 0
    else MatchTotal(orders[..|orders| - 1], sellerId) + MatchCount(orders[|orders| - 1], sellerId)
  }

  /** `x` added `n` times. */
  function Times(n: nat, x: real): real
    decreases n
  {
    if n == 0 then 0.0 else Times(n - 1, x) + x
  }

  /** Adding `x` `n` times is multiplying by `n`. */
  lemma {:induction false} TimesIsProduct(n: nat, x: real)
    ensures Times(n, x) == n as real * x
    decreases n
  {
    if n > 0 {
      TimesIsProduct(n - 1, x);
      assert (n - 1) as real * x + x == n as real * x;
    }
  }

  /** Reference definition: each order's total added once per matching item. */
  function WeightedTotal(orders: seq<Order>, sellerId: int): real
    decreases |orders|
  {
    if |orders| == 0 then 0.0
    else
      var last := orders[|orders| - 1];
      WeightedTotal(orders[..|orders| - 1], sellerId)
      + Times(MatchCount(last, sellerId), last.totalPrice.GetOr(0.0))
  }

  /** `countBySellerId` counts order-item join rows: the sum over the orders
      of how many of their items the seller sold. */
  lemma {:induction false} CountBySellerIdCountsItems(orders: seq<Order>, sellerId: int)
    ensures CountBySellerId(orders, sellerId) == MatchTotal(orders, sellerId)
    decreases |orders|
  {
    if |orders| > 0 {
      CountBySellerIdCountsItems(orders[..|orders| - 1], sellerId);
    }
  }

  /** A single order holding `k` of the seller's items is counted `k` times. */
  lemma SingleOrderCountedPerItem(o: Order, sellerId: int)
    ensures CountBySellerId([o], sellerId) == MatchCount(o, sellerId)
  {
    CountBySellerIdCountsItems([o], sellerId);
  }

  lemma {:induction false} PresentTotalAppend(a: seq<Option<real>>, b: seq<Option<real>>)
    ensures PresentTotal(a + b) == PresentTotal(a) + PresentTotal(b)
    decreases |b|
  {
    if |b| == 0 {
      assert a + b == a;
    } else {
      assert (a + b)[..|a + b| - 1] == a + b[..|b| - 1];
      PresentTotalAppend(a, b[..|b| - 1]);
    }
  }

  lemma {:induction false} PresentTotalRepeat(x: Option<real>, n: nat)
    ensures PresentTotal(Repeat(x, n)) == Times(n, x.GetOr(0.0))
    decreases n
  {
    if n > 0 {
      assert Repeat(x, n)[..n - 1] == Repeat(x, n - 1);
      PresentTotalRepeat(x, n - 1);
    }
  }

  lemma TotalsAppend(a: seq<Order>, b: seq<Order>)
    ensures Totals(a + b) == Totals(a) + Totals(b)
  {
    assert forall k :: 0 <= k < |a + b| ==> Totals(a + b)[k] == (Totals(a) + Totals(b))[k];
  }

  /** `sumTotalAmountBySellerId` adds an order's total once per matching
      item (null totals count as 0 once the service replaces a null sum). */
  lemma {:induction false} SellerSumWeightsByItems(orders: seq<Order>, sellerId: int)
    ensures SumTotalAmountBySellerId(orders, sellerId).GetOr(0.0) == WeightedTotal(orders, sellerId)
    decreases |orders|
  {
    SellerRowsWeighted(orders, sellerId);
    SqlSumOrZero(Totals(SellerRows(orders, sellerId)));
  }

  lemma {:induction false} SellerRowsWeighted(orders: seq<Order>, sellerId: int)
    ensures PresentTotal(Totals(SellerRows(orders, sellerId))) == WeightedTotal(orders, sellerId)
    decreases |orders|
  {
    if |orders| > 0 {
      var init := orders[..|orders| - 1];
      var last := orders[|orders| - 1];
      SellerRowsWeighted(init, sellerId);
      RepeatTotals(last, MatchCount(last, sellerId));
      SplitRows(orders, sellerId);
      WeightedStep(orders, sellerId);
    }
  }

  lemma WeightedStep(orders: seq<Order>, sellerId: int)
    requires |orders| > 0
    ensures var last := orders[|orders| - 1];
      WeightedTotal(orders, sellerId)
      == WeightedTotal(orders[..|orders| - 1], sellerId)
         + Times(MatchCount(last, sellerId), last.totalPrice.GetOr(0.0))
  {
  }

  lemma RepeatTotals(o: Order, n: nat)
    ensures PresentTotal(Totals(Repeat(o, n))) == Times(n, o.totalPrice.GetOr(0.0))
  {
    assert Totals(Repeat(o, n)) == Repeat(o.totalPrice, n);
    PresentTotalRepeat(o.totalPrice, n);
  }

  lemma SplitRows(orders: seq<Order>, sellerId: int)
    requires |orders| > 0
    ensures var init := orders[..|orders| - 1];
      var last := orders[|orders| - 1];
      PresentTotal(Totals(SellerRows(orders, sellerId)))
      == PresentTotal(Totals(SellerRows(init, sellerId)))
         + PresentTotal(Totals(Repeat(last, MatchCount(last, sellerId))))
  {
    var init := orders[..|orders| - 1];
    var last := orders[|orders| - 1];
    var front := SellerRows(init, sellerId);
    var back := Repeat(last, MatchCount(last, sellerId));
    assert SellerRows(orders, sellerId) == front + back;
    TotalsAppend(front, back);
    PresentTotalAppend(Totals(front), Totals(back));
  }

  // ------------------------------------------------- order-item queries

  /** The order-item table. */
  function AllItems(orders: seq<Order>): (items: seq<OrderItem>)
    decreases |orders|
  {
    if |orders| == 0 then [] else AllItems(orders[..|orders| - 1]) + orders[|orders| - 1].items
  }

  predicate OfProduct(item: OrderItem, productId: int) {
    item.product.Some? && item.product.value.id == productId
  }

  /** `countByProductId`: `COUNT(oi)` over the items of the product. */
  function CountByProductId(orders: seq<Order>, productId: int): (n: nat)
    ensures n <= |AllItems(orders)|
  {
    Count(AllItems(orders), (it: OrderItem) => OfProduct(it, productId))
  }

  /** `oi.price * oi.quantity`, null when either is null. */
  function LineAmount(item: OrderItem): (a: Option<real>)
    ensures a.Some? <==> item.price.Some? && item.quantity.Some?
  {
    if item.price.Some? && item.quantity.Some? then Some(item.price.value * item.quantity.value as real)
    else None
  }

  /** The `oi.price * oi.quantity` column of a list of items. */
  function Amounts(items: seq<OrderItem>): (a: seq<Option<real>>)
    ensures |a| == |items|
    ensures forall k :: 0 <= k < |items| ==> a[k] == LineAmount(items[k])
  {
    seq(|items|, k requires 0 <= k < |items| => LineAmount(items[k]))
  }

  /** The order items of the product. */
  function ProductItems(orders: seq<Order>, productId: int): (items: seq<OrderItem>)
    ensures forall k :: 0 <= k < |items| ==> OfProduct(items[k], productId)
    ensures |items| == CountByProductId(orders, productId)
  {
    FilterLength(AllItems(orders), (it: OrderItem) => OfProduct(it, productId));
    Filter(AllItems(orders), (it: OrderItem) => OfProduct(it, productId))
  }

  /** `sumTotalAmountByProductId`: `SUM(oi.price * oi.quantity)` over the product's items. */
  function SumTotalAmountByProductId(orders: seq<Order>, productId: int): (s: Option<real>)
    ensures s.GetOr(0.0) == PresentTotal(Amounts(ProductItems(orders, productId)))
    ensures var items := ProductItems(orders, productId);
      s.None? <==> forall k :: 0 <= k < |items| ==> items[k].price.None? || items[k].quantity.None?
  {
    var amounts := Amounts(ProductItems(orders, productId));
    SqlSumOrZero(amounts);
    SqlSum(amounts)
  }
}

=== FILE: orders.dfy ===
/** The customer's order history (frontend/src/pages/Orders.jsx): loading
    the orders, the status colours, the Confirm Delivery button, and the
    tree-planting offer with its 24-hour window.

    `orderAPI` and `authAPI.getCurrentUser` are not part of this model: the
    current user and the replies are inputs (`Failure` carries the error's
    message). The clock is the parameter `now` in milliseconds, and
    `new Date(v).getTime()` the parameter `dateOf` (NaN for an invalid
    date). The 30-second polling and the status messages' wording are not
    modelled. */
module Orders {
  import opened Wrappers
  import opened Js

  // ------------------------------------------------------------------ load

  /** The page's `orders` and `error`. */
  datatype OrdersView = OrdersView(orders: JsValue, error: string)

  /** A load's result and whether it asked the server. */
  datatype LoadStep = LoadStep(view: OrdersView, requested: bool)

  /** `loadOrders`: without a current user carrying a truthy `userId` the
      list is emptied and nothing is requested; otherwise the reply (a falsy
      one counting as none) becomes the list, and a failure sets the error
      and keeps the list. A success does not clear an earlier error. */
  function LoadOrders(before: OrdersView, currentUser: JsValue, response: Result<JsValue>): (out: LoadStep)
    ensures out.requested <==> Truthy(currentUser) && Truthy(Prop(currentUser, "userId"))
    ensures !out.requested ==> out.view == before.(orders := Arr([]))
    ensures out.requested && response.Success? ==> out.view == before.(orders := Or(response.value, Arr([])))
    ensures out.requested && response.Failure? ==>
      out.view == before.(error := "Failed to load orders: " + response.error)
  {
    if !Truthy(currentUser) || !Truthy(Prop(currentUser, "userId")) then LoadStep(before.(orders := Arr([])), false)
    else match response
      case Success(data) => LoadStep(before.(orders := Or(data, Arr([]))), true)
      case Failure(message) => LoadStep(before.(error := "Failed to load orders: " + message), true)
  }

  /** Signed out, the reply plays no part: the list is empty whatever the
      server would say. */
  lemma SignedOutIgnoresReply(before: OrdersView, currentUser: JsValue, r1: Result<JsValue>, r2: Result<JsValue>)
    requires !Truthy(Prop(currentUser, "userId"))
    ensures LoadOrders(before, currentUser, r1) == LoadOrders(before, currentUser, r2)
    ensures LoadOrders(before, currentUser, r1).view.orders == Arr([])
  {
  }

  /** Once a load has failed, the error banner stays through later
      successful loads. */
  lemma ErrorOutlivesRecovery(before: OrdersView, currentUser: JsValue, message: string, data: JsValue)
    requires Truthy(currentUser) && Truthy(Prop(currentUser, "userId"))
    ensures var failed := LoadOrders(before, currentUser, Failure(message)).view;
      LoadOrders(failed, currentUser, Success(data)).view.error == "Failed to load orders: " + message
  {
  }

  // ---------------------------------------------------------------- status

  /** `getStatusColor`'s colour family per status. */
  const StatusFamilies: map<string, string> := map[
    "PENDING" := "orange",
    "CONFIRMED" := "blue",
    "SHIPPED" := "purple",
    "DELIVERED" := "green",
    "CANCELLED" := "red"
  ]

  /** `getStatusColor(status)`: the five known statuses (compared strictly)
      have their own colours; anything else is gray. */
  function StatusColor(status: JsValue): (family: string)
    ensures family == "gray" <==> !(status.Str? && status.s in StatusFamilies)
    ensures family != "gray" ==> family == StatusFamilies[status.s]
  {
    if status.Str? && status.s in StatusFamilies then StatusFamilies[status.s] else "gray"
  }

  /** No two known statuses share a colour. */
  lemma StatusColorsDistinct(a: string, b: string)
    requires a in StatusFamilies && b in StatusFamilies && a != b
    ensures StatusColor(Str(a)) != StatusColor(Str(b))
  {
  }

  /** The Confirm Delivery button shows only for a shipped order. */
  predicate ConfirmDeliveryShown(order: JsValue) {
    StrictEquals(Prop(order, "status"), Str("SHIPPED"))
  }

  // ---------------------------------------------------------- tree window

  /** `order.deliveredAt || order.createdAt` */
  function DeliveryDate(order: JsValue): JsValue {
    Or(Prop(order, "deliveredAt"), Prop(order, "createdAt"))
  }

  /** `canPlantTree`: a delivered order whose delivery (or, without one,
      creation) date is at most 24 hours back. The source compares hours;
      this states it in milliseconds. */
  function CanPlantTree(order: JsValue, now: int, dateOf: JsValue -> Number): (ok: bool)
    requires !Nullish(order)
    ensures ok <==>
      Prop(order, "status") == Str("DELIVERED")
      && dateOf(DeliveryDate(order)).Finite?
      && now as real - dateOf(DeliveryDate(order)).r <= 86400000.0
  {
    if !StrictEquals(Prop(order, "status"), Str("DELIVERED")) then false
    else
      var elapsed := Sub(Finite(now as real), dateOf(DeliveryDate(order)));
      var hours := if elapsed.Finite? then Finite(elapsed.r / 3600000.0) else NaN;
      LessEq(hours, Finite(24.0))
  }

  /** The window never reopens: an order eligible at some time was
      eligible at every earlier time. Exactly 24 hours is still inside. */
  lemma WindowOnlyCloses(order: JsValue, t1: int, t2: int, dateOf: JsValue -> Number)
    requires !Nullish(order) && t1 <= t2 && CanPlantTree(order, t2, dateOf)
    ensures CanPlantTree(order, t1, dateOf)
  {
  }

  /** The 24 hours are inclusive: a delivered order is eligible exactly one
      day after its delivery date and not a millisecond later. */
  lemma WindowEndsAfterOneDay(order: JsValue, now: int, dateOf: JsValue -> Number)
    requires !Nullish(order) && Prop(order, "status") == Str("DELIVERED")
    ensures dateOf(DeliveryDate(order)) == Finite((now - 86400000) as real) ==> CanPlantTree(order, now, dateOf)
    ensures dateOf(DeliveryDate(order)) == Finite((now - 86400001) as real) ==> !CanPlantTree(order, now, dateOf)
  {
  }

  /** A delivered order with a delivery time but without `deliveredAt`
      counts from its creation date. */
  lemma CreationDateStandsIn(order: JsValue, now: int, dateOf: JsValue -> Number)
    requires !Nullish(order) && !Truthy(Prop(order, "deliveredAt"))
    ensures CanPlantTree(order, now, dateOf) <==>
      Prop(order, "status") == Str("DELIVERED")
      && dateOf(Prop(order, "createdAt")).Finite?
      && now as real - dateOf(Prop(order, "createdAt")).r <= 86400000.0
  {
  }

  // ------------------------------------------------------- tree-planting

  /** A submission belongs to the order by `sub.order?.id` or `sub.orderId`. */
  predicate ForOrder(sub: JsValue, orderId: JsValue) {
    StrictEquals(Prop(Prop(sub, "order"), "id"), orderId) || StrictEquals(Prop(sub, "orderId"), orderId)
  }

  /** `submissions.find(...)`: the first submission for the order. */
  function FindSubmission(subs: seq<JsValue>, orderId: JsValue): (found: Option<JsValue>)
    ensures found.None? <==> forall k :: 0 <= k < |subs| ==> !ForOrder(subs[k], orderId)
    ensures found.Some? ==>
      exists k :: 0 <= k < |subs| && subs[k] == found.value && ForOrder(subs[k], orderId)
                  && (forall j :: 0 <= j < k ==> !ForOrder(subs[j], orderId))
    decreases |subs|
  {
    if |subs| == 0 then None
    else if ForOrder(subs[0], orderId) then Some(subs[0])
    else
      var rest := FindSubmission(subs[1..], orderId);
      assert forall k :: 1 <= k < |subs| ==> subs[k] == subs[1..][k - 1];
      if rest.Some? then
        var k :| 0 <= k < |subs[1..]| && subs[1..][k] == rest.value && ForOrder(subs[1..][k], orderId)
          && (forall j :: 0 <= j < k ==> !ForOrder(subs[1..][j], orderId));
        assert subs[k + 1] == rest.value;
        rest
      else rest
  }

  /** The tree-planting row: its status, colour and eco points. */
  datatype TreeStatus = TreeStatus(status: string, color: string, ecoPoints: JsValue)

  /** The submission the row reads, when there is a truthy one. */
  function Submission(order: JsValue, submissions: seq<JsValue>): Option<JsValue> {
    var found := FindSubmission(submissions, Prop(order, "id"));
    if found.Some? && Truthy(found.value) then found else None
  }

  /** The colour the page gives each tree-planting status. */
  function RowColor(status: string): string {
    match status
    case "pending" => "orange"
    case "approved" => "green"
    case "rejected" => "red"
    case "available" => "green"
    case _ => "gray"
  }

  /** `getTreePlantingStatus`: a submission for the order decides the row
      by its status (points only while pending or approved); without one,
      an eligible order is offered planting, a delivered one has expired,
      and any other is not delivered yet. */
  function TreePlantingStatus(order: JsValue, submissions: seq<JsValue>, now: int, dateOf: JsValue -> Number)
    : (t: TreeStatus)
    requires !Nullish(order)
    ensures Submission(order, submissions).Some? ==> t.status in {"pending", "approved", "rejected", "unknown"}
    ensures Submission(order, submissions).Some? && t.status in {"pending", "approved"} ==>
      t.ecoPoints == Or(Prop(Submission(order, submissions).value, "ecoPointsAwarded"), N(0.0))
    ensures t.status !in {"pending", "approved"} ==> t.ecoPoints == N(0.0)
    ensures Submission(order, submissions).None? ==>
      (t.status == "available" <==> CanPlantTree(order, now, dateOf))
      && (t.status == "expired" <==> !CanPlantTree(order, now, dateOf) && Prop(order, "status") == Str("DELIVERED"))
      && (t.status == "not_delivered" <==> Prop(order, "status") != Str("DELIVERED"))
    ensures Submission(order, submissions).Some? ==>
      var s := Prop(Submission(order, submissions).value, "status");
      (t.status == "pending" <==> s == Str("PENDING"))
      && (t.status == "approved" <==> s == Str("APPROVED"))
      && (t.status == "rejected" <==> s == Str("REJECTED"))
    ensures t.color == RowColor(t.status)
  {
    match Submission(order, submissions)
    case Some(sub) =>
      var points := Or(Prop(sub, "ecoPointsAwarded"), N(0.0));
      var s := Prop(sub, "status");
      if StrictEquals(s, Str("PENDING")) then TreeStatus("pending", "orange", points)
      else if StrictEquals(s, Str("APPROVED")) then TreeStatus("approved", "green", points)
      else if StrictEquals(s, Str("REJECTED")) then TreeStatus("rejected", "red", N(0.0))
      else TreeStatus("unknown", "gray", N(0.0))
    case None =>
      if CanPlantTree(order, now, dateOf) then TreeStatus("available", "green", N(0.0))
      else if StrictEquals(Prop(order, "status"), Str("DELIVERED")) then TreeStatus("expired", "gray", N(0.0))
      else TreeStatus("not_delivered", "gray", N(0.0))
  }

  /** A submission decides the row whatever the time. */
  lemma SubmissionDecidesFirst(order: JsValue, submissions: seq<JsValue>, t1: int, t2: int, dateOf: JsValue -> Number)
    requires !Nullish(order) && Submission(order, submissions).Some?
    ensures TreePlantingStatus(order, submissions, t1, dateOf) == TreePlantingStatus(order, submissions, t2, dateOf)
  {
  }

  /** The first submission for the order decides the row: an approved one
      shows its points (0 when it has none), and later submissions for the
      same order are never read. */
  lemma FirstSubmissionDecides(order: JsValue, sub: JsValue, rest: seq<JsValue>, now: int, dateOf: JsValue -> Number)
    requires !Nullish(order) && Truthy(sub) && ForOrder(sub, Prop(order, "id"))
    ensures TreePlantingStatus(order, [sub] + rest, now, dateOf) == TreePlantingStatus(order, [sub], now, dateOf)
    ensures Prop(sub, "status") == Str("APPROVED") ==>
      TreePlantingStatus(order, [sub] + rest, now, dateOf)
        == TreeStatus("approved", "green", Or(Prop(sub, "ecoPointsAwarded"), N(0.0)))
    ensures Prop(sub, "status") == Str("REJECTED") ==>
      TreePlantingStatus(order, [sub] + rest, now, dateOf) == TreeStatus("rejected", "red", N(0.0))
  {
    assert ([sub] + rest)[0] == sub;
  }

  /** The page's submission list stays empty, so every row comes from
      eligibility alone and awards no points. */
  lemma PageRowsComeFromEligibility(order: JsValue, now: int, dateOf: JsValue -> Number)
    requires !Nullish(order)
    ensures TreePlantingStatus(order, [], now, dateOf).status in {"available", "expired", "not_delivered"}
    ensures TreePlantingStatus(order, [], now, dateOf).ecoPoints == N(0.0)
  {
  }

  /** An order offering Confirm Delivery is never offered tree planting:
      it is shown as not delivered yet. */
  lemma ConfirmAndPlantExclusive(order: JsValue, now: int, dateOf: JsValue -> Number)
    requires !Nullish(order) && ConfirmDeliveryShown(order)
    ensures TreePlantingStatus(order, [], now, dateOf).status == "not_delivered"
  {
  }
}

=== FILE: product_card.dfy ===
/** The product tile (frontend/src/components/common/ProductCard.jsx): the
    price, stock and review defaults it displays, the add-to-cart button's
    label and disabled state, and the add-to-cart click.

    `authAPI` and `cartAPI` are not part of this model: whether the session
    is authenticated, the current user record and the add request's outcome
    are inputs. The 1.5-second reset of the "added" feedback and the toast
    are left to the caller. The tile's category label repeats the
    marketplace's resolver (`Products.CategoryLabel`) and is not restated here. */
module ProductCard {
  import opened Wrappers
  import opened Js

  // -------------------------------------------------------------- display

  /** `Number(product.price ?? 0)` */
  function Price(product: JsValue): Number {
    ToNumber(Coalesce(Prop(product, "price"), N(0.0)))
  }

  /** `Number(product.originalPrice ?? product.price ?? 0)` */
  function OriginalPrice(product: JsValue): Number {
    ToNumber(Coalesce(Prop(product, "originalPrice"), Coalesce(Prop(product, "price"), N(0.0))))
  }

  /** `product.reviews ?? 24` */
  function ReviewsCount(product: JsValue): JsValue {
    Coalesce(Prop(product, "reviews"), N(24.0))
  }

  /** `product.stockQuantity ?? product.stock ?? 0` */
  function Stock(product: JsValue): JsValue {
    Coalesce(Prop(product, "stockQuantity"), Coalesce(Prop(product, "stock"), N(0.0)))
  }

  /** The struck-through original price shows when it exceeds the price. */
  predicate ShowsStrikeThrough(product: JsValue) {
    Greater(OriginalPrice(product), Price(product))
  }

  /** Without an original price there is nothing to strike through: it
      defaults to the price, and a NaN price compares false. */
  lemma NoOriginalPriceNoStrike(product: JsValue)
    requires Nullish(Prop(product, "originalPrice"))
    ensures OriginalPrice(product) == Price(product)
    ensures !ShowsStrikeThrough(product)
  {
  }

  /** The stock and review defaults keep an explicit 0 (`??`), and fill in
      0 stock and 24 reviews only when the fields are missing. */
  lemma DisplayDefaults(product: JsValue)
    ensures !Nullish(Prop(product, "stockQuantity")) ==> Stock(product) == Prop(product, "stockQuantity")
    ensures Nullish(Prop(product, "stockQuantity")) && Nullish(Prop(product, "stock")) ==> Stock(product) == N(0.0)
    ensures !Nullish(Prop(product, "reviews")) ==> ReviewsCount(product) == Prop(product, "reviews")
    ensures Nullish(Prop(product, "reviews")) ==> ReviewsCount(product) == N(24.0)
  {
  }

  // --------------------------------------------------------------- button

  /** The card's `isAddingToCart` and `isAddedFeedback` state. */
  datatype CardState = CardState(adding: bool, added: bool)

  /** `stockQuantity === 0`: only the number 0 counts as sold out. */
  predicate SoldOut(product: JsValue) {
    StrictEquals(Stock(product), N(0.0))
  }

  /** The button text, by priority: sold out, just added, adding, then the
      wording for the list or grid view. */
  function ButtonLabel(product: JsValue, s: CardState, listView: bool): (text: string)
    ensures SoldOut(product) <==> text == "Sold Out"
    ensures !SoldOut(product) && s.added <==> text == "Added ✓"
    ensures !SoldOut(product) && !s.added && s.adding <==> text == "Adding..."
    ensures text in {"Add to Smart Cart", "Add"} <==> !SoldOut(product) && !s.added && !s.adding
    ensures text == "Add to Smart Cart" ==> listView
    ensures text == "Add" ==> !listView
  {
    if SoldOut(product) then "Sold Out"
    else if s.added then "Added ✓"
    else if s.adding then "Adding..."
    else if listView then "Add to Smart Cart"
    else "Add"
  }

  predicate Disabled(product: JsValue, s: CardState) {
    s.adding || s.added || SoldOut(product)
  }

  /** The button is clickable exactly when it offers to add. */
  lemma EnabledIffOffersToAdd(product: JsValue, s: CardState, listView: bool)
    ensures !Disabled(product, s) <==> ButtonLabel(product, s, listView) in {"Add to Smart Cart", "Add"}
  {
  }

  /** A stock given as the text "0" is not sold out: strict equality does
      not convert. */
  lemma TextZeroStockNotSoldOut(product: JsValue)
    requires Prop(product, "stockQuantity") == Str("0")
    ensures !SoldOut(product)
  {
  }

  // ---------------------------------------------------------------- click

  /** What a click does outside the card's own state, in order. */
  datatype Effect =
    | NavigateToAuth(returnPath: Option<string>)
    | Alert(message: string)
    | AddRequest(userId: JsValue, productId: JsValue, quantity: int)
    | CartUpdated

  const LoginAgain: string := "Please login again to add items to your cart."
  const AddFailed: string := "Failed to add item to cart. Please try again."

  /** The sign-in page's `returnPath`: `/product/{id}` (`None` where the
      id's text is not modelled). */
  function ReturnPath(product: JsValue): (path: Option<string>)
    ensures ToText(Prop(product, "id")).Some? ==> path == Some("/product/" + ToText(Prop(product, "id")).value)
    ensures ToText(Prop(product, "id")).None? ==> path.None?
  {
    match ToText(Prop(product, "id"))
    case Some(t) => Some("/product/" + t)
    case None => None
  }

  /** `handleAddToCart`: a signed-out visitor is sent to sign in; a session
      without a user id is asked to sign in again; otherwise one unit is
      requested, and a success announces the cart change and shows the
      feedback. The adding flag is cleared whatever happens. */
  function HandleAddToCart(product: JsValue, s: CardState, authenticated: bool, currentUser: JsValue,
                           addResult: Result<JsValue>): (out: (CardState, seq<Effect>))
    ensures !authenticated ==> out == (s, [NavigateToAuth(ReturnPath(product))])
    ensures authenticated && !Truthy(Prop(currentUser, "userId")) ==> out == (s, [Alert(LoginAgain)])
    ensures authenticated && Truthy(Prop(currentUser, "userId")) ==>
      |out.1| == 2 && out.1[0] == AddRequest(Prop(currentUser, "userId"), Prop(product, "id"), 1)
      && !out.0.adding
      && (addResult.Success? ==> out.1[1] == CartUpdated && out.0.added)
      && (addResult.Failure? ==> out.1[1] == Alert(AddFailed) && out.0.added == s.added)
  {
    if !authenticated then (s, [NavigateToAuth(ReturnPath(product))])
    else
      var userId := Prop(currentUser, "userId");
      if !Truthy(userId) then (s, [Alert(LoginAgain)])
      else
        var request := AddRequest(userId, Prop(product, "id"), 1);
        match addResult
        case Success(_) => (CardState(false, true), [request, CartUpdated])
        case Failure(_) => (s.(adding := false), [request, Alert(AddFailed)])
  }

  /** The cart is asked for anything only for a signed-in user with an id,
      and the cart change is announced only after such a request succeeds. */
  lemma AddRequestOnlyWithUserId(product: JsValue, s: CardState, authenticated: bool, currentUser: JsValue,
                                 addResult: Result<JsValue>)
    ensures var effects := HandleAddToCart(product, s, authenticated, currentUser, addResult).1;
      ((exists e :: e in effects && e.AddRequest?) <==> authenticated && Truthy(Prop(currentUser, "userId")))
      && (CartUpdated in effects <==> authenticated && Truthy(Prop(currentUser, "userId")) && addResult.Success?)
  {
    var effects := HandleAddToCart(product, s, authenticated, currentUser, addResult).1;
    if authenticated && Truthy(Prop(currentUser, "userId")) {
      assert effects[0].AddRequest?;
    }
  }

  /** After a successful add the button shows the feedback and cannot be
      clicked again until it is reset (unless the item is sold out). */
  lemma SuccessfulAddLocksButton(product: JsValue, s: CardState, currentUser: JsValue, reply: JsValue, listView: bool)
    requires Truthy(Prop(currentUser, "userId")) && !SoldOut(product)
    ensures var s' := HandleAddToCart(product, s, true, currentUser, Success(reply)).0;
      Disabled(product, s') && ButtonLabel(product, s', listView) == "Added ✓"
  {
  }
}

=== FILE: products.dfy ===
/** The marketplace page (frontend/src/pages/Products.jsx): the field
    fallbacks that normalise a product from any of the server's shapes, the
    extraction of the product list from the reply, the deduplicated category
    bar, and the category and search filters.

    `productAPI.getAllProducts` is not part of this model: its reply data is
    an input (`Failure` for a request that throws). Spreading a product keeps
    an object's own fields. A string or array product would also spread its
    indices ("0", "1", ...) as keys; the model leaves those out, and numbers,
    booleans and `undefined` spread to nothing, as in JavaScript. Category labels
    are compared structurally (`Set.has` on an object compares references,
    which the model does not have). */
module Products {
  import opened Wrappers
  import opened Js
  import opened Sequences

  const DefaultCategories: seq<JsValue> := [Str("Home & Living"), Str("Fashion"), Str("Electronics"), Str("Beauty")]

  /** The label a product without a usable category gets. */
  const Unsorted: JsValue := Str("Sustainable Picks")

  // ------------------------------------------------------------- normalise

  /** `resolveCategoryName`: a falsy value gives the fallback label, a string
      is kept, an object gives its truthy `name` or the fallback; any other
      value gives the fallback. */
  function ResolveCategoryName(v: JsValue): (name: JsValue)
    ensures Truthy(name)
    ensures !Truthy(v) ==> name == Unsorted
    ensures Truthy(v) && v.Str? ==> name == v
    ensures v.Obj? ==> name == (if Truthy(Prop(v, "name")) then Prop(v, "name") else Unsorted)
    ensures !v.Str? && !v.Obj? ==> name == Unsorted
  {
    if !Truthy(v) then Unsorted
    else if v.Str? then v
    else if v.Obj? || v.Arr? then Or(Prop(v, "name"), Unsorted)
    else Unsorted
  }

  /** A label that is already text resolves to itself. */
  lemma ResolvedTextIsStable(v: JsValue)
    requires ResolveCategoryName(v).Str?
    ensures ResolveCategoryName(ResolveCategoryName(v)) == ResolveCategoryName(v)
  {
  }

  /** The own fields `{...v}` copies. */
  function OwnFields(v: JsValue): map<string, JsValue> {
    if v.Obj? then v.fields else map[]
  }

  /** `v?.[0]` */
  function First(v: JsValue): JsValue {
    match v
    case Arr(items) => if |items| > 0 then items[0] else Undefined
    case Obj(fields) => if "0" in fields then fields["0"] else Undefined
    case Str(s) => if |s| > 0 then Str([s[0]]) else Undefined
    case _ => Undefined
  }

  /** `product.carbonScore ?? product.carbonFootprintScore ?? null` */
  function CarbonScore(p: JsValue): JsValue {
    Coalesce(Coalesce(Prop(p, "carbonScore"), Prop(p, "carbonFootprintScore")), Null)
  }

  /** `product.category ?? product.categoryName ?? null` */
  function RawCategory(p: JsValue): JsValue {
    Coalesce(Coalesce(Prop(p, "category"), Prop(p, "categoryName")), Null)
  }

  /** The fields `normalizeProduct` writes over the spread product. */
  const NormalizedKeys: set<string> :=
    {"price", "originalPrice", "rating", "reviews", "carbonScore", "isEcoFriendly",
     "stockQuantity", "shipping", "category", "categoryName", "imageUrl"}

  /** `Number(product.price ?? product.productPrice ?? 0)` */
  function Price(p: JsValue): Number {
    ToNumber(Coalesce(Coalesce(Prop(p, "price"), Prop(p, "productPrice")), N(0.0)))
  }

  /** The value `normalizeProduct` writes under one of its keys. */
  function Field(p: JsValue, k: string): JsValue
    requires k in NormalizedKeys
  {
    if k == "price" then Num(Price(p))
    else if k == "originalPrice" then
      Num(ToNumber(Coalesce(Coalesce(Prop(p, "originalPrice"), Prop(p, "compareAtPrice")), Num(Price(p)))))
    else if k == "rating" then Num(ToNumber(Coalesce(Coalesce(Prop(p, "rating"), Prop(p, "averageRating")), N(0.0))))
    else if k == "reviews" then Num(ToNumber(Coalesce(Coalesce(Prop(p, "reviews"), Prop(p, "reviewCount")), N(0.0))))
    else if k == "carbonScore" then CarbonScore(p)
    else if k == "isEcoFriendly" then
      if IsNumberType(CarbonScore(p)) then Bool(LessEq(CarbonScore(p).n, Finite(3.0)))
      else Coalesce(Prop(p, "isEcoFriendly"), Bool(false))
    else if k == "stockQuantity" then
      Coalesce(Prop(p, "stockQuantity"), Coalesce(Prop(p, "stock"), Coalesce(Prop(p, "availableQuantity"), N(0.0))))
    else if k == "shipping" then Or(Prop(p, "shipping"), Or(Prop(p, "shippingInfo"), Str("Ships sustainably")))
    else if k == "category" then Coalesce(RawCategory(p), ResolveCategoryName(RawCategory(p)))
    else if k == "categoryName" then ResolveCategoryName(RawCategory(p))
    else ImageUrl(p)
  }

  /** `product.imageUrl || product.productImageUrl || product.image || product.images?.[0] || null` */
  function ImageUrl(p: JsValue): JsValue {
    Or(Prop(p, "imageUrl"), Or(Prop(p, "productImageUrl"), Or(Prop(p, "image"), Or(First(Prop(p, "images")), Null))))
  }

  /** `normalizeProduct`: the product's own fields with the normalised ones
      written over them. A `null` element throws on its first field read, so
      the caller only passes other values (`undefined` becomes `{}`). */
  function NormalizeProduct(p: JsValue): (r: JsValue)
    requires !p.Null?
    ensures r.Obj? && r.fields.Keys == OwnFields(p).Keys + NormalizedKeys
    ensures forall k :: k in NormalizedKeys ==> Prop(r, k) == Field(p, k)
    // every field the normaliser does not own is copied unchanged
    ensures forall k :: k in OwnFields(p) && k !in NormalizedKeys ==> Prop(r, k) == OwnFields(p)[k]
  {
    var own := OwnFields(p);
    Obj(map k | k in own.Keys + NormalizedKeys :: if k in NormalizedKeys then Field(p, k) else own[k])
  }

  /** The price falls back through `productPrice` to 0 and is always a
      number; the original price defaults to it. */
  lemma PriceFallbacks(p: JsValue)
    requires !p.Null?
    ensures Prop(NormalizeProduct(p), "price") == Num(Price(p))
    ensures Nullish(Prop(p, "price")) && Nullish(Prop(p, "productPrice")) ==> Price(p) == Finite(0.0)
    ensures Nullish(Prop(p, "originalPrice")) && Nullish(Prop(p, "compareAtPrice"))
      ==> Prop(NormalizeProduct(p), "originalPrice") == Prop(NormalizeProduct(p), "price")
    ensures Prop(NormalizeProduct(p), "rating").Num? && Prop(NormalizeProduct(p), "reviews").Num?
  {
    var r := NormalizeProduct(p);
    assert Prop(r, "price") == Field(p, "price");
    assert Prop(r, "originalPrice") == Field(p, "originalPrice");
    assert Prop(r, "rating") == Field(p, "rating");
    assert Prop(r, "reviews") == Field(p, "reviews");
  }

  /** The eco flag: a numeric carbon score decides it (at most 3), whatever
      the product says; otherwise the product's own flag, `false` when missing. */
  lemma EcoFlag(p: JsValue)
    requires !p.Null?
    ensures IsNumberType(CarbonScore(p)) ==>
      Prop(NormalizeProduct(p), "isEcoFriendly") == Bool(CarbonScore(p).n.Finite? && CarbonScore(p).n.r <= 3.0)
    ensures !IsNumberType(CarbonScore(p)) ==>
      Prop(NormalizeProduct(p), "isEcoFriendly") == Coalesce(Prop(p, "isEcoFriendly"), Bool(false))
    ensures Prop(NormalizeProduct(p), "isEcoFriendly").Bool? || !Nullish(Prop(p, "isEcoFriendly"))
  {
    assert Prop(NormalizeProduct(p), "isEcoFriendly") == Field(p, "isEcoFriendly");
  }

  /** The stock falls back through `stock` and `availableQuantity` to 0 with
      `??`, so an explicit 0 is kept where `||` would have skipped it. */
  lemma StockFallbacks(p: JsValue)
    requires !p.Null?
    ensures !Nullish(Prop(p, "stockQuantity")) ==> Prop(NormalizeProduct(p), "stockQuantity") == Prop(p, "stockQuantity")
    ensures Nullish(Prop(p, "stockQuantity")) && !Nullish(Prop(p, "stock"))
      ==> Prop(NormalizeProduct(p), "stockQuantity") == Prop(p, "stock")
    ensures Nullish(Prop(p, "stockQuantity")) && Nullish(Prop(p, "stock")) && Nullish(Prop(p, "availableQuantity"))
      ==> Prop(NormalizeProduct(p), "stockQuantity") == N(0.0)
    ensures Prop(p, "stockQuantity") == N(0.0) ==> Prop(NormalizeProduct(p), "stockQuantity") == N(0.0)
  {
    assert Prop(NormalizeProduct(p), "stockQuantity") == Field(p, "stockQuantity");
  }

  /** Every normalised product has a truthy category label and shipping
      text, and a category that is not missing; the category bar and the
      filter read exactly the resolved category. */
  lemma CategoryAndShippingPresent(p: JsValue)
    requires !p.Null?
    ensures Truthy(Prop(NormalizeProduct(p), "categoryName")) && Truthy(Prop(NormalizeProduct(p), "shipping"))
    ensures !Nullish(Prop(NormalizeProduct(p), "category"))
    ensures Prop(NormalizeProduct(p), "categoryName") == ResolveCategoryName(RawCategory(p))
    ensures CategoryLabel(NormalizeProduct(p)) == ResolveCategoryName(RawCategory(p))
  {
    var r := NormalizeProduct(p);
    assert Prop(r, "categoryName") == Field(p, "categoryName");
    assert Prop(r, "shipping") == Field(p, "shipping");
    assert Prop(r, "category") == Field(p, "category");
  }

  // ------------------------------------------------------------------ load

  /** The product list in a reply: the data when it is an array, else its
      `content` when that is an array, else none. */
  function Payload(data: JsValue): (items: seq<JsValue>)
    ensures data.Arr? ==> items == data.items
    ensures !data.Arr? && Prop(data, "content").Arr? ==> items == Prop(data, "content").items
    ensures !data.Arr? && !Prop(data, "content").Arr? ==> items == []
  {
    if data.Arr? then data.items
    else if Prop(data, "content").Arr? then Prop(data, "content").items
    else []
  }

  /** `payload.map(normalizeProduct)` */
  function NormalizeAll(items: seq<JsValue>): (r: seq<JsValue>)
    requires forall k :: 0 <= k < |items| ==> !items[k].Null?
    ensures |r| == |items|
    ensures forall k :: 0 <= k < |items| ==> r[k] == NormalizeProduct(items[k])
  {
    MapPartial(items, NormalizeProduct)
  }

  const LoadFailed: string := "Failed to load products. Please try again."

  /** The page's `products` and `error` after `loadProducts`. */
  datatype Catalogue = Catalogue(products: seq<JsValue>, error: string)

  /** `loadProducts`: a failed request, or a `null` element in the list
      (whose normalisation throws), keeps the old products and sets the error. */
  function LoadProducts(before: seq<JsValue>, response: Result<JsValue>): (c: Catalogue)
    ensures c.error == "" <==>
      response.Success? && forall k :: 0 <= k < |Payload(response.value)| ==> !Payload(response.value)[k].Null?
    ensures c.error != "" ==> c == Catalogue(before, LoadFailed)
    ensures c.error == "" ==>
      |c.products| == |Payload(response.value)|
      && forall k :: 0 <= k < |c.products| ==> c.products[k] == NormalizeProduct(Payload(response.value)[k])
  {
    if response.Failure? then Catalogue(before, LoadFailed)
    else
      var items := Payload(response.value);
      if forall k :: 0 <= k < |items| ==> !items[k].Null? then Catalogue(NormalizeAll(items), "")
      else Catalogue(before, LoadFailed)
  }

  // ------------------------------------------------------------ categories

  /** `product.categoryName || resolveCategoryName(product.category)` */
  function CategoryLabel(p: JsValue): JsValue {
    Or(Prop(p, "categoryName"), ResolveCategoryName(Prop(p, "category")))
  }

  /** "All" and the default categories, which the bar always starts with. */
  const BaseCategories: seq<JsValue> := [Str("All")] + DefaultCategories

  /** The `dynamic` list the `forEach` builds: each truthy label that is not
      yet in the bar, appended when first met. */
  function Dynamic(labels: seq<JsValue>): (d: seq<JsValue>)
    ensures forall i :: 0 <= i < |d| ==> Truthy(d[i]) && d[i] !in BaseCategories && d[i] in labels
    ensures forall i, j :: 0 <= i < j < |d| ==> d[i] != d[j]
    ensures forall k :: 0 <= k < |labels| && Truthy(labels[k]) && labels[k] !in BaseCategories ==> labels[k] in d
    decreases |labels|
  {
    if |labels| == 0 then []
    else
      var init := labels[..|labels| - 1];
      var last := labels[|labels| - 1];
      var d := Dynamic(init);
      assert forall k :: 0 <= k < |init| ==> init[k] == labels[k];
      if Truthy(last) && last !in BaseCategories && last !in d then d + [last] else d
  }

  /** Each product's category label, in product order. */
  function Labels(products: seq<JsValue>): (ls: seq<JsValue>)
    ensures |ls| == |products|
    ensures forall k :: 0 <= k < |products| ==> ls[k] == CategoryLabel(products[k])
    decreases |products|
  {
    if |products| == 0 then [] else [CategoryLabel(products[0])] + Labels(products[1..])
  }

  /** The category bar: "All" and the defaults, then each new truthy label
      once. */
  function Categories(products: seq<JsValue>): (cs: seq<JsValue>)
    ensures |cs| >= |BaseCategories| && cs[..|BaseCategories|] == BaseCategories
    ensures forall i, j :: 0 <= i < j < |cs| ==> cs[i] != cs[j]
    ensures forall k :: 0 <= k < |products| && Truthy(Labels(products)[k]) ==> Labels(products)[k] in cs
    ensures forall i :: |BaseCategories| <= i < |cs| ==> cs[i] in Labels(products)
  {
    var labels := Labels(products);
    var d := Dynamic(labels);
    CategoriesFacts(labels, d);
    BaseCategories + d
  }

  lemma CategoriesFacts(labels: seq<JsValue>, d: seq<JsValue>)
    requires forall i :: 0 <= i < |d| ==> d[i] !in BaseCategories && d[i] in labels
    requires forall i, j :: 0 <= i < j < |d| ==> d[i] != d[j]
    ensures var cs := BaseCategories + d;
      (forall i, j :: 0 <= i < j < |cs| ==> cs[i] != cs[j])
      && (forall i :: |BaseCategories| <= i < |cs| ==> cs[i] in labels)
  {
    var cs := BaseCategories + d;
    forall i, j | 0 <= i < j < |cs|
      ensures cs[i] != cs[j]
    {
      if j >= 5 {
        assert cs[j] == d[j - 5];
        if i >= 5 { assert cs[i] == d[i - 5]; } else { assert cs[i] in BaseCategories; }
      }
    }
    forall i | |BaseCategories| <= i < |cs|
      ensures cs[i] in labels
    {
      assert cs[i] == d[i - 5];
    }
  }

  /** The labels the bar appends after the defaults appear in the order in
      which each first occurs among the products' labels. */
  lemma {:induction false} DynamicFirstSeenOrder(labels: seq<JsValue>)
    ensures FirstSeenOrdered(Dynamic(labels), labels)
    decreases |labels|
  {
    if |labels| > 0 {
      var init := labels[..|labels| - 1];
      var last := labels[|labels| - 1];
      assert labels == init + [last];
      DynamicFirstSeenOrder(init);
      var grow := Truthy(last) && last !in BaseCategories && last !in Dynamic(init);
      if grow {
        NewLabelFirstSeenLast(init, last);
      }
      FirstSeenAppend(init, last, Dynamic(init), grow);
    }
  }

  /** A label the bar adds at the end of the list occurs nowhere before it. */
  lemma NewLabelFirstSeenLast(init: seq<JsValue>, last: JsValue)
    requires Truthy(last) && last !in BaseCategories && last !in Dynamic(init)
    ensures last !in init
  {
  }

  // --------------------------------------------------------------- filters

  predicate TextOrMissing(v: JsValue) {
    v.Str? || Nullish(v)
  }

  /** The fields the filter lowercases are text (or missing, for the name
      and description); any other value makes `toLowerCase` throw. */
  predicate Filterable(p: JsValue) {
    TextOrMissing(Prop(p, "name")) && TextOrMissing(Prop(p, "description")) && CategoryLabel(p).Str?
  }

  /** `v?.toLowerCase() || ''` */
  function LowerOrEmpty(v: JsValue): string
    requires TextOrMissing(v)
  {
    if v.Str? then Lower(v.s) else ""
  }

  predicate MatchesCategory(p: JsValue, active: string)
    requires Filterable(p)
  {
    active == "All" || Lower(CategoryLabel(p).s) == Lower(active)
  }

  predicate MatchesQuery(p: JsValue, query: string)
    requires Filterable(p)
  {
    query == "" || Includes(LowerOrEmpty(Prop(p, "name")), query) || Includes(LowerOrEmpty(Prop(p, "description")), query)
  }

  function Shown(active: string, search: string): JsValue -> bool {
    (p: JsValue) => Filterable(p) && MatchesCategory(p, active) && MatchesQuery(p, Lower(Trim(search)))
  }

  /** `filteredProducts`: the products of the active category whose name or
      description contains the trimmed, lowercased search text, in order. */
  function FilteredProducts(products: seq<JsValue>, active: string, search: string): (r: seq<JsValue>)
    requires forall k :: 0 <= k < |products| ==> Filterable(products[k])
    ensures SubsequenceOf(r, products)
    ensures forall k :: 0 <= k < |products| ==>
      (products[k] in r <==> MatchesCategory(products[k], active) && MatchesQuery(products[k], Lower(Trim(search))))
  {
    var r := Filter(products, Shown(active, search));
    assert forall k :: 0 <= k < |products| && products[k] in r ==> Shown(active, search)(products[k]);
    r
  }

  /** The "All" tab with a blank search shows every product, in order. */
  lemma AllWithBlankSearchShowsEverything(products: seq<JsValue>, search: string)
    requires forall k :: 0 <= k < |products| ==> Filterable(products[k])
    requires AllSpace(search)
    ensures FilteredProducts(products, "All", search) == products
  {
    TrimEmptyIffAllSpace(search);
    FilterAllKept(products, Shown("All", search));
  }

  /** Category tabs match case-insensitively: two tab names with the same
      lowercase form (neither being "All") show the same products. */
  lemma CategoryCaseInsensitive(products: seq<JsValue>, a: string, b: string, search: string)
    requires forall k :: 0 <= k < |products| ==> Filterable(products[k])
    requires a != "All" && b != "All" && Lower(a) == Lower(b)
    ensures FilteredProducts(products, a, search) == FilteredProducts(products, b, search)
  {
    FilterCongruent(products, Shown(a, search), Shown(b, search));
  }
}

=== FILE: profile.dfy ===
/** The profile page (frontend/src/pages/Profile.jsx): loading the signed-in
    customer's profile, the messages for a missing user id, which screen
    shows, and how the name, address and carbon figures are displayed.

    `customerAPI` and `authAPI.getCurrentUser` are not part of this model:
    the current user and the reply are inputs (`Failure` carries the
    error's message). Signing out is not modelled. */
module Profile {
  import opened Wrappers
  import opened Js
  import opened Browser
  import opened Sequences

  // ------------------------------------------------------------------ load

  const SessionInvalid: string := "Session data invalid. Please log out and log in again."
  const NoUserId: string := "No user ID found. Please log in."
  const LoadFailed: string := "Could not load profile. Please check your connection."

  /** The page's `profile`, `error` and `loading`. */
  datatype ProfileView = ProfileView(profile: JsValue, error: Option<string>, loading: bool)

  const Initial: ProfileView := ProfileView(Null, None, true)

  /** `fetchProfile` for `currentUser?.userId`: without a truthy id the
      error says the session is invalid when a token is stored and asks to
      sign in otherwise, and nothing is requested; a reply becomes the
      profile and clears the error; a failure shows its message, or a
      fixed one when the message is empty. */
  function FetchProfile(before: ProfileView, currentUser: JsValue, local: Store, response: Result<JsValue>)
    : (after: ProfileView)
    ensures !after.loading
    ensures !Truthy(Prop(currentUser, "userId")) ==>
      after == before.(error := Some(if Stored(local, "token").Some? then SessionInvalid else NoUserId), loading := false)
    ensures Truthy(Prop(currentUser, "userId")) && response.Success? ==> after == ProfileView(response.value, None, false)
    ensures Truthy(Prop(currentUser, "userId")) && response.Failure? ==>
      after == before.(error := Some(if response.error != "" then response.error else LoadFailed), loading := false)
  {
    if !Truthy(Prop(currentUser, "userId")) then
      before.(error := Some(if Truthy(GetItem(local, "token")) then SessionInvalid else NoUserId), loading := false)
    else match response
      case Success(data) => ProfileView(data, None, false)
      case Failure(message) => before.(error := Some(if message != "" then message else LoadFailed), loading := false)
  }

  // ------------------------------------------------------------ formatting

  /** `texts.join(", ")` */
  function JoinComma(texts: seq<string>): string
    decreases |texts|
  {
    if |texts| == 0 then ""
    else if |texts| == 1 then texts[0]
    else texts[0] + ", " + JoinComma(texts[1..])
  }

  /** Text found in a string is found in any longer string ending with it. */
  lemma {:induction false} IncludesAfter(x: string, s: string, t: string)
    requires Includes(s, t)
    ensures Includes(x + s, t)
    decreases |x|
  {
    if |x| == 0 {
      assert x + s == s;
    } else {
      assert (x + s)[1..] == x[1..] + s;
      IncludesAfter(x[1..], s, t);
    }
  }

  /** Every joined text appears in the joined result. */
  lemma {:induction false} JoinShowsEveryPart(texts: seq<string>, k: int)
    requires 0 <= k < |texts|
    ensures Includes(JoinComma(texts), texts[k])
    decreases |texts|
  {
    if |texts| > 1 {
      if k == 0 {
        assert texts[0] <= JoinComma(texts);
      } else {
        JoinShowsEveryPart(texts[1..], k - 1);
        IncludesAfter(texts[0] + ", ", JoinComma(texts[1..]), texts[k]);
        assert JoinComma(texts) == (texts[0] + ", ") + JoinComma(texts[1..]);
      }
    }
  }

  /** The texts of values, when every one is modelled. */
  function Texts(values: seq<JsValue>): (o: Option<seq<string>>)
    ensures o.Some? <==> forall k :: 0 <= k < |values| ==> ToText(values[k]).Some?
    ensures o.Some? ==> |o.value| == |values| && forall k :: 0 <= k < |values| ==> o.value[k] == ToText(values[k]).value
    decreases |values|
  {
    if |values| == 0 then Some([])
    else
      var rest := Texts(values[1..]);
      assert forall k :: 1 <= k < |values| ==> values[k] == values[1..][k - 1];
      if ToText(values[0]).Some? && rest.Some? then Some([ToText(values[0]).value] + rest.value) else None
  }

  /** The address fields in display order. */
  function AddressFields(p: JsValue): seq<JsValue> {
    [Prop(p, "streetAddress"), Prop(p, "city"), Prop(p, "state"), Prop(p, "zipCode"), Prop(p, "country")]
  }

  /** `formatAddress(p)`: "Not Set" without a profile; the truthy address
      fields joined with ", "; without any, the `address` field or "Not
      Set". `None` where a field's text is not modelled. */
  function FormatAddress(p: JsValue): (r: Option<JsValue>)
    ensures !Truthy(p) ==> r == Some(Str("Not Set"))
    ensures Truthy(p) && |Filter(AddressFields(p), Truthy)| == 0 ==>
      r == Some(if Truthy(Prop(p, "address")) then Prop(p, "address") else Str("Not Set"))
    ensures Truthy(p) && |Filter(AddressFields(p), Truthy)| > 0 ==>
      (r.Some? <==> Texts(Filter(AddressFields(p), Truthy)).Some?)
      && (r.Some? ==> r.value == Str(JoinComma(Texts(Filter(AddressFields(p), Truthy)).value)))
  {
    if !Truthy(p) then Some(Str("Not Set"))
    else
      var parts := Filter(AddressFields(p), Truthy);
      if |parts| > 0 then
        match Texts(parts)
        case Some(ts) => Some(Str(JoinComma(ts)))
        case None => None
      else Some(Or(Prop(p, "address"), Str("Not Set")))
  }

  /** Every filled-in address field is shown in the formatted address. */
  lemma EveryAddressPartShown(p: JsValue, k: int)
    requires Truthy(p) && 0 <= k < 5 && Truthy(AddressFields(p)[k])
    requires FormatAddress(p).Some? && ToText(AddressFields(p)[k]).Some?
    ensures FormatAddress(p).value.Str? && Includes(FormatAddress(p).value.s, ToText(AddressFields(p)[k]).value)
  {
    var parts := Filter(AddressFields(p), Truthy);
    var field := AddressFields(p)[k];
    assert field in parts;
    var j :| 0 <= j < |parts| && parts[j] == field;
    var ts := Texts(parts).value;
    JoinShowsEveryPart(ts, j);
  }

  /** `formatName(p)`: "N/A" without a profile; with a first or last name,
      the two (each `||`-defaulted to "") around a space, trimmed; otherwise
      the `name` field or "User". `None` where a name's text is not modelled. */
  function FormatName(p: JsValue): (r: Option<JsValue>)
    ensures !Truthy(p) ==> r == Some(Str("N/A"))
    ensures Truthy(p) && !Truthy(Prop(p, "firstName")) && !Truthy(Prop(p, "lastName")) ==>
      r == Some(if Truthy(Prop(p, "name")) then Prop(p, "name") else Str("User"))
    ensures Truthy(p) && (Truthy(Prop(p, "firstName")) || Truthy(Prop(p, "lastName"))) && r.Some? ==>
      r.value.Str? && r.value.s == Trim(r.value.s)
    ensures Truthy(p) && (Truthy(Prop(p, "firstName")) || Truthy(Prop(p, "lastName"))) ==>
      var f, l := ToText(Or(Prop(p, "firstName"), Str(""))), ToText(Or(Prop(p, "lastName"), Str("")));
      (r.Some? <==> f.Some? && l.Some?)
      && (r.Some? ==> r.value.Str? && StripOf(r.value.s, f.value + " " + l.value, IsJsSpace))
  {
    if !Truthy(p) then Some(Str("N/A"))
    else if Truthy(Prop(p, "firstName")) || Truthy(Prop(p, "lastName")) then
      match (ToText(Or(Prop(p, "firstName"), Str(""))), ToText(Or(Prop(p, "lastName"), Str(""))))
      case (Some(f), Some(l)) => TrimIdempotent(f + " " + l); Some(Str(Trim(f + " " + l)))
      case _ => None
    else Some(Or(Prop(p, "name"), Str("User")))
  }

  /** Trimming twice is trimming once. */
  lemma TrimIdempotent(s: string)
    ensures Trim(Trim(s)) == Trim(s)
  {
    var t := Trim(s);
    if |t| > 0 {
      TrimUnpadded(t);
    }
  }

  /** A first and last name without surrounding spaces show as "first last". */
  lemma FullNameShown(p: JsValue, f: string, l: string)
    requires Truthy(p) && Prop(p, "firstName") == Str(f) && Prop(p, "lastName") == Str(l)
    requires |f| > 0 && |l| > 0 && !IsJsSpace(f[0]) && !IsJsSpace(l[|l| - 1])
    ensures FormatName(p) == Some(Str(f + " " + l))
  {
    var s := f + " " + l;
    assert s[0] == f[0] && s[|s| - 1] == l[|l| - 1];
    TrimUnpadded(s);
    assert ToText(Or(Prop(p, "firstName"), Str(""))) == Some(f);
    assert ToText(Or(Prop(p, "lastName"), Str(""))) == Some(l);
  }

  /** A last name alone shows without the separating space. */
  lemma LastNameAloneShown(p: JsValue, l: string)
    requires Truthy(p) && Nullish(Prop(p, "firstName")) && Prop(p, "lastName") == Str(l)
    requires |l| > 0 && !IsJsSpace(l[0]) && !IsJsSpace(l[|l| - 1])
    ensures FormatName(p) == Some(Str(l))
  {
    LeadingSpaceTrimmed(l);
    assert ToText(Or(Prop(p, "firstName"), Str(""))) == Some("");
    assert ToText(Or(Prop(p, "lastName"), Str(""))) == Some(l);
  }

  /** A first name alone shows without the trailing separator. */
  lemma FirstNameAloneShown(p: JsValue, f: string)
    requires Truthy(p) && Prop(p, "firstName") == Str(f) && Nullish(Prop(p, "lastName"))
    requires |f| > 0 && !IsJsSpace(f[0]) && !IsJsSpace(f[|f| - 1])
    ensures FormatName(p) == Some(Str(f))
  {
    var s := f + " " + "";
    assert s[..|f|] == f && IsJsSpace(s[|f|]);
    assert StrippedAt(f, s, 0, IsJsSpace);
    TrimUnique(s, f);
    assert ToText(Or(Prop(p, "firstName"), Str(""))) == Some(f);
    assert ToText(Or(Prop(p, "lastName"), Str(""))) == Some("");
  }

  /** White space around the two names is dropped; the one between them stays. */
  lemma PaddedNamesTrimmed(p: JsValue, f: string, l: string)
    requires Truthy(p) && Prop(p, "firstName") == Str(" " + f) && Prop(p, "lastName") == Str(l + " ")
    requires |f| > 0 && |l| > 0 && !IsJsSpace(f[0]) && !IsJsSpace(l[|l| - 1])
    ensures FormatName(p) == Some(Str(f + " " + l))
  {
    PaddedJoinTrimmed(f, l);
    assert ToText(Or(Prop(p, "firstName"), Str(""))) == Some(" " + f);
    assert ToText(Or(Prop(p, "lastName"), Str(""))) == Some(l + " ");
  }

  lemma PaddedJoinTrimmed(f: string, l: string)
    requires |f| > 0 && |l| > 0 && !IsJsSpace(f[0]) && !IsJsSpace(l[|l| - 1])
    ensures Trim((" " + f) + " " + (l + " ")) == f + " " + l
  {
    var s := (" " + f) + " " + (l + " ");
    var t := f + " " + l;
    assert s == " " + t + " ";
    assert s[1..1 + |t|] == t && IsJsSpace(s[0]) && IsJsSpace(s[|s| - 1]);
    assert t[0] == f[0] && t[|t| - 1] == l[|l| - 1];
    assert StrippedAt(t, s, 1, IsJsSpace);
    TrimUnique(s, t);
  }

  /** The empty first name's separator is trimmed away. */
  lemma LeadingSpaceTrimmed(l: string)
    requires |l| > 0 && !IsJsSpace(l[0]) && !IsJsSpace(l[|l| - 1])
    ensures Trim("" + " " + l) == l
  {
    var s := "" + " " + l;
    assert IsJsSpace(s[0]) && s[1..] == l;
    assert TrimStart(l) == l;
    assert TrimEnd(l) == l;
  }

  // ---------------------------------------------------------------- screen

  /** What the page shows. */
  datatype Screen =
    | LoadingScreen
    | ErrorScreen(message: string)
    | NotFound
    | Details(name: Option<JsValue>, email: JsValue, phone: JsValue, address: Option<JsValue>,
              carbonSaved: JsValue, ecoPoints: JsValue)

  /** The render: loading first, then a non-empty error, then "User not
      found" without a profile, then the details, where a falsy carbon
      figure or point count shows as 0. */
  function Render(v: ProfileView): (s: Screen)
    ensures s == LoadingScreen <==> v.loading
    ensures s.ErrorScreen? <==> !v.loading && v.error.Some? && v.error.value != ""
    ensures s == NotFound <==> !v.loading && !(v.error.Some? && v.error.value != "") && !Truthy(v.profile)
    ensures s.Details? ==>
      s.name == FormatName(v.profile) && s.address == FormatAddress(v.profile)
      && (Truthy(Prop(v.profile, "carbonSaved")) ==> s.carbonSaved == Prop(v.profile, "carbonSaved"))
      && (!Truthy(Prop(v.profile, "carbonSaved")) ==> s.carbonSaved == N(0.0))
      && (Truthy(Prop(v.profile, "ecoPoints")) ==> s.ecoPoints == Prop(v.profile, "ecoPoints"))
      && (!Truthy(Prop(v.profile, "ecoPoints")) ==> s.ecoPoints == N(0.0))
  {
    if v.loading then LoadingScreen
    else if v.error.Some? && v.error.value != "" then ErrorScreen(v.error.value)
    else if !Truthy(v.profile) then NotFound
    else
      var p := v.profile;
      Details(FormatName(p), Or(Prop(p, "email"), Str("N/A")), Or(Prop(p, "phone"), Str("Not Set")),
              FormatAddress(p), Or(Prop(p, "carbonSaved"), N(0.0)), Or(Prop(p, "ecoPoints"), N(0.0)))
  }

  /** Without a user id the page ends on one of the two sign-in messages,
      never on "User not found" or the details, whatever it showed before. */
  lemma MissingIdShowsSignInMessage(before: ProfileView, currentUser: JsValue, local: Store, response: Result<JsValue>)
    requires !Truthy(Prop(currentUser, "userId"))
    ensures var s := Render(FetchProfile(before, currentUser, local, response));
      s == ErrorScreen(SessionInvalid) || s == ErrorScreen(NoUserId)
    ensures Render(FetchProfile(before, currentUser, local, response)) == ErrorScreen(SessionInvalid)
      <==> Stored(local, "token").Some?
  {
  }

  /** A failed load shows the error even when no profile was ever loaded. */
  lemma ErrorBeforeNotFound(currentUser: JsValue, local: Store, message: string)
    requires Truthy(Prop(currentUser, "userId"))
    ensures Render(FetchProfile(Initial, currentUser, local, Failure(message))).ErrorScreen?
  {
  }
}

=== FILE: protected_route.dfy ===
/** The sign-in guard around the cart, marketplace and profile pages
    (frontend/src/components/ProtectedRoute.jsx). It looks for a user id in
    local storage and consults `authAPI.isAuthenticated()`, which is not part
    of this model and enters as the truthiness of its result (false when the
    API object has no such function). */
module ProtectedRoute {
  import opened Wrappers
  import opened Js
  import opened Browser

  /** `resolveStoredUserId`: the parsed user's `userId` when it is truthy;
      otherwise (no user record, one that does not parse, or one without a
      truthy id) whatever `getItem('userId')` returns. */
  function ResolveStoredUserId(local: Store, json: JsonCodec): (id: JsValue)
    ensures Stored(local, "user").Some? && json.parse(local["user"]).Some?
            && Truthy(Prop(json.parse(local["user"]).value, "userId"))
      ==> id == Prop(json.parse(local["user"]).value, "userId")
    ensures Stored(local, "user").None? ==> id == GetItem(local, "userId")
    ensures Stored(local, "user").Some? && json.parse(local["user"]).None? ==> id == GetItem(local, "userId")
  {
    match Stored(local, "user")
    case Some(text) =>
      (match json.parse(text)
       case Some(u) => if Truthy(Prop(u, "userId")) then Prop(u, "userId") else GetItem(local, "userId")
       case None => GetItem(local, "userId"))
    case None => GetItem(local, "userId")
  }

  /** The stored id is truthy exactly when the user record carries a truthy
      id or the `userId` key holds non-empty text. */
  lemma StoredIdTruthy(local: Store, json: JsonCodec)
    ensures Truthy(ResolveStoredUserId(local, json)) <==>
      (Stored(local, "user").Some? && json.parse(local["user"]).Some?
       && Truthy(Prop(json.parse(local["user"]).value, "userId")))
      || Stored(local, "userId").Some?
  {
  }

  /** What the guard renders: its children untouched, or the "Access
      Restricted" panel with links to the sign-in page. */
  datatype Guarded<T> = Children(content: T) | Restricted

  /** `isAuthenticated` of the guard: the API says so or a user id is stored. */
  predicate Admitted(apiAuthenticated: bool, local: Store, json: JsonCodec) {
    apiAuthenticated || Truthy(ResolveStoredUserId(local, json))
  }

  /** The guard itself. The user's role is never read. */
  function Guard<T>(children: T, apiAuthenticated: bool, local: Store, json: JsonCodec): (g: Guarded<T>)
    ensures g == Children(children) <==> Admitted(apiAuthenticated, local, json)
    ensures g.Restricted? <==> !Admitted(apiAuthenticated, local, json)
  {
    if Admitted(apiAuthenticated, local, json) then Children(children) else Restricted
  }

  /** The role stored in the user record does not affect the guard: two
      stores whose user records differ only in `role` are treated alike. */
  lemma GuardIgnoresRole<T>(children: T, api: bool, local: Store, json: JsonCodec,
                            fields: map<string, JsValue>, role1: JsValue, role2: JsValue,
                            t1: string, t2: string)
    requires t1 != "" && t2 != ""
    requires json.parse(t1) == Some(Obj(fields["role" := role1]))
    requires json.parse(t2) == Some(Obj(fields["role" := role2]))
    ensures Guard(children, api, local["user" := t1], json) == Guard(children, api, local["user" := t2], json)
  {
    var l1, l2 := local["user" := t1], local["user" := t2];
    assert Prop(Obj(fields["role" := role1]), "userId") == Prop(Obj(fields["role" := role2]), "userId");
    assert GetItem(l1, "userId") == GetItem(l2, "userId");
  }
}

=== FILE: seller_dashboard.dfy ===
/** The seller dashboard (frontend/src/components/dashboard/SellerDashboard.jsx):
    the category labels of the product table, its name search, the stock
    badge, the statistics fallback, and the add/edit product form.

    `sellerAPI` is not part of this model: its replies are inputs (`Failure`
    for a request that throws). Deleting a product and the tab and modal
    layout are not modelled. */
module SellerDashboard {
  import opened Wrappers
  import opened Js
  import opened Sequences

  // ------------------------------------------------------------ categories

  /** `getCategoryName`'s table, keyed by the id's text. */
  const CategoryNames: map<string, string> := map[
    "1" := "Electronics",
    "2" := "Fashion",
    "3" := "Home & Garden",
    "4" := "Books",
    "5" := "Food & Beverages",
    "6" := "Personal Care"
  ]

  /** Whether `categories[id]` finds an entry: the id's property-key text is
      one of the table's keys. */
  predicate KnownCategory(id: JsValue) {
    ToText(id).Some? && ToText(id).value in CategoryNames
  }

  /** `getCategoryName(id)`: the table's name for the id, else "Other". A
      property key is the id's text, so the number 1, the text "1" and the
      array [1] all name Electronics. */
  function CategoryName(id: JsValue): (name: string)
    ensures KnownCategory(id) ==> name == CategoryNames[ToText(id).value]
    ensures name == "Other" <==> !KnownCategory(id)
    ensures name in CategoryNames.Values || name == "Other"
  {
    match ToText(id)
    case Some(key) => if key in CategoryNames then CategoryNames[key] else "Other"
    case None => "Other"
  }

  /** A category id given as a number and the same id given as text name
      the same category. */
  lemma NumberAndTextIdsAgree(k: int)
    requires 1 <= k <= 6
    ensures CategoryName(N(k as real)) == CategoryName(Str(IntToString(k)))
    ensures CategoryName(N(k as real)) != "Other"
  {
    assert (k as real).Floor == k;
    assert IntToString(k) == [DigitChar(k)];
  }

  // --------------------------------------------------------------- search

  /** A product the search can read: not `null`/`undefined`, with a text or
      missing name (`name?.toLowerCase()` throws on any other name). */
  predicate Searchable(p: JsValue) {
    !Nullish(p) && (Prop(p, "name").Str? || Nullish(Prop(p, "name")))
  }

  /** The lower-cased name contains the lower-cased term; a product without
      a name never matches. */
  predicate NameMatches(p: JsValue, term: string) {
    Prop(p, "name").Str? && Includes(Lower(Prop(p, "name").s), Lower(term))
  }

  function MatchesTerm(term: string): JsValue -> bool {
    (p: JsValue) => NameMatches(p, term)
  }

  /** `filteredProducts`: the products whose name contains the search term,
      ignoring case, in their order. */
  function FilteredProducts(products: seq<JsValue>, searchTerm: string): (shown: seq<JsValue>)
    requires forall k :: 0 <= k < |products| ==> Searchable(products[k])
    ensures SubsequenceOf(shown, products)
    ensures forall k :: 0 <= k < |shown| ==> NameMatches(shown[k], searchTerm)
    ensures forall k :: 0 <= k < |products| && NameMatches(products[k], searchTerm) ==> products[k] in shown
  {
    Filter(products, MatchesTerm(searchTerm))
  }

  function HasName(p: JsValue): bool {
    Prop(p, "name").Str?
  }

  /** An empty search shows every product that has a name, and only those. */
  lemma EmptySearchShowsNamed(products: seq<JsValue>)
    requires forall k :: 0 <= k < |products| ==> Searchable(products[k])
    ensures FilteredProducts(products, "") == Filter(products, HasName)
  {
    forall k | 0 <= k < |products|
      ensures MatchesTerm("")(products[k]) == HasName(products[k])
    {
      if HasName(products[k]) {
        IncludesEmpty(Lower(Prop(products[k], "name").s));
      }
    }
    FilterCongruent(products, MatchesTerm(""), HasName);
  }

  /** The search ignores the case of the term. */
  lemma SearchIgnoresTermCase(products: seq<JsValue>, searchTerm: string)
    requires forall k :: 0 <= k < |products| ==> Searchable(products[k])
    ensures FilteredProducts(products, Lower(searchTerm)) == FilteredProducts(products, searchTerm)
  {
    LowerIdempotent(searchTerm);
    FilterCongruent(products, MatchesTerm(Lower(searchTerm)), MatchesTerm(searchTerm));
  }

  // ---------------------------------------------------------- stock badge

  /** `product.stockQuantity < 10`: the badge is red. */
  predicate LowStock(product: JsValue) {
    LessThan(Prop(product, "stockQuantity"), 10.0)
  }

  /** The badge compares numerically: a number below 10 and a numeric text
      below 10 are red, a `null` stock reads as 0 and is red, and a missing
      stock reads as NaN and is not. */
  lemma StockBadgeCases(product: JsValue, r: real)
    ensures Prop(product, "stockQuantity") == N(r) ==> (LowStock(product) <==> r < 10.0)
    ensures Prop(product, "stockQuantity") == Null ==> LowStock(product)
    ensures Prop(product, "stockQuantity") == Undefined ==> !LowStock(product)
  {
  }

  // ----------------------------------------------------------------- stats

  /** The dashboard figures: the server's object as reported, or the
      figures computed from the product list. */
  datatype Stats =
    | Reported(data: JsValue)
    | Computed(totalSales: real, totalOrders: real, totalProducts: nat, carbonSaved: Sum)

  const InitialStats: Stats := Computed(0.0, 0.0, 0, Numeric(Finite(0.0)))

  /** The page's `products`, `stats` and `loading`. */
  datatype Dashboard = Dashboard(products: JsValue, stats: Stats, loading: bool)

  /** The product list the fallback figures can be computed from: an array
      whose elements are not `null`/`undefined` (`reduce` and the field read
      throw otherwise). */
  predicate Countable(list: JsValue) {
    list.Arr? && forall k :: 0 <= k < |list.items| ==> !Nullish(list.items[k])
  }

  /** `fetchDashboardData`: the product list (a falsy reply counting as
      none), then the server's figures or, when that request throws, zero
      sales and orders with the product count and summed carbon scores. A
      throw anywhere else keeps the previous figures. */
  function FetchDashboard(before: Dashboard, productsRes: Result<JsValue>, statsRes: Result<JsValue>): (after: Dashboard)
    ensures !after.loading
    ensures productsRes.Failure? ==> after.products == before.products && after.stats == before.stats
    ensures productsRes.Success? ==> after.products == Or(productsRes.value, Arr([]))
    ensures productsRes.Success? && statsRes.Success? ==>
      after.stats == (if Truthy(statsRes.value) then Reported(statsRes.value) else before.stats)
    ensures productsRes.Success? && statsRes.Failure? ==>
      var list := Or(productsRes.value, Arr([]));
      after.stats == (if Countable(list)
                      then Computed(0.0, 0.0, |list.items|, SumOrZero(list.items, "carbonFootprintScore"))
                      else before.stats)
  {
    match productsRes
    case Failure(_) => before.(loading := false)
    case Success(data) =>
      var list := Or(data, Arr([]));
      var stats :=
        match statsRes
        case Success(s) => if Truthy(s) then Reported(s) else before.stats
        case Failure(_) =>
          if Countable(list) then Computed(0.0, 0.0, |list.items|, SumOrZero(list.items, "carbonFootprintScore"))
          else before.stats;
      Dashboard(list, stats, false)
  }

  /** When the figures endpoint fails, the carbon figure is the sum of the
      products' carbon scores with missing ones as 0, as long as every score
      is a number or missing. */
  lemma FallbackCarbonIsTotal(before: Dashboard, items: seq<JsValue>, statsError: string)
    requires Countable(Arr(items))
    requires forall i :: 0 <= i < |items| ==> AddsAsNumber(Prop(items[i], "carbonFootprintScore"))
    ensures FetchDashboard(before, Success(Arr(items)), Failure(statsError)).stats
      == Computed(0.0, 0.0, |items|, Numeric(Finite(TotalOrZero(items, "carbonFootprintScore"))))
  {
    SumOrZeroIsTotal(items, "carbonFootprintScore");
  }

  // ------------------------------------------------------------------ form

  /** The product form, field name to value. */
  type Form = map<string, JsValue>

  /** `resetForm`'s values, also the initial form. */
  const DefaultForm: Form := map[
    "name" := Str(""),
    "description" := Str(""),
    "price" := Str(""),
    "categoryId" := Str("1"),
    "stockQuantity" := Str(""),
    "weight" := Str("0.5"),
    "shippingDistance" := Str("50"),
    "carbonFootprintScore" := Str("0"),
    "ecoFriendly" := Bool(false),
    "image" := Null,
    "imageUrl" := Str("")
  ]

  /** The fields the edit form copies unchanged from the product. */
  const CopiedFields: set<string> :=
    {"name", "description", "price", "categoryId", "stockQuantity", "carbonFootprintScore", "ecoFriendly"}

  /** The parts of a change event the handler reads (`e.target`). */
  datatype InputEvent = InputEvent(name: string, kind: string, value: JsValue, checked: bool, files: seq<JsValue>)

  /** `handleInputChange`: a file input stores its first file (`undefined`
      when none is chosen), a checkbox its checked flag, any other input its
      value; only the named field changes. */
  function HandleInputChange(form: Form, e: InputEvent): (form': Form)
    ensures form'.Keys == form.Keys + {e.name}
    ensures e.kind == "file" ==> form'[e.name] == (if |e.files| > 0 then e.files[0] else Undefined)
    ensures e.kind == "checkbox" ==> form'[e.name] == Bool(e.checked)
    ensures e.kind != "file" && e.kind != "checkbox" ==> form'[e.name] == e.value
    ensures forall k :: k in form && k != e.name ==> form'[k] == form[k]
  {
    var v :=
      if e.kind == "file" then (if |e.files| > 0 then e.files[0] else Undefined)
      else if e.kind == "checkbox" then Bool(e.checked)
      else e.value;
    form[e.name := v]
  }

  /** Changes to two different fields can be applied in either order. */
  lemma InputChangesCommute(form: Form, e1: InputEvent, e2: InputEvent)
    requires e1.name != e2.name
    ensures HandleInputChange(HandleInputChange(form, e1), e2) == HandleInputChange(HandleInputChange(form, e2), e1)
  {
  }

  /** A change to one of the form's fields keeps the form's set of fields. */
  lemma InputChangeKeepsFields(form: Form, e: InputEvent)
    requires form.Keys == DefaultForm.Keys && e.name in DefaultForm
    ensures HandleInputChange(form, e).Keys == DefaultForm.Keys
  {
  }

  /** `handleEdit`'s form: the product's own values, with a falsy weight or
      shipping distance replaced by the defaults, no chosen file, and the
      image URL taken from the product's `image` (blank when falsy). */
  function EditForm(product: JsValue): (form: Form)
    requires !Nullish(product)
    ensures form.Keys == DefaultForm.Keys
    ensures forall k :: k in CopiedFields ==> form[k] == Prop(product, k)
  {
    map k | k in DefaultForm.Keys :: EditField(product, k)
  }

  /** One field of the edit form. */
  function EditField(product: JsValue, k: string): JsValue {
    if k in CopiedFields then Prop(product, k)
    else if k == "weight" then Or(Prop(product, "weight"), Str("0.5"))
    else if k == "shippingDistance" then Or(Prop(product, "shippingDistance"), Str("50"))
    else if k == "imageUrl" then Or(Prop(product, "image"), Str(""))
    else Null
  }

  /** The edit form's other fields: a falsy weight or shipping distance
      becomes the default (so a zero weight is edited as 0.5), no file is
      chosen, and the image URL comes from the product's `image`, so a
      product whose picture is only under `imageUrl` (which the table shows,
      reading `image || imageUrl`) is edited with a blank URL. */
  lemma EditFormFallbacks(product: JsValue)
    requires !Nullish(product)
    ensures EditForm(product)["weight"] ==
      (if Truthy(Prop(product, "weight")) then Prop(product, "weight") else Str("0.5"))
    ensures EditForm(product)["shippingDistance"] ==
      (if Truthy(Prop(product, "shippingDistance")) then Prop(product, "shippingDistance") else Str("50"))
    ensures EditForm(product)["image"] == Null
    ensures EditForm(product)["imageUrl"] ==
      (if Truthy(Prop(product, "image")) then Prop(product, "image") else Str(""))
  {
  }

  /** The form with the product being edited (`null` when adding) and
      whether the modal is open. */
  datatype Editor = Editor(form: Form, editing: JsValue, showModal: bool)

  /** `handleEdit`: open the modal on the product's values. */
  function HandleEdit(st: Editor, product: JsValue): (st': Editor)
    requires !Nullish(product)
    ensures st'.showModal && st'.editing == product
    ensures st'.form == EditForm(product)
  {
    Editor(EditForm(product), product, true)
  }

  /** The save request a submit sends. */
  datatype SaveRequest = UpdateProduct(id: JsValue, form: Form) | AddProduct(form: Form)

  /** The request `handleSubmit` sends: an update of the edited product, or
      an addition when nothing is being edited; either way the form as it is. */
  function SubmitRequest(st: Editor): (req: SaveRequest)
    ensures req.UpdateProduct? <==> Truthy(st.editing)
    ensures req.UpdateProduct? ==> req.id == Prop(st.editing, "id")
    ensures req.form == st.form
  {
    if Truthy(st.editing) then UpdateProduct(Prop(st.editing, "id"), st.form) else AddProduct(st.form)
  }

  const SaveFailed: string := "Failed to save product. Please check your inputs."

  /** What a submit leaves: the editor, whether the dashboard reloads, and
      the alert shown, if any. */
  datatype SubmitOutcome = SubmitOutcome(editor: Editor, reload: bool, alert: Option<string>)

  /** `handleSubmit`: after a successful save the modal closes, nothing is
      being edited, the form is reset and the dashboard reloads; after a
      failed one everything stays and an alert is shown. */
  function HandleSubmit(st: Editor, saveResult: Result<JsValue>): (out: SubmitOutcome)
    ensures saveResult.Success? ==> out == SubmitOutcome(Editor(DefaultForm, Null, false), true, None)
    ensures saveResult.Failure? ==> out == SubmitOutcome(st, false, Some(SaveFailed))
  {
    if saveResult.Success? then SubmitOutcome(Editor(DefaultForm, Null, false), true, None)
    else SubmitOutcome(st, false, Some(SaveFailed))
  }

  /** Editing a product and submitting updates that product with the edit
      form's values. */
  lemma EditThenSubmitUpdates(st: Editor, product: JsValue)
    requires product.Obj?
    ensures SubmitRequest(HandleEdit(st, product)) == UpdateProduct(Prop(product, "id"), EditForm(product))
  {
  }

  /** After a successful save the next submit adds a new product from the
      default form: the edit does not carry over. */
  lemma SavedThenNextSubmitAdds(st: Editor, reply: JsValue)
    ensures SubmitRequest(HandleSubmit(st, Success(reply)).editor) == AddProduct(DefaultForm)
  {
  }
}

=== FILE: sequences.dfy ===
/** Generic sequence queries shared by the services and views: filtering
    that keeps order (`stream().filter`, `Array.prototype.filter`), counting,
    `ORDER BY key DESC` as a stable descending sort (Java's `List.sort` with a
    reversed comparator) and `stream().limit(n)`. */
module Sequences {
  import opened Wrappers

  /** The first element satisfying `p` (`findFirst`, `findById` over a
      table in insertion order), or `None` when no element does. */
  function FindFirst<T(==)>(xs: seq<T>, p: T -> bool): (o: Option<T>)
    ensures o.Some? ==> o.value in xs && p(o.value)
    ensures o.Some? ==> exists k :: 0 <= k < |xs| && xs[k] == o.value && forall j :: 0 <= j < k ==> !p(xs[j])
    ensures o.None? <==> forall k :: 0 <= k < |xs| ==> !p(xs[k])
    decreases |xs|
  {
    if |xs| == 0 then None
    else if p(xs[0]) then Some(xs[0])
    else
      var r := FindFirst(xs[1..], p);
      assert forall k :: 1 <= k < |xs| ==> xs[k] == xs[1..][k - 1];
      if r.Some? then
        assert exists k :: 0 <= k < |xs| && xs[k] == r.value && forall j :: 0 <= j < k ==> !p(xs[j]) by {
          var k :| 0 <= k < |xs[1..]| && xs[1..][k] == r.value && forall j :: 0 <= j < k ==> !p(xs[1..][j]);
          assert xs[k + 1] == r.value && forall j :: 0 <= j < k + 1 ==> !p(xs[j]);
        }
        r
      else r
  }

  /** `sub` is `xs` with some elements dropped and the rest in their order. */
  predicate SubsequenceOf<T(==)>(sub: seq<T>, xs: seq<T>)
    decreases |xs|
  {
    |sub| == 0
    || (|xs| > 0 && ((sub[0] == xs[0] && SubsequenceOf(sub[1..], xs[1..])) || SubsequenceOf(sub, xs[1..])))
  }

  /** The elements satisfying `keep`, in their order. */
  function Filter<T(==)>(xs: seq<T>, keep: T -> bool): (r: seq<T>)
    ensures |r| <= |xs|
    ensures SubsequenceOf(r, xs)
    ensures forall k :: 0 <= k < |r| ==> keep(r[k]) && r[k] in xs
    ensures forall k :: 0 <= k < |xs| && keep(xs[k]) ==> xs[k] in r
    decreases |xs|
  {
    if |xs| == 0 then []
    else
      var rest := Filter(xs[1..], keep);
      assert forall k :: 1 <= k < |xs| ==> xs[k] == xs[1..][k - 1];
      if keep(xs[0]) then [xs[0]] + rest else rest
  }

  /** Filtering keeps every copy of a kept element and no copy of a dropped one. */
  lemma {:induction false} FilterMultiplicity<T>(xs: seq<T>, keep: T -> bool, y: T)
    ensures multiset(Filter(xs, keep))[y] == if keep(y) then multiset(xs)[y] else 0
    decreases |xs|
  {
    if |xs| > 0 {
      FilterMultiplicity(xs[1..], keep, y);
      var rest := Filter(xs[1..], keep);
      assert xs == [xs[0]] + xs[1..];
      assert multiset(xs) == multiset{xs[0]} + multiset(xs[1..]);
      if keep(xs[0]) {
        assert Filter(xs, keep) == [xs[0]] + rest;
        assert multiset(Filter(xs, keep)) == multiset{xs[0]} + multiset(rest);
      } else {
        assert Filter(xs, keep) == rest;
      }
    }
  }

  /** `FilterMultiplicity` for every element of `xs` at once. */
  lemma FilterCounts<T>(xs: seq<T>, keep: T -> bool)
    ensures forall k :: 0 <= k < |xs| ==>
      multiset(Filter(xs, keep))[xs[k]] == if keep(xs[k]) then multiset(xs)[xs[k]] else 0
  {
    forall k | 0 <= k < |xs|
      ensures multiset(Filter(xs, keep))[xs[k]] == if keep(xs[k]) then multiset(xs)[xs[k]] else 0
    {
      FilterMultiplicity(xs, keep, xs[k]);
    }
  }

  /** `stream().map(f)` / `Array.prototype.map(f)` */
  function Map<A, B>(xs: seq<A>, f: A -> B): (r: seq<B>)
    ensures |r| == |xs|
    ensures forall k :: 0 <= k < |xs| ==> r[k] == f(xs[k])
    decreases |xs|
  {
    if |xs| == 0 then [] else [f(xs[0])] + Map(xs[1..], f)
  }

  /** `Map` for a function defined only on some values. */
  function MapPartial<A, B>(xs: seq<A>, f: A --> B): (r: seq<B>)
    requires forall k :: 0 <= k < |xs| ==> f.requires(xs[k])
    ensures |r| == |xs|
    ensures forall k :: 0 <= k < |xs| ==> r[k] == f(xs[k])
    decreases |xs|
  {
    if |xs| == 0 then [] else [f(xs[0])] + MapPartial(xs[1..], f)
  }

  /** Mapping keeps the image of every member. */
  lemma MapHasImage<A, B>(xs: seq<A>, f: A -> B, x: A)
    requires x in xs
    ensures f(x) in Map(xs, f)
  {
    var j :| 0 <= j < |xs| && xs[j] == x;
    assert Map(xs, f)[j] == f(x);
  }

  /** Mapping distributes over concatenation. */
  lemma MapAppend<A, B>(xs: seq<A>, ys: seq<A>, f: A -> B)
    ensures Map(xs + ys, f) == Map(xs, f) + Map(ys, f)
  {
    var l, r := Map(xs + ys, f), Map(xs, f) + Map(ys, f);
    assert |l| == |r|;
    forall k | 0 <= k < |l|
      ensures l[k] == r[k]
    {
      if k < |xs| {
        assert (xs + ys)[k] == xs[k];
      } else {
        assert (xs + ys)[k] == ys[k - |xs|];
      }
    }
  }

  lemma RemoveFromBoth<T>(a: multiset<T>, b: multiset<T>, x: T)
    requires a + multiset{x} == b + multiset{x}
    ensures a == b
  {
    assert a == (a + multiset{x}) - multiset{x};
    assert b == (b + multiset{x}) - multiset{x};
  }

  /** Mapping two rearrangements of the same elements gives two
      rearrangements of the same images. */
  lemma {:induction false} MapPermutation<A, B>(xs: seq<A>, ys: seq<A>, f: A -> B)
    requires multiset(xs) == multiset(ys)
    ensures multiset(Map(xs, f)) == multiset(Map(ys, f))
    decreases |xs|
  {
    if |xs| > 0 {
      var x := xs[0];
      assert x in multiset(ys);
      var i :| 0 <= i < |ys| && ys[i] == x;
      var front, back := ys[..i], ys[i + 1..];
      assert ys == front + [x] + back;
      assert xs == [x] + xs[1..];
      assert multiset(ys) == multiset(front + back) + multiset{x};
      assert multiset(xs) == multiset(xs[1..]) + multiset{x};
      RemoveFromBoth(multiset(xs[1..]), multiset(front + back), x);
      MapPermutation(xs[1..], front + back, f);
      MapWithout(front, x, back, f);
      MapWithout([], x, xs[1..], f);
    }
  }

  /** The images of `front + [x] + back` are those of `front + back` and `f(x)`. */
  lemma MapWithout<A, B>(front: seq<A>, x: A, back: seq<A>, f: A -> B)
    ensures multiset(Map(front + [x] + back, f)) == multiset(Map(front + back, f)) + multiset{f(x)}
  {
    MapAppend(front + [x], back, f);
    MapAppend(front, [x], f);
    MapAppend(front, back, f);
    assert Map([x], f) == [f(x)];
  }

  /** The elements satisfying `hit` replaced by `f` of themselves; the
      others, and the order, unchanged. */
  function UpdateWhere<T>(xs: seq<T>, hit: T -> bool, f: T -> T): (r: seq<T>)
    ensures |r| == |xs|
    ensures forall k :: 0 <= k < |xs| ==> r[k] == (if hit(xs[k]) then f(xs[k]) else xs[k])
    decreases |xs|
  {
    if |xs| == 0 then [] else [if hit(xs[0]) then f(xs[0]) else xs[0]] + UpdateWhere(xs[1..], hit, f)
  }

  /** The number of elements satisfying `keep`. */
  function Count<T>(xs: seq<T>, keep: T -> bool): (n: nat)
    ensures n <= |xs|
    decreases |xs|
  {
    if |xs| == 0 then 0
    else Count(xs[..|xs| - 1], keep) + (if keep(xs[|xs| - 1]) then 1 else 0)
  }

  /** Appending an element that fails `keep` leaves the count alone. */
  lemma CountAppendRejected<T>(xs: seq<T>, x: T, keep: T -> bool)
    requires !keep(x)
    ensures Count(xs + [x], keep) == Count(xs, keep)
  {
    assert (xs + [x])[..|xs|] == xs;
  }

  /** `Count` is the length of `Filter`. */
  lemma {:induction false} FilterLength<T>(xs: seq<T>, keep: T -> bool)
    ensures |Filter(xs, keep)| == Count(xs, keep)
    decreases |xs|
  {
    if |xs| > 0 {
      FilterLength(xs[1..], keep);
      CountFront(xs, keep);
    }
  }

  /** `Count` read from the front. */
  lemma {:induction false} CountFront<T>(xs: seq<T>, keep: T -> bool)
    requires |xs| > 0
    ensures Count(xs, keep) == (if keep(xs[0]) then 1 else 0) + Count(xs[1..], keep)
    decreases |xs|
  {
    if |xs| > 1 {
      CountFront(xs[..|xs| - 1], keep);
      assert xs[..|xs| - 1][1..] == xs[1..][..|xs[1..]| - 1];
    }
  }

  /** Appending an element that fails `keep` leaves the filter alone. */
  lemma {:induction false} FilterAppendRejected<T>(xs: seq<T>, x: T, keep: T -> bool)
    requires !keep(x)
    ensures Filter(xs + [x], keep) == Filter(xs, keep)
    decreases |xs|
  {
    if |xs| > 0 {
      assert (xs + [x])[1..] == xs[1..] + [x];
      FilterAppendRejected(xs[1..], x, keep);
    }
  }

  /** Filtering with a predicate every element satisfies changes nothing. */
  lemma {:induction false} FilterAllKept<T>(xs: seq<T>, keep: T -> bool)
    requires forall k :: 0 <= k < |xs| ==> keep(xs[k])
    ensures Filter(xs, keep) == xs
    decreases |xs|
  {
    if |xs| > 0 {
      FilterAllKept(xs[1..], keep);
    }
  }

  /** Filtering twice with the same predicate is filtering once. */
  lemma {:induction false} FilterIdempotent<T>(xs: seq<T>, keep: T -> bool)
    ensures Filter(Filter(xs, keep), keep) == Filter(xs, keep)
    decreases |xs|
  {
    if |xs| > 0 {
      FilterIdempotent(xs[1..], keep);
    }
  }

  /** Two predicates that agree on every element filter alike. */
  lemma {:induction false} FilterCongruent<T>(xs: seq<T>, f: T -> bool, g: T -> bool)
    requires forall k :: 0 <= k < |xs| ==> f(xs[k]) == g(xs[k])
    ensures Filter(xs, f) == Filter(xs, g)
    decreases |xs|
  {
    if |xs| > 0 {
      FilterCongruent(xs[1..], f, g);
    }
  }

  /** The position of the first occurrence of `x` in `xs`, or `|xs|`. */
  function FirstIndex<T(==)>(xs: seq<T>, x: T): (i: nat)
    ensures i <= |xs|
    ensures i < |xs| <==> x in xs
    ensures i < |xs| ==> xs[i] == x
    ensures forall j :: 0 <= j < i ==> xs[j] != x
    decreases |xs|
  {
    if |xs| == 0 then 0 else if xs[0] == x then 0 else 1 + FirstIndex(xs[1..], x)
  }

  /** The first occurrence in a prefix is the first occurrence in the whole. */
  lemma FirstIndexPrefix<T>(xs: seq<T>, y: T, x: T)
    requires x in xs
    ensures FirstIndex(xs + [y], x) == FirstIndex(xs, x)
  {
    var i := FirstIndex(xs, x);
    var zs := xs + [y];
    assert zs[i] == x;
    assert forall j :: 0 <= j < i ==> zs[j] != x;
    FirstIndexUnique(zs, x, i);
  }

  /** `FirstIndex` is characterised by its two properties. */
  lemma FirstIndexUnique<T>(xs: seq<T>, x: T, i: nat)
    requires i < |xs| && xs[i] == x
    requires forall j :: 0 <= j < i ==> xs[j] != x
    ensures FirstIndex(xs, x) == i
  {
  }

  /** The elements of `d` appear in the order of their first occurrence in `xs`. */
  predicate FirstSeenOrdered<T(==)>(d: seq<T>, xs: seq<T>) {
    forall i, j :: 0 <= i < j < |d| ==> FirstIndex(xs, d[i]) < FirstIndex(xs, d[j])
  }

  /** Appending `y` to `xs` keeps the first-seen order of elements already in
      `xs`, and `y` itself, when new, sorts after all of them. */
  lemma FirstSeenAppend<T>(xs: seq<T>, y: T, d: seq<T>, grow: bool)
    requires forall i :: 0 <= i < |d| ==> d[i] in xs
    requires FirstSeenOrdered(d, xs)
    requires grow ==> y !in xs
    ensures FirstSeenOrdered(if grow then d + [y] else d, xs + [y])
  {
    var zs := xs + [y];
    forall i | 0 <= i < |d|
      ensures FirstIndex(zs, d[i]) == FirstIndex(xs, d[i]) < |xs|
    {
      FirstIndexPrefix(xs, y, d[i]);
    }
    if grow {
      FirstIndexUnique(zs, y, |xs|);
      var e := d + [y];
      forall i, j | 0 <= i < j < |e|
        ensures FirstIndex(zs, e[i]) < FirstIndex(zs, e[j])
      {
        assert e[i] == d[i];
        if j < |d| {
          assert e[j] == d[j];
        }
      }
    }
  }

  /** Keys never increase along `xs`. */
  predicate SortedDesc<T>(xs: seq<T>, key: T -> int) {
    forall i, j :: 0 <= i < j < |xs| ==> key(xs[i]) >= key(xs[j])
  }

  /** A permutation of the tail of a descending `xs` plus an element whose
      key is below the head's keeps every key at or below the head's. */
  lemma KeysBelowHead<T>(xs: seq<T>, x: T, rest: seq<T>, key: T -> int)
    requires |xs| > 0 && SortedDesc(xs, key) && key(x) < key(xs[0])
    requires multiset(rest) == multiset(xs[1..]) + multiset{x}
    ensures forall k :: 0 <= k < |rest| ==> key(rest[k]) <= key(xs[0])
  {
    forall k | 0 <= k < |rest|
      ensures key(rest[k]) <= key(xs[0])
    {
      assert rest[k] in multiset(rest);
      if rest[k] != x {
        assert rest[k] in multiset(xs[1..]);
        var j :| 0 <= j < |xs[1..]| && xs[1..][j] == rest[k];
        assert xs[j + 1] == rest[k];
      }
    }
  }

  /** A head whose key bounds every key of a descending tail keeps it descending. */
  lemma SortedCons<T>(h: T, rest: seq<T>, key: T -> int)
    requires SortedDesc(rest, key)
    requires forall k :: 0 <= k < |rest| ==> key(rest[k]) <= key(h)
    ensures SortedDesc([h] + rest, key)
  {
    var r := [h] + rest;
    forall i, j | 0 <= i < j < |r|
      ensures key(r[i]) >= key(r[j])
    {
      assert r[j] == rest[j - 1];
      if i > 0 {
        assert r[i] == rest[i - 1];
      }
    }
  }

  /** Insert `x` before the first element whose key is not greater than its own. */
  function InsertDesc<T(==)>(x: T, xs: seq<T>, key: T -> int): (r: seq<T>)
    requires SortedDesc(xs, key)
    ensures SortedDesc(r, key)
    ensures multiset(r) == multiset(xs) + multiset{x}
    ensures |r| == |xs| + 1
    decreases |xs|
  {
    if |xs| == 0 then [x]
    else if key(xs[0]) <= key(x) then [x] + xs
    else
      var rest := InsertDesc(x, xs[1..], key);
      KeysBelowHead(xs, x, rest, key);
      SortedCons(xs[0], rest, key);
      assert xs == [xs[0]] + xs[1..];
      [xs[0]] + rest
  }

  /** Sort by descending key; among equal keys the input order is kept. */
  function SortDesc<T(==)>(xs: seq<T>, key: T -> int): (r: seq<T>)
    ensures SortedDesc(r, key)
    ensures multiset(r) == multiset(xs)
    ensures |r| == |xs|
    decreases |xs|
  {
    if |xs| == 0 then []
    else
      assert xs == [xs[0]] + xs[1..];
      InsertDesc(xs[0], SortDesc(xs[1..], key), key)
  }

  /** `stream().limit(n)` */
  function Take<T>(xs: seq<T>, n: nat): (r: seq<T>)
    ensures |r| == if |xs| < n then |xs| else n
    ensures r == xs[..|r|]
  {
    if |xs| <= n then xs else xs[..n]
  }

  /** A prefix of a descending sequence is descending. */
  lemma TakeSorted<T>(xs: seq<T>, n: nat, key: T -> int)
    requires SortedDesc(xs, key)
    ensures SortedDesc(Take(xs, n), key)
  {
  }

  /** Every element of `xs` that `r` leaves out (counting repeats) has a key
      no greater than that of any element `r` keeps. */
  predicate KeepsLargest<T(==)>(r: seq<T>, xs: seq<T>, key: T -> int) {
    forall j, k :: 0 <= j < |xs| && multiset(r)[xs[j]] < multiset(xs)[xs[j]] && 0 <= k < |r| ==> key(xs[j]) <= key(r[k])
  }

  /** Cutting a descending sequence after `m` elements leaves out nothing
      larger than what it keeps. */
  lemma PrefixKeepsLargest<T>(sorted: seq<T>, m: nat, key: T -> int)
    requires SortedDesc(sorted, key) && m <= |sorted|
    ensures KeepsLargest(sorted[..m], sorted, key)
  {
    var head, tail := sorted[..m], sorted[m..];
    assert sorted == head + tail;
    assert multiset(sorted) - multiset(head) == multiset(tail);
    forall i, k | 0 <= i < |sorted| && multiset(head)[sorted[i]] < multiset(sorted)[sorted[i]] && 0 <= k < |head|
      ensures key(sorted[i]) <= key(head[k])
    {
      var x := sorted[i];
      assert x in multiset(tail);
      var j :| 0 <= j < |tail| && tail[j] == x;
      assert sorted[m + j] == x && sorted[k] == head[k];
    }
  }

  /** `ORDER BY key DESC` followed by `limit(n)`: the `n` elements with the
      largest keys (all of them when there are fewer), largest first. */
  function Newest<T(==)>(xs: seq<T>, n: nat, key: T -> int): (r: seq<T>)
    ensures |r| == if |xs| < n then |xs| else n
    ensures SortedDesc(r, key)
    ensures multiset(r) <= multiset(xs)
    ensures forall k :: 0 <= k < |r| ==> r[k] in xs
    ensures KeepsLargest(r, xs, key)
  {
    var sorted := SortDesc(xs, key);
    TakeSorted(sorted, n, key);
    PrefixFacts(sorted, xs, n, key);
    Take(sorted, n)
  }

  /** What `Newest` needs about a prefix of a descending permutation of `xs`. */
  lemma PrefixFacts<T>(sorted: seq<T>, xs: seq<T>, n: nat, key: T -> int)
    requires SortedDesc(sorted, key) && multiset(sorted) == multiset(xs)
    ensures multiset(Take(sorted, n)) <= multiset(xs)
    ensures forall k :: 0 <= k < |Take(sorted, n)| ==> Take(sorted, n)[k] in xs
    ensures KeepsLargest(Take(sorted, n), xs, key)
  {
    var r := Take(sorted, n);
    forall k | 0 <= k < |r|
      ensures r[k] in xs
    {
      assert r[k] == sorted[k] && sorted[k] in multiset(xs);
    }
    PrefixKeepsLargest(sorted, |r|, key);
    assert sorted == r + sorted[|r|..];
    assert multiset(sorted) == multiset(r) + multiset(sorted[|r|..]);
    forall j, k | 0 <= j < |xs| && multiset(r)[xs[j]] < multiset(xs)[xs[j]] && 0 <= k < |r|
      ensures key(xs[j]) <= key(r[k])
    {
      assert xs[j] in multiset(sorted);
      var i :| 0 <= i < |sorted| && sorted[i] == xs[j];
    }
  }

  // ------------------------------------------------------------- stripping

  /** `t` is `s` with its first `i` elements and its last `|s| - i - |t|`
      elements cut off, every one of them satisfying `edge`. */
  ghost predicate StrippedAt<T>(t: seq<T>, s: seq<T>, i: nat, edge: T -> bool) {
    i + |t| <= |s| && t == s[i..i + |t|]
    && (forall j :: 0 <= j < i ==> edge(s[j]))
    && (forall j :: i + |t| <= j < |s| ==> edge(s[j]))
  }

  /** Neither end of `t` satisfies `edge`. */
  predicate Unpadded<T>(t: seq<T>, edge: T -> bool) {
    |t| == 0 || (!edge(t[0]) && !edge(t[|t| - 1]))
  }

  /** `t` is `s` with every leading and trailing `edge` element removed
      and nothing else: what a `trim` promises. */
  ghost predicate StripOf<T>(t: seq<T>, s: seq<T>, edge: T -> bool) {
    Unpadded(t, edge) && exists i: nat :: StrippedAt(t, s, i, edge)
  }

  /** Stripping front then back establishes `StripOf`. */
  lemma StripFrontBack<T>(s: seq<T>, a: seq<T>, t: seq<T>, edge: T -> bool)
    requires |a| <= |s| && a == s[|s| - |a|..] && forall j :: 0 <= j < |s| - |a| ==> edge(s[j])
    requires |t| <= |a| && t == a[..|t|] && forall j :: |t| <= j < |a| ==> edge(a[j])
    requires |a| > 0 ==> !edge(a[0])
    requires |t| > 0 ==> !edge(t[|t| - 1])
    ensures StripOf(t, s, edge)
  {
    var i := |s| - |a|;
    forall j | i + |t| <= j < |s|
      ensures edge(s[j])
    {
      assert s[j] == a[j - i];
    }
    assert t == s[i..i + |t|];
    assert StrippedAt(t, s, i, edge);
  }

  /** A sequence has one strip: any two agree. */
  lemma StripUnique<T>(t: seq<T>, u: seq<T>, s: seq<T>, edge: T -> bool)
    requires StripOf(t, s, edge) && StripOf(u, s, edge)
    ensures t == u
  {
    var i: nat :| StrippedAt(t, s, i, edge);
    var i': nat :| StrippedAt(u, s, i', edge);
    if |t| > 0 && |u| > 0 {
      assert t[0] == s[i] && u[0] == s[i'];
      assert i == i';
      assert t[|t| - 1] == s[i + |t| - 1] && u[|u| - 1] == s[i' + |u| - 1];
      assert |t| == |u|;
    }
  }
}

=== FILE: wishlist.dfy ===
/** The wishlist page (frontend/src/pages/Wishlist.jsx): how a server
    wishlist entry becomes a displayed product, the fallback to the built-in
    sample items when loading fails, and removal.

    `customerAPI` is not part of this model: its replies are inputs
    (`Failure` for a request that throws). The random review count an entry
    without reviews gets is left unconstrained (`None`). */
module Wishlist {
  import opened Wrappers
  import opened Js
  import opened Sequences

  /** A displayed wishlist product. */
  datatype Item = Item(
    id: JsValue,
    wishlistId: JsValue,
    name: JsValue,
    price: Number,
    originalPrice: Number,
    image: JsValue,
    imageUrl: JsValue,
    ecoScore: int,
    rating: JsValue,
    reviews: Option<JsValue>,
    category: JsValue,
    stockQuantity: JsValue,
    isEcoFriendly: JsValue,
    carbonScore: JsValue,
    shipping: JsValue)

  /** `Number(item.productPrice ?? item.price ?? 0)` */
  function EntryPrice(e: JsValue): Number {
    ToNumber(Coalesce(Prop(e, "productPrice"), Coalesce(Prop(e, "price"), N(0.0))))
  }

  /** One entry of `transformWishlist`. An entry that is `null` or
      `undefined` throws on its first field read, so callers pass others. */
  function Transform(e: JsValue): (it: Item)
    requires !Nullish(e)
    ensures it.id == (if Truthy(Prop(e, "productId")) then Prop(e, "productId") else Prop(e, "id"))
    ensures it.wishlistId == Prop(e, "id")
    ensures it.price == EntryPrice(e) && it.originalPrice == Mul(EntryPrice(e), Finite(1.15))
    ensures it.ecoScore == (if Truthy(Prop(e, "isEcoFriendly")) then 95 else 70)
    ensures it.isEcoFriendly == (if Nullish(Prop(e, "isEcoFriendly")) then Bool(true) else Prop(e, "isEcoFriendly"))
    ensures it.carbonScore == (if Nullish(Prop(e, "carbonScore")) then N(2.4) else Prop(e, "carbonScore"))
    ensures it.reviews.Some? <==> Truthy(Prop(e, "reviews"))
    ensures it.reviews.Some? ==> it.reviews.value == Prop(e, "reviews")
  {
    var image := Or(Prop(e, "productImageUrl"), Prop(e, "image"));
    Item(
      id := Or(Prop(e, "productId"), Prop(e, "id")),
      wishlistId := Prop(e, "id"),
      name := Or(Prop(e, "productName"), Prop(e, "name")),
      price := EntryPrice(e),
      originalPrice := Mul(EntryPrice(e), Finite(1.15)),
      image := image,
      imageUrl := image,
      ecoScore := if Truthy(Prop(e, "isEcoFriendly")) then 95 else 70,
      rating := Or(Prop(e, "rating"), N(4.5)),
      reviews := if Truthy(Prop(e, "reviews")) then Some(Prop(e, "reviews")) else None,
      category := Or(Prop(e, "categoryName"), Or(Prop(e, "category"), Str("Sustainable Picks"))),
      stockQuantity := Coalesce(Prop(e, "stockQuantity"), Coalesce(Prop(e, "stock"), N(0.0))),
      isEcoFriendly := Coalesce(Prop(e, "isEcoFriendly"), Bool(true)),
      carbonScore := Coalesce(Prop(e, "carbonScore"), N(2.4)),
      shipping := Or(Prop(e, "shipping"), Str("Free Shipping")))
  }

  /** An entry without an eco flag is shown as eco-friendly (`??` gives
      true) yet scored 70 (the falsy flag picks the lower score). */
  lemma MissingFlagScoresLowYetEcoFriendly(e: JsValue)
    requires !Nullish(e) && Nullish(Prop(e, "isEcoFriendly"))
    ensures Transform(e).isEcoFriendly == Bool(true) && Transform(e).ecoScore == 70
  {
  }

  /** The shown original price is 15% above a finite price, so it exceeds
      the price exactly when the price is positive. */
  lemma OriginalPriceMarkup(e: JsValue)
    requires !Nullish(e) && EntryPrice(e).Finite?
    ensures Greater(Transform(e).originalPrice, Transform(e).price) <==> EntryPrice(e).r > 0.0
  {
  }

  /** `transformWishlist`: one item per entry, in order. */
  function TransformAll(entries: seq<JsValue>): (items: seq<Item>)
    requires forall k :: 0 <= k < |entries| ==> !Nullish(entries[k])
    ensures |items| == |entries|
    ensures forall k :: 0 <= k < |entries| ==> items[k] == Transform(entries[k])
    decreases |entries|
  {
    if |entries| == 0 then [] else [Transform(entries[0])] + TransformAll(entries[1..])
  }

  // ------------------------------------------------------------------ load

  /** A sample entry in the shape the page's built-in list uses. */
  function Sample(id: real, wishlistId: real, name: string, price: real, originalPrice: real, image: string,
                  ecoScore: real, rating: real, reviews: real, category: string, stock: real, carbon: real,
                  shipping: string): JsValue
  {
    Obj(map["id" := N(id), "wishlistId" := N(wishlistId), "name" := Str(name), "price" := N(price),
            "originalPrice" := N(originalPrice), "image" := Str(image), "ecoScore" := N(ecoScore),
            "rating" := N(rating), "reviews" := N(reviews), "category" := Str(category),
            "stockQuantity" := N(stock), "isEcoFriendly" := Bool(true), "carbonScore" := N(carbon),
            "shipping" := Str(shipping)])
  }

  /** The page's built-in sample entries. */
  const MockEntries: seq<JsValue> := [
    Sample(1.0, 101.0, "Organic Cotton T-Shirt", 29.99, 39.99,
           "https://images.unsplash.com/photo-1521572163474-6864f9cf17ab?w=400&h=400&fit=crop",
           95.0, 4.5, 128.0, "Fashion", 45.0, 2.1, "Free Shipping"),
    Sample(2.0, 102.0, "Bamboo Water Bottle", 24.99, 34.99,
           "https://images.unsplash.com/photo-1602143407151-7111542de6e8?w=400&h=400&fit=crop",
           98.0, 4.8, 89.0, "Home & Living", 32.0, 1.8, "Free Shipping"),
    Sample(3.0, 103.0, "Solar Power Bank", 49.99, 69.99,
           "https://images.unsplash.com/photo-1609592806598-ef155b6f4b0c?w=400&h=400&fit=crop",
           92.0, 4.3, 156.0, "Tech", 0.0, 2.9, "Ships in 2 days")
  ]

  const LoadFailed: string := "Unable to load wishlist. Showing saved mock items."

  /** The page's `wishlistItems` and `error`. */
  datatype WishlistView = WishlistView(items: seq<Item>, error: string)

  /** Entries `transformWishlist` can map without throwing: an array whose
      elements are not `null` or `undefined`. */
  predicate Mappable(data: JsValue) {
    data.Arr? && forall k :: 0 <= k < |data.items| ==> !Nullish(data.items[k])
  }

  /** `loadWishlist`: the reply's entries (a falsy reply counting as none);
      a failed request, or a reply the transform throws on, shows the
      transformed sample entries with the error banner. */
  function LoadWishlist(response: Result<JsValue>): (v: WishlistView)
    ensures v.error == "" <==> response.Success? && Mappable(Or(response.value, Arr([])))
    ensures v.error == "" ==> v.items == TransformAll(Or(response.value, Arr([])).items)
    ensures v.error != "" ==> v == WishlistView(TransformAll(MockEntries), LoadFailed)
  {
    if response.Success? && Mappable(Or(response.value, Arr([]))) then
      WishlistView(TransformAll(Or(response.value, Arr([])).items), "")
    else
      WishlistView(TransformAll(MockEntries), LoadFailed)
  }

  /** A falsy reply (no wishlist) is an empty list, not a failure. */
  lemma FalsyReplyIsEmpty(data: JsValue)
    requires !Truthy(data)
    ensures LoadWishlist(Success(data)) == WishlistView([], "")
  {
    assert Or(data, Arr([])) == Arr([]);
    assert Mappable(Arr([]));
  }

  // --------------------------------------------------------------- removal

  function KeepsOther(wishlistId: JsValue): Item -> bool {
    (it: Item) => !StrictEquals(it.wishlistId, wishlistId)
  }

  /** `handleRemoveFromWishlist`: after the server deletes the entry, the
      items with that wishlist id go and the rest keep their order; after a
      failure the list is unchanged. */
  function RemoveFromWishlist(items: seq<Item>, wishlistId: JsValue, response: Result<JsValue>): (r: seq<Item>)
    ensures response.Failure? ==> r == items
    ensures response.Success? ==>
      SubsequenceOf(r, items)
      && (forall k :: 0 <= k < |r| ==> !StrictEquals(r[k].wishlistId, wishlistId))
      && (forall k :: 0 <= k < |items| && !StrictEquals(items[k].wishlistId, wishlistId) ==> items[k] in r)
    // each kept entry stays as often as it was listed
    ensures response.Success? ==>
      forall k :: 0 <= k < |items| ==>
        multiset(r)[items[k]] == if StrictEquals(items[k].wishlistId, wishlistId) then 0 else multiset(items)[items[k]]
  {
    FilterCounts(items, KeepsOther(wishlistId));
    if response.Success? then Filter(items, KeepsOther(wishlistId)) else items
  }

  /** Removing an entry that is already gone changes nothing. */
  lemma RemoveTwiceIsRemoveOnce(items: seq<Item>, wishlistId: JsValue, r1: JsValue, r2: JsValue)
    ensures var once := RemoveFromWishlist(items, wishlistId, Success(r1));
      RemoveFromWishlist(once, wishlistId, Success(r2)) == once
  {
    FilterIdempotent(items, KeepsOther(wishlistId));
  }
}

=== FILE: wrappers.dfy ===
/** Failure-compatible wrappers shared by every module of the model.
    - Option<T> stands for a Java `null`/`Optional` or a JavaScript "no value".
    - Result<T> stands for an operation that either returns or throws; the
      failure carries the exception's message. */
module Wrappers {

  datatype Option<+T> = None | Some(value: T) {

    /** The wrapped value, or `default` when there is none. */
    function GetOr(default: T): T {
      match this
      case Some(v) => v
      case None => default
    }
  }

  datatype Result<+T> = Success(value: T) | Failure(error: string) {

    predicate IsFailure() {
      Failure?
    }

    function PropagateFailure<U>(): Result<U>
      requires Failure?
    {
      Failure(error)
    }

    function Extract(): T
      requires Success?
    {
      value
    }
  }
}
